=== FILE: README.md ===
# ReaderLib highlights in Dafny

ReaderLib is an EPUB reader. This project models its highlight subsystem:

- **The record.** `Highlight` has thirteen fields. `HighlightStyle` has five styles, and each style maps to a CSS class.
- **The SQLite store.** `SQLiteDatabase` versions its schema: a version-0 table gains two location columns at version 1. It runs the INSERT, UPDATE, DELETE and SELECT statements of the highlights table.
- **The façade.** `DBAPIManager` holds an optional store handle. It swallows errors, so reads answer nil or an empty list.
- **Anchoring a highlight in the page HTML:**
  - `removeSentenceSpam` strips the narration wrappers `<span class="sentence">…</span>`;
  - `matchHighlight` and `subString` find the `<highlight>` element of an id and cut the context windows on either side;
  - `htmlContentWithInsertHighlights` writes stored highlights back into a page;
  - `getEventTouchPoint` parses the click position the web view reports.
- **The JavaScript bridge:**
  - `hasClass`, `addClass` and `removeClass` work on a class attribute;
  - `getDOM` and `recreateDOMFromString` write and read the comma-separated structural locations;
  - `recreateHighlight` climbs to a common ancestor;
  - `pushSpan` is the sentence splitter's wrapper;
  - `findNextSentenceInArray` and `resetCurrentSentenceIndex` are the narration cursor.

Files, one module each:

| file | module | models |
|---|---|---|
| `wrappers.dfy` | `Wrappers` | `Option`, `Result` |
| `text.dfy` | `Text` | literal search, `replacingOccurrences`, `components(separatedBy:)` / `join`, integer spelling and parsing (Swift `Int(_:)`, JavaScript `Number`) |
| `regex.dfy` | `IcuRegex` | the ICU regular-expression fragments the patterns use: `.`, `\s`, lazy `*?` up to a literal, greedy `*` to `$` |
| `highlight.dfy` | `HighlightModel` | the record, its initializer, `HighlightStyle`, `styleForClass` / `classForStyle`, the CREATE TABLE columns |
| `store.dfy` | `HighlightStore` | `SQLiteDatabase`: the schema version, migration, table creation and the highlight statements |
| `repository.dfy` | `HighlightRepository` | `DBAPIManager` |
| `sentence.dfy` | `SentenceSpam` | `removeSentenceSpam` |
| `matching.dfy` | `HighlightMatch` | `matchHighlight`, `subString` |
| `page.dfy` | `HighlightPage` | `htmlContentWithInsertHighlights`, `getEventTouchPoint` |
| `classes.dfy` | `ClassList` | `hasClass`, `addClass`, `removeClass` |
| `dompath.dfy` | `DomPath` | `getDOM`, `recreateDOMFromString`, the common-ancestor loop |
| `narration.dfy` | `Narration` | `pushSpan`, `findNextSentenceInArray`, `resetCurrentSentenceIndex` |

A store is a value: an optional table (columns and rows) plus `user_version`. Each statement is a function from a store to a `Result`. A failing statement returns its SQLite error and leaves the store as it was. Text crosses the C interface as `CText`: a string passed with length -1 is cut at its first NUL.

## Model

| member | source | states |
|---|---|---|
| HighlightModel.Init | Sources/ReaderLib/Highlight/Models/Highlight.swift:27-41 | every field takes its argument; the date is the caller's clock reading |
| HighlightModel.DefaultRecord | Sources/ReaderLib/Highlight/Models/Highlight.swift:27-41 | with every default, text fields are empty, page and style are 0, both offsets are -1 and the note is nil |
| HighlightModel.DefaultStyle | Sources/ReaderLib/Highlight/Models/Highlight+Helper.swift:22-25 | the default style has raw value 0 (yellow) |
| HighlightModel.StyleFromRaw | Sources/ReaderLib/Highlight/Models/Highlight+Helper.swift:15-20 | `HighlightStyle(rawValue:)` is defined exactly on 0..4 and gives back that raw value |
| HighlightModel.StyleForClass | Sources/ReaderLib/Highlight/Models/Highlight+Helper.swift:30-39 | a known class names the style at its index; any other string is yellow |
| HighlightModel.ClassForStyle | Sources/ReaderLib/Highlight/Models/Highlight+Helper.swift:44-54 | the result is always one of the five classes: the class of the raw value inside 0..4, yellow's class outside |
| HighlightModel.StyleClassRoundTrip | Sources/ReaderLib/Highlight/Models/Highlight+Helper.swift:30-54 | style to class and back is the identity |
| HighlightModel.ClassStyleRoundTrip | Sources/ReaderLib/Highlight/Models/Highlight+Helper.swift:30-54 | class to style and back is the identity on the five classes |
| HighlightModel.RawValueThroughClass | Sources/ReaderLib/Highlight/Models/Highlight+Helper.swift:44-54 | a stored raw value read back through its class keeps its value inside 0..4 and becomes 0 outside |
| HighlightModel.CreateStatementShape | Sources/ReaderLib/Highlight/Models/Highlight.swift:45-63 | the created table has 13 columns, named and ordered as the INSERT lists them; `id` is the key; the two location columns come last as TEXT |
| HighlightStore.CText | Sources/ReaderLib/Database/SQLiteDatabase.swift:133-146 | the stored text is the longest NUL-free prefix and equals the input when it has no NUL |
| HighlightStore.RowOf | Sources/ReaderLib/Database/SQLiteDatabase.swift:127-155 | the inserted row holds C-truncated text, a nil note bound as `""`, and both locations non-NULL |
| HighlightStore.ReadRowAsWritten | Sources/ReaderLib/Database/SQLiteDatabase.swift:199-212 | as written, a row reads into a record exactly when both location columns are non-NULL |
| HighlightStore.ReadRow | Sources/ReaderLib/Database/SQLiteDatabase.swift:199-212 | the corrected read takes a NULL location as `""` and agrees with the as-written read wherever that succeeds |
| HighlightStore.PersistedWithoutNul | Sources/ReaderLib/Database/SQLiteDatabase.swift:127-155 | without NUL characters a stored record comes back field for field, except that a nil note comes back as `""` |
| HighlightStore.ReadRowOf | Sources/ReaderLib/Database/SQLiteDatabase.swift:127-212 | reading a written row gives the persisted record, both as written and corrected |
| HighlightStore.FindRow | Sources/ReaderLib/Database/SQLiteDatabase.swift:185-197 | a row is found exactly when some row carries the id, and the row found carries it |
| HighlightStore.CreateTable | Sources/ReaderLib/Database/SQLiteDatabase.swift:116-125 | fails with "table exists" exactly when a table is there; otherwise an empty thirteen-column table, version unchanged |
| HighlightStore.AddHighlight | Sources/ReaderLib/Database/SQLiteDatabase.swift:127-155 | missing table, missing column and duplicate id each fail with their error; on success exactly one row is appended |
| HighlightStore.UpdateStyle | Sources/ReaderLib/Database/SQLiteDatabase.swift:157-169 | fails exactly when there is no table, and then with "no such table"; a missing id is no error; columns and version are kept (the new value is observed by UpdateStyleThenGet) |
| HighlightStore.UpdateNote | Sources/ReaderLib/Database/SQLiteDatabase.swift:171-183 | fails exactly when there is no table, and then with "no such table"; a missing id is no error; columns and version are kept (the new value is observed by UpdateNoteThenGet) |
| HighlightStore.RemoveHighlight | Sources/ReaderLib/Database/SQLiteDatabase.swift:289-299 | fails exactly when there is no table; afterwards no row carries the id, and columns and version are kept |
| HighlightStore.GetHighlight | Sources/ReaderLib/Database/SQLiteDatabase.swift:185-213 | gives a record exactly when a row carries the (C-truncated) id, and that record carries the id; a NULL location reads as `""` (the corrected read of the Findings) |
| HighlightStore.GetAllByBook | Sources/ReaderLib/Database/SQLiteDatabase.swift:215-255 | exactly the full scan's records that are of the book (and of the page, if given), each once and in table order; a NULL location reads as `""` |
| HighlightStore.SelectThenRead | Sources/ReaderLib/Database/SQLiteDatabase.swift:215-255 | a WHERE on the rows, read back, is the same condition applied to the full scan's records, in order |
| HighlightStore.BookQueryIsFilteredScan | Sources/ReaderLib/Database/SQLiteDatabase.swift:215-287 | the book query is the full scan filtered by book and page: only and exactly the matching records, each once, in table order |
| HighlightStore.GetAll | Sources/ReaderLib/Database/SQLiteDatabase.swift:257-287 | one record per row, in table order; a NULL location reads as `""` |
| HighlightStore.AddColumn | Sources/ReaderLib/Database/SQLiteDatabase.swift:96-104 | the ignored failure cases (no table, column already there) change nothing; a new column is appended after the others with the rows kept as they are; afterwards the column is there and every earlier column still is |
| HighlightStore.MigrateToSchema | Sources/ReaderLib/Database/SQLiteDatabase.swift:96-104 | from any version but 0 nothing changes; from 0 the table keeps its rows and columns and then has both location columns; the version is not touched |
| HighlightStore.SetUserVersion | Sources/ReaderLib/Database/SQLiteDatabase.swift:83-94 | a successful write makes the version 1; the table is untouched |
| HighlightStore.OpenStore | Sources/ReaderLib/Database/SQLiteDatabase.swift:35-41 | an unreadable or current version changes nothing; otherwise the version becomes 1 when writable; only version 0 touches the table |
| HighlightStore.MigrateFromZero | Sources/ReaderLib/Database/SQLiteDatabase.swift:96-104 | a version-0 table gains exactly `startLocation` TEXT and `endLocation` INTEGER, NULL in every row, and the version becomes 1 |
| HighlightStore.NewerVersionDowngraded | Sources/ReaderLib/Database/SQLiteDatabase.swift:35-41 | a version above 1 is overwritten with 1 and the table is kept as it is |
| HighlightStore.FreshDatabase | Sources/ReaderLib/Database/SQLiteDatabase.swift:35-41 | a new file gets no table from opening, and creating the table then succeeds with the full schema |
| HighlightStore.CreateTwiceFails | Sources/ReaderLib/Database/SQLiteDatabase.swift:116-125 | a second CREATE TABLE fails with "table exists" |
| HighlightStore.CreatedTableInsertable | Sources/ReaderLib/Database/SQLiteDatabase.swift:127-139 | the created table has every column the INSERT names |
| HighlightStore.AddThenGet | Sources/ReaderLib/Database/SQLiteDatabase.swift:127-213 | after a successful add, reading the id gives the persisted record |
| HighlightStore.AddThenScan | Sources/ReaderLib/Database/SQLiteDatabase.swift:127-287 | after an add the full scan ends with the persisted record, and a book query gains it at the end exactly when it is of that book and page |
| HighlightStore.AddDuplicateFails | Sources/ReaderLib/Database/SQLiteDatabase.swift:127-155 | a second record with the same stored id violates the primary key |
| HighlightStore.AddKeepsValid | Sources/ReaderLib/Database/SQLiteDatabase.swift:127-155 | adding keeps ids unique and locations consistent with the columns |
| HighlightStore.UpdateKeepsValid | Sources/ReaderLib/Database/SQLiteDatabase.swift:157-183 | both updates keep the store invariant |
| HighlightStore.RemoveKeepsValid | Sources/ReaderLib/Database/SQLiteDatabase.swift:289-299 | removing keeps the store invariant |
| HighlightStore.OpenKeepsValid | Sources/ReaderLib/Database/SQLiteDatabase.swift:35-41 | opening, with or without migration, keeps the store invariant |
| HighlightStore.AddColumnKeepsValid | Sources/ReaderLib/Database/SQLiteDatabase.swift:96-104 | adding a column keeps ids unique and locations consistent with the columns |
| HighlightStore.UpdateStyleThenGet | Sources/ReaderLib/Database/SQLiteDatabase.swift:157-213 | the next read of the id sees the new style with every other field unchanged, and a missing id stays missing; other ids read as before |
| HighlightStore.UpdateNoteThenGet | Sources/ReaderLib/Database/SQLiteDatabase.swift:171-213 | the next read of the id sees exactly the new note; other ids read as before |
| HighlightStore.RemoveThenGet | Sources/ReaderLib/Database/SQLiteDatabase.swift:185-213 | after removal the id reads nil; other ids read as before |
| HighlightStore.RemoveAbsent | Sources/ReaderLib/Database/SQLiteDatabase.swift:289-299 | removing an id that is not stored changes nothing |
| HighlightStore.PageQueryRefinesBookQuery | Sources/ReaderLib/Database/SQLiteDatabase.swift:215-255 | the page query is the book query filtered by page, in the same order |
| HighlightStore.LegacyRowTrapsAsWritten | Sources/ReaderLib/Database/SQLiteDatabase.swift:199-212 | a row from before the migration cannot be read as written: every read of it traps |
| HighlightStore.LegacyRowReadsDefaults | Sources/ReaderLib/Database/SQLiteDatabase.swift:199-212 | read with the correction, the same row comes back with empty locations and is found by its id |
| HighlightRepository.Connect | Sources/ReaderLib/Database/DBAPIManager.swift:28-49 | a handle exists exactly when the file opened; an empty file gets the full empty table; an existing table goes through the version check |
| HighlightRepository.Add | Sources/ReaderLib/Database/DBAPIManager.swift:55-61 | without a handle nothing happens; a failing insert is swallowed and changes nothing |
| HighlightRepository.UpdateStyle | Sources/ReaderLib/Database/DBAPIManager.swift:68-74 | without a handle nothing happens; with one the handle stays (what is written is stated by UpdateStyleStoresRawValue) |
| HighlightRepository.UpdateNote | Sources/ReaderLib/Database/DBAPIManager.swift:81-87 | without a handle nothing happens; with one the handle stays (what is written is stated by UpdateNoteWritesNote) |
| HighlightRepository.Remove | Sources/ReaderLib/Database/DBAPIManager.swift:93-99 | without a handle nothing happens; with one the handle stays (the deletion is stated by RemoveThenGetNil) |
| HighlightRepository.Get | Sources/ReaderLib/Database/DBAPIManager.swift:107-114 | nil without a handle or on error, otherwise the store's answer |
| HighlightRepository.GetAllByBookId | Sources/ReaderLib/Database/DBAPIManager.swift:122-130 | empty without a handle or on error; otherwise exactly the stored records of the book (and page), in table order |
| HighlightRepository.GetAllHighlights | Sources/ReaderLib/Database/DBAPIManager.swift:135-142 | empty without a handle or on error; otherwise the record of every row, in table order |
| HighlightRepository.UpdateNoteWritesNote | Sources/ReaderLib/Database/DBAPIManager.swift:81-87 | after the note path, a stored id reads back with the new note and nothing else changed; an absent id stays absent |
| HighlightRepository.AddThenListed | Sources/ReaderLib/Database/DBAPIManager.swift:55-142 | a record added under a new id is the last of all highlights, and the last of its book's list when the page matches |
| HighlightRepository.NilHandlerInert | Sources/ReaderLib/Database/DBAPIManager.swift:55-142 | without a handle every mutation is a no-op and every read is nil or empty |
| HighlightRepository.CallsKeepValid | Sources/ReaderLib/Database/DBAPIManager.swift:55-99 | every façade mutation keeps the store invariant |
| HighlightRepository.ConnectValid | Sources/ReaderLib/Database/DBAPIManager.swift:28-49 | connecting to a valid file gives a valid handle |
| HighlightRepository.FirstLaunchRoundTrip | Sources/ReaderLib/Database/DBAPIManager.swift:28-114 | on a first launch, an added record reads back as persisted |
| HighlightRepository.AddThenGetThroughFacade | Sources/ReaderLib/Database/DBAPIManager.swift:55-114 | a record whose id is new reads back as persisted |
| HighlightRepository.AddDuplicateIgnored | Sources/ReaderLib/Database/DBAPIManager.swift:55-61 | a second add with a stored id is swallowed and the first record stays |
| HighlightRepository.UpdateStyleStoresRawValue | Sources/ReaderLib/Database/DBAPIManager.swift:68-74 | the next read sees the new style, always a raw value in 0..4 |
| HighlightRepository.RemoveThenGetNil | Sources/ReaderLib/Database/DBAPIManager.swift:93-114 | after a removal the id reads nil |
| Text.FindLiteral | Sources/ReaderLib/FolioReaderPage.swift:181 | a result exactly when the non-empty needle occurs, and it is the first occurrence |
| Text.SplitJoin | Sources/ReaderLib/FolioReaderPage.swift:384 | splitting undoes joining when no part contains the separator |
| Text.ParseIntToString | Sources/ReaderLib/FolioReaderPage.swift:386-390 | `Int(_:)` reads back every 64-bit integer Swift prints |
| Text.JsNumberToString | Sources/ReaderLib/Resources/Bridge.js:106-109 | `Number` reads back every safe integer JavaScript prints |
| Text.ParseJsNumber | Sources/ReaderLib/Resources/Bridge.js:107 | the empty string is 0, a `+` before a digit changes nothing, a `-` before a digit negates, and any other leading character gives no number |
| IcuRegex.LazyUntil | Sources/ReaderLib/Highlight/Models/Highlight+Helper.swift:95 | a lazy group stops at the first delimiter it can reach through accepted characters, and fails only when none is reachable |
| IcuRegex.GreedyToEnd | Sources/ReaderLib/Highlight/Models/Highlight+Helper.swift:190 | a greedy group followed by `$` ends at the last reachable end-of-input position |
| SentenceSpam.SpanMatches | Sources/ReaderLib/Highlight/Models/Highlight+Helper.swift:172-190 | matches are taken left to right without overlap, and every index a match could start at is covered |
| SentenceSpam.SpanAt | Sources/ReaderLib/Highlight/Models/Highlight+Helper.swift:189 | a match at `i` has the opening tag at `i`, the group after it, and the first `</span>` that follows closes it |
| SentenceSpam.RemoveSentenceSpam | Sources/ReaderLib/Highlight/Models/Highlight+Helper.swift:169-193 | no match, or only empty captures, leaves the text as it is; otherwise the result is the captures in order, never longer than the text |
| SentenceSpam.CleanWrapped | Sources/ReaderLib/Highlight/Models/Highlight+Helper.swift:169-193 | cleaning a run of wrapped sentences that are not all empty gives the sentences back to back |
| SentenceSpam.UnwrapSentence | Sources/ReaderLib/Highlight/Models/Highlight+Helper.swift:169-193 | cleaning inverts the narration span around one sentence that is non-empty, holds no `</span>` and no VT or NEL (what the lazy `(.\|\s)*?` can cross) |
| SentenceSpam.NotIdempotent | Sources/ReaderLib/Highlight/Models/Highlight+Helper.swift:169-193 | cleaning twice can differ from cleaning once |
| SentenceSpam.CleaningTwice | Sources/ReaderLib/Highlight/Models/Highlight+Helper.swift:169-193 | for every sentence wrappable behind an opening tag, cleaning three spans gives a wrapped sentence and cleaning again gives the bare sentence |
| HighlightMatch.TagAtShape | Sources/ReaderLib/Highlight/Models/Highlight+Helper.swift:95 | a match is the literal head for the id followed by the onclick value the lazy scan stops at |
| HighlightMatch.TagAt | Sources/ReaderLib/Highlight/Models/Highlight+Helper.swift:95 | a match found at `i` starts at `i` and its groups lie in order inside the text |
| HighlightMatch.TagAtWritten | Sources/ReaderLib/Highlight/Models/Highlight+Helper.swift:95 | a tag written with plain parts is matched at its start, its groups exactly at the written class and body |
| HighlightMatch.TagMatches | Sources/ReaderLib/Highlight/Models/Highlight+Helper.swift:97 | the matches are ordered, do not overlap, each is the match at its start, and no match starts before the first (none is skipped: TagMatchesComplete) |
| HighlightMatch.TagMatchesComplete | Sources/ReaderLib/Highlight/Models/Highlight+Helper.swift:97-101 | no match starts between two successive matches or after the last, so every non-overlapping match is listed |
| HighlightMatch.FirstTag | Sources/ReaderLib/Highlight/Models/Highlight+Helper.swift:123 | the leftmost match, and none exactly when the pattern matches nowhere |
| HighlightMatch.PreContext | Sources/ReaderLib/Highlight/Models/Highlight+Helper.swift:126-138 | the window after `>` has no `>`, never grows, and is untouched when there is no `>` |
| HighlightMatch.PreContextAfterLastGt | Sources/ReaderLib/Highlight/Models/Highlight+Helper.swift:126-138 | without VT or NEL, the trimmed window is exactly the text after the last `>` |
| HighlightMatch.PostContext | Sources/ReaderLib/Highlight/Models/Highlight+Helper.swift:126-138 | the window before `<` is a prefix of the text, untouched when there is no `<` |
| HighlightMatch.PostContextBeforeFirstLt | Sources/ReaderLib/Highlight/Models/Highlight+Helper.swift:126-138 | without VT or NEL, the trimmed window stops right before the first `<` |
| HighlightMatch.CleanWithoutMarkup | Sources/ReaderLib/Highlight/Models/Highlight+Helper.swift:169-193 | a text without `<` or without `>` survives cleaning unchanged |
| HighlightMatch.MatchContentPre | Sources/ReaderLib/Highlight/Models/Highlight+Helper.swift:101-106 | the stored context before a match has no `>` and is at most the range; without VT or NEL it is the text right before the match |
| HighlightMatch.MatchContentPost | Sources/ReaderLib/Highlight/Models/Highlight+Helper.swift:102-106 | the stored context after a match is at most the range; without VT or NEL it has no `<` and is the text right after the match |
| HighlightMatch.BuildFromMatch | Sources/ReaderLib/Highlight/Models/Highlight+Helper.swift:108-118 | the record carries the id, book, page, parsed offsets (-1 when unparsable), the style of the matched class, and the cleaned content and context |
| HighlightMatch.MatchHighlightIn | Sources/ReaderLib/Highlight/Models/Highlight+Helper.swift:94-124 | faults exactly when some match's window leaves the text, answers nothing exactly when no match exists, and otherwise builds from the leftmost match |
| HighlightMatch.PreFacts | Sources/ReaderLib/Highlight/Models/Highlight+Helper.swift:101-105 | the trimmed window before a match has no `>` and survives cleaning; without VT or NEL it ends where the match starts |
| HighlightMatch.PostFacts | Sources/ReaderLib/Highlight/Models/Highlight+Helper.swift:102-106 | the trimmed window after a match starts where the match ends; without VT or NEL it has no `<` and survives cleaning |
| HighlightPage.OnclickAction | Sources/ReaderLib/FolioReaderPage.swift:170-175 | the note action exactly when the record has a note |
| HighlightPage.HighlightTag | Sources/ReaderLib/FolioReaderPage.swift:168-175 | the tag opens with the head the pattern for the record's id looks for, and ends with the highlighted text and `</highlight>` |
| HighlightPage.TagLayout | Sources/ReaderLib/FolioReaderPage.swift:168-175 | the written tag is the head the pattern for its id expects, the action, the class and the content |
| HighlightPage.Locator | Sources/ReaderLib/FolioReaderPage.swift:177-179 | the cleaned locator is never longer than context plus content |
| HighlightPage.TagPosition | Sources/ReaderLib/FolioReaderPage.swift:181-184 | no position exactly when the locator does not occur; otherwise the locator occurs at the position less the context length and nowhere before it |
| HighlightPage.InsertOne | Sources/ReaderLib/FolioReaderPage.swift:166-189 | an unfound locator leaves the page; a range past the end faults; otherwise the tag replaces the content with the page around it unchanged |
| HighlightPage.InsertAll | Sources/ReaderLib/FolioReaderPage.swift:166-189 | the pass over the list never makes the page shorter (its composition and growth are InsertAllAppend and InsertAllGrowth) |
| HighlightPage.HtmlWithHighlights | Sources/ReaderLib/FolioReaderPage.swift:157-192 | without a book name or highlights the page is returned as it is |
| HighlightPage.InsertAllAppend | Sources/ReaderLib/FolioReaderPage.swift:166-189 | restoring a list in two parts is restoring the first part, then the second on its result |
| HighlightPage.NotFoundSkipped | Sources/ReaderLib/FolioReaderPage.swift:186-188 | a highlight whose locator is nowhere is skipped |
| HighlightPage.InsertAllGrowth | Sources/ReaderLib/FolioReaderPage.swift:166-189 | when every locator is found, the page grows by exactly the tags' overhead |
| HighlightPage.RestoredTagIsFirst | Sources/ReaderLib/FolioReaderPage.swift:168-185 | a restored tag with no earlier head for its id is the leftmost match, with its class and content as groups |
| HighlightPage.RestoreThenMatch | Sources/ReaderLib/FolioReaderPage.swift:157-192 | restoring a highlight and matching the page for its id finds it again: same id, cleaned content, and the style (the default outside 0..4) |
| HighlightPage.EventTouchPoint | Sources/ReaderLib/FolioReaderPage.swift:379-393 | after removing both names and splitting on `&`, a point exactly when there are two components that both parse as 64-bit integers, and the point is those two values |
| HighlightPage.PositionParameter | Sources/ReaderLib/Resources/Bridge.js:799 | the parameter string starts with `/clientX=` and ends with the spelling of `y` (read back by TouchPointRoundTrip) |
| HighlightPage.TouchPointRoundTrip | Sources/ReaderLib/FolioReaderPage.swift:379-393 | the parameter string the bridge builds reads back as the same point |
| HighlightPage.StripNames | Sources/ReaderLib/FolioReaderPage.swift:381-383 | removing both parameter names from the built string leaves the two spellings joined by `&` |
| HighlightPage.ExtraComponentRejected | Sources/ReaderLib/FolioReaderPage.swift:386-389 | for example `1&2&3`: a third component gives no point |
| ClassList.FirstToken | Sources/ReaderLib/Resources/Bridge.js:36 | the first index where the class stands between blanks or edges |
| ClassList.HasClass | Sources/ReaderLib/Resources/Bridge.js:35-37 | true exactly when the class stands somewhere between blanks or edges |
| ClassList.AddClass | Sources/ReaderLib/Resources/Bridge.js:39-41 | a present class leaves the attribute as it is; afterwards the class is always present |
| ClassList.RemoveClass | Sources/ReaderLib/Resources/Bridge.js:43-48 | an absent class leaves the attribute as it is; otherwise it never grows |
| ClassList.FirstMatchAtFirstToken | Sources/ReaderLib/Resources/Bridge.js:45-46 | the regex's leftmost match is the span around the first token |
| ClassList.TokenMatches | Sources/ReaderLib/Resources/Bridge.js:45-46 | the pattern matches around every token, the surrounding blanks included |
| ClassList.HasClassIsMatch | Sources/ReaderLib/Resources/Bridge.js:35-37 | `hasClass` is true exactly when the pattern matches somewhere |
| ClassList.HasClassIffWord | Sources/ReaderLib/Resources/Bridge.js:35-37 | `hasClass` is true exactly when the class is one of the blank-separated words |
| ClassList.WordHead | Sources/ReaderLib/Resources/Bridge.js:35-37 | with a word in front, the class is present exactly when it is that word or present in the rest |
| ClassList.BlankHead | Sources/ReaderLib/Resources/Bridge.js:35-37 | a leading blank does not change whether the class is present |
| ClassList.AddClassWords | Sources/ReaderLib/Resources/Bridge.js:39-41 | adding a missing class makes it the last word and keeps the other words; present classes stay present |
| ClassList.AddClassIdempotent | Sources/ReaderLib/Resources/Bridge.js:39-41 | adding twice is adding once |
| ClassList.RemoveKeepsOthers | Sources/ReaderLib/Resources/Bridge.js:43-48 | removing one class keeps every other class |
| ClassList.RemoveSingle | Sources/ReaderLib/Resources/Bridge.js:43-48 | a class written once is gone after removal |
| ClassList.RemoveLeavesDuplicate | Sources/ReaderLib/Resources/Bridge.js:45-46 | for example `a a`: removing `a` leaves ` a`, which still has the class |
| ClassList.RemoveAfterAdd | Sources/ReaderLib/Resources/Bridge.js:39-48 | removing a just-added class restores the attribute plus one trailing blank |
| DomPath.NodeAt | Sources/ReaderLib/Resources/Bridge.js:109-111 | the empty path is `body` itself |
| DomPath.GetDom | Sources/ReaderLib/Resources/Bridge.js:85-103 | the comma-separated pieces of the location are the indices from `body` down to the node, in order, then the offset (partner: DomRoundTrip) |
| DomPath.RecreateDom | Sources/ReaderLib/Resources/Bridge.js:106-114 | a decoded node is the one the path reaches, and the path has one number fewer than the string has pieces |
| DomPath.RecreateParsed | Sources/ReaderLib/Resources/Bridge.js:106-114 | a string that parses into a path and an offset decodes to the node there, or to nothing when the path leaves the tree |
| DomPath.ClimbReversed | Sources/ReaderLib/Resources/Bridge.js:86-99 | reversing the climbed indices gives the path from `body` down |
| DomPath.DomRoundTrip | Sources/ReaderLib/Resources/Bridge.js:85-114 | a location written for an existing node reads back as that node, path and offset |
| DomPath.ReadBack | Sources/ReaderLib/Resources/Bridge.js:85-108 | the written location splits and parses back into the path's indices followed by the offset |
| DomPath.StalePathFails | Sources/ReaderLib/Resources/Bridge.js:106-114 | a location whose path leaves the current tree reads back as nothing |
| DomPath.IndexBeyondChildren | Sources/ReaderLib/Resources/Bridge.js:110 | an index outside a child list reaches nothing |
| DomPath.EmptyLocationIsBody | Sources/ReaderLib/Resources/Bridge.js:106-114 | the empty location is `body` at offset 0 |
| DomPath.PlusSignedLocation | Sources/ReaderLib/Resources/Bridge.js:106-114 | `"+0"` is `body` at offset 0, as `Number` accepts a leading `+` |
| DomPath.AncestorsExist | Sources/ReaderLib/Resources/Bridge.js:122-128 | every ancestor of an existing node exists |
| DomPath.CommonPrefix | Sources/ReaderLib/Resources/Bridge.js:122-128 | a prefix of both paths that cannot be extended |
| DomPath.CommonPrefixGreatest | Sources/ReaderLib/Resources/Bridge.js:122-128 | every common ancestor lies above the computed one |
| DomPath.CommonAncestorContainer | Sources/ReaderLib/Resources/Bridge.js:122-128 | the climb stops at the deepest common ancestor of the two containers |
| Narration.PushSpan | Sources/ReaderLib/Resources/Bridge.js:624-630 | one element is pushed, wrapped when the fragment has a letter or digit and raw otherwise |
| Narration.PushAllWraps | Sources/ReaderLib/Resources/Bridge.js:624-630 | pushing fragments that each have a letter or digit appends them wrapped, in order |
| Narration.SplitParagraphCleans | Sources/ReaderLib/Resources/Bridge.js:624-630 | cleaning the wrapped paragraph the splitter writes gives back its text |
| Narration.PushedSentenceCleans | Sources/ReaderLib/Resources/Bridge.js:624-630 | cleaning undoes one wrapped sentence |
| Narration.BareFragmentKept | Sources/ReaderLib/Resources/Bridge.js:625-626 | a fragment without letters or digits survives cleaning unchanged |
| Narration.ResetIndex | Sources/ReaderLib/Resources/Bridge.js:544-546 | a reset cursor is negative |
| Narration.FindNextSentence | Sources/ReaderLib/Resources/Bridge.js:535-542 | a cursor in use moves on one and yields the element there or `undefined` past the end; a reset cursor yields `null` and stays |
| Narration.ReadAhead | Sources/ReaderLib/Resources/Bridge.js:535-542 | successive calls read the elements after the cursor in order, then `undefined` |
| Narration.ResetReadsNothing | Sources/ReaderLib/Resources/Bridge.js:544-546 | after a reset the cursor reads `null` until it is set again |

## Left out

- **Counting units.** Text offsets are counted in characters of `seq<char>`. The source mixes UTF-16 offsets (`NSString`, `NSRange`) with Swift `Character` counts (`contentPre.count`). The two differ only outside the Basic Multilingual Plane and for combined grapheme clusters.
- **Where restored highlights come from.** The page's highlight list (`Highlight.allByBookId`) comes from outside the modelled core. `HtmlWithHighlights` takes the list as an argument, and `highlightId` is the record's `id`.
- **The matching pattern.** The id and class are inserted into the pattern literally: an id with regex metacharacters, or one that fails to compile, is not modelled. The models of the `matchHighlight` match and the context windows state exact results only for text free of VT (U+000B) and NEL (U+0085), the two characters `(.|\s)` refuses.
- HighlightMatch.MatchContentPre: the exact window ("everything after the last `>`") is stated only for text without VT and NEL; otherwise the contract gives only its bounds.
- HighlightMatch.MatchContentPost: the same restriction applies to the window before the first `<`.
- **The date and the clock.** The date is an opaque value passed in as `now`, and `Highlight()`'s default clock read is a parameter.
- **Presentation.** `colorForStyle`, the note and menu UI, scrolling and geometry are not modelled. That includes `findSentenceWithIDInView`, `getSentenceWithIndex` and `highlightString`'s selection range. Guid generation is not modelled either.
- **Numbers.** JavaScript `Number` is modelled on decimal integer spellings only, with an optional leading `+` or `-`. Fractions, exponents, `Infinity`, whitespace padding, the `0x`/`0o`/`0b` radix spellings and integers beyond 2^53 (which `Number` rounds) decode to None here. `CGPoint` holds the two integers as given.
- DomPath.RecreateDom: a location piece in one of the spellings the Numbers line excludes (radix prefixes, fractions, exponents, padding, beyond 2^53) fails here, where the source converts it; `getDOM` never writes such pieces. An offset that is not a number (NaN in the source) is a failure here, although the source returns it with the node. Likewise a final index outside the child list, which the source returns as `undefined`, is a failure here. The model also does not distinguish text nodes from element nodes, so the climb through text nodes in `getDOM` is the same climb.
- HighlightRepository.Add: the completion block is never invoked by the source, so it is not a parameter.
- **Storage detail.** The `endLocation INTEGER` column affinity is not modelled. Location strings are stored as text, which matches what SQLite does for strings that are not numerals.
- **Query order.** Results are in insertion order, because the source's queries have no ORDER BY.
- HighlightStore.OpenStore: the success of `PRAGMA user_version` reads and writes is an input flag, not modelled I/O.
- HighlightStore.GetHighlight: reads a NULL location as `""`, the corrected read of the Findings. The source traps on a row stored before the version-1 migration.
- HighlightStore.GetAllByBook: reads a NULL location as `""`, as GetHighlight does.
- HighlightStore.GetAll: reads a NULL location as `""`, as GetHighlight does.
- HighlightRepository.Get: inherits the corrected read from the store.
- HighlightRepository.GetAllByBookId: inherits the corrected read from the store.
- HighlightRepository.GetAllHighlights: inherits the corrected read from the store.
- HighlightStore.AddHighlight: a page, style or offset outside the 32-bit range traps in the source's `Int32(...)` conversion while the INSERT is bound. Callers are required to stay in range (`Insertable`), so the trap itself is not modelled; the same holds for HighlightStore.RowOf and HighlightRepository.Add.
- HighlightStore.GetAllByBook: a page outside the 32-bit range traps in the source's `Int32(pageId)`. It is excluded by `requires`, as it is for HighlightRepository.GetAllByBookId.
- HighlightStore.UpdateStyle: a style outside the 32-bit range traps in the source's `Int32(type)`. It is excluded by `requires`. The update also succeeds on a table without a `type` or `id` column, where SQLite fails when it prepares the statement. Every table the store creates or migrates has both.
- HighlightStore.UpdateNote: likewise for a table without a `noteForHighlight` or `id` column.
- HighlightStore.RemoveHighlight: likewise for a table without an `id` column.
- ClassList.AddClass: class names are restricted as for HasClass below.
- ClassList.RemoveClass: class names are restricted as for HasClass below.
- ClassList.HasClass: class names are restricted to letters, digits, `-` and `_`. The source splices the name into a regular expression unescaped, so a name with metacharacters means a different pattern.
- **The rest of the sentence splitter.** Apart from `pushSpan` it is not modelled: the walk over text nodes, `addSupToPrevious` and the sentence-boundary regex.
- **Concurrency and the file system.** Threads, file paths and `sqlite3_open` are not modelled. `sqlite3_open`'s outcome is the `openOk` input.

## Findings

| source | as written | input that shows it | evidently intended | confidence | as-written member | corrected member |
|---|---|---|---|---|---|---|
| Sources/ReaderLib/Database/SQLiteDatabase.swift:199-212 | the read of every row wraps the location columns with `String(cString:)` unconditionally | a row stored before the version-1 migration, whose `startLocation` and `endLocation` are NULL after `ALTER TABLE ADD COLUMN` | a NULL location reads as the record's default `""` | not executed | HighlightStore.LegacyRowTrapsAsWritten | HighlightStore.LegacyRowReadsDefaults |

=== FILE: classes.dfy ===
/** The bridge's class-list helpers `hasClass`, `addClass` and `removeClass`,
    which look for a class name with the JavaScript pattern
    `(\s|^)` + name + `(\s|$)` inside an element's `className` string. */
module ClassList {
  import opened Wrappers
  import opened Text
  import opened IcuRegex

  /** JavaScript's `\s`: tab, the line breaks, vertical tab, form feed, the
      Unicode space separators and the byte-order mark. */
  predicate JsSpace(c: char) {
    c == '\t' || c == '\n' || c == '\U{000B}' || c == '\U{000C}' || c == '\r'
    || SeparatorZ(c) || c == '\U{FEFF}'
  }

  /** A character of the class names the bridge passes: letters, digits, `-`
      and `_`, none of them special inside a regular expression. */
  predicate ClassChar(c: char) {
    ('a' <= c <= 'z') || ('A' <= c <= 'Z') || ('0' <= c <= '9') || c == '-' || c == '_'
  }

  predicate PlainClass(cls: string) {
    |cls| > 0 && forall k :: 0 <= k < |cls| ==> ClassChar(cls[k])
  }

  // ---------------------------------------------------------------------
  // The pattern
  // ---------------------------------------------------------------------

  /** `cls` at `p` followed by `(\s|$)`: the end of the consumed text, taking
      the trailing blank when there is one. */
  function TailAt(s: string, cls: string, p: nat): (e: Option<nat>)
    ensures e.Some? ==> OccursAt(cls, s, p) && p + |cls| <= e.value <= |s|
  {
    if !OccursAt(cls, s, p) then None
    else if p + |cls| < |s| && JsSpace(s[p + |cls|]) then Some(p + |cls| + 1)
    else if p + |cls| == |s| then Some(|s|)
    else None
  }

  /** The pattern tried at index `j`: the `\s` branch first, then `^`; the end
      of the match when it succeeds. */
  function MatchAt(s: string, cls: string, j: nat): Option<nat> {
    if j < |s| && JsSpace(s[j]) && TailAt(s, cls, j + 1).Some? then TailAt(s, cls, j + 1)
    else if j == 0 then TailAt(s, cls, 0)
    else None
  }

  // ---------------------------------------------------------------------
  // Tokens
  // ---------------------------------------------------------------------

  /** `cls` at `i` with a blank or the string's edge on each side. */
  predicate TokenAt(s: string, cls: string, i: nat) {
    && OccursAt(cls, s, i)
    && (i == 0 || JsSpace(s[i - 1]))
    && (i + |cls| == |s| || JsSpace(s[i + |cls|]))
  }

  /** The first index at or after `from` where `cls` stands as a token. */
  function FirstToken(s: string, cls: string, from: nat): (r: Option<nat>)
    ensures r.Some? ==> from <= r.value && TokenAt(s, cls, r.value)
    ensures r.Some? ==> forall j :: from <= j < r.value ==> !TokenAt(s, cls, j)
    ensures r.None? ==> forall j :: from <= j ==> !TokenAt(s, cls, j)
    decreases |s| - from
  {
    if from > |s| then None
    else if TokenAt(s, cls, from) then Some(from)
    else FirstToken(s, cls, from + 1)
  }

  /** A token with none before it, from `from` on, is the first one. */
  lemma {:induction false} FirstTokenAt(s: string, cls: string, from: nat, t: nat)
    requires from <= t && TokenAt(s, cls, t)
    requires forall j :: from <= j < t ==> !TokenAt(s, cls, j)
    ensures FirstToken(s, cls, from) == Some(t)
    decreases t - from
  {
    if from < t {
      FirstTokenAt(s, cls, from + 1, t);
    }
  }

  /** Where the pattern's first match starts and ends, given the first token. */
  function RemovedSpan(s: string, cls: string, t: nat): (nat, nat)
    requires TokenAt(s, cls, t)
  {
    (if t == 0 then 0 else t - 1, if t + |cls| < |s| then t + |cls| + 1 else |s|)
  }

  /** The length of the leading run of non-blank characters. */
  function NonSpaceRun(s: string): (n: nat)
    ensures n <= |s| && (n == |s| || JsSpace(s[n]))
    ensures forall k :: 0 <= k < n ==> !JsSpace(s[k])
    decreases |s|
  {
    if |s| == 0 || JsSpace(s[0]) then 0 else 1 + NonSpaceRun(s[1..])
  }

  /** The blank-separated words of a class attribute. */
  function Tokens(s: string): (ts: seq<string>)
    ensures forall k :: 0 <= k < |ts| ==> |ts[k]| > 0
    decreases |s|
  {
    if |s| == 0 then []
    else if JsSpace(s[0]) then Tokens(s[1..])
    else
      var n := NonSpaceRun(s);
      [s[..n]] + Tokens(s[n..])
  }

  // ---------------------------------------------------------------------
  // The operations
  // ---------------------------------------------------------------------

  /** `hasClass(ele, cls)`: whether the pattern matches anywhere. */
  function HasClass(s: string, cls: string): (b: bool)
    requires PlainClass(cls)
    ensures b <==> exists i :: 0 <= i <= |s| && TokenAt(s, cls, i)
  {
    FirstToken(s, cls, 0).Some?
  }

  /** `addClass(ele, cls)`: `" " + cls` appended unless the class is there. */
  function AddClass(s: string, cls: string): (r: string)
    requires PlainClass(cls)
    ensures HasClass(s, cls) ==> r == s
    ensures HasClass(r, cls)
  {
    if HasClass(s, cls) then s
    else
      var r := s + " " + cls;
      assert TokenAt(r, cls, |s| + 1);
      r
  }

  /** `removeClass(ele, cls)`: the first match of the pattern, blanks
      included, replaced by one blank. */
  function RemoveClass(s: string, cls: string): (r: string)
    requires PlainClass(cls)
    ensures !HasClass(s, cls) ==> r == s
    ensures HasClass(s, cls) ==> |r| <= |s|
  {
    match FirstToken(s, cls, 0)
    case None => s
    case Some(t) =>
      var (j, e) := RemovedSpan(s, cls, t);
      s[..j] + " " + s[e..]
  }

  // ---------------------------------------------------------------------
  // The pattern finds exactly the tokens
  // ---------------------------------------------------------------------

  /** A match of the pattern at `j` means a token right at or after `j`. */
  lemma MatchMeansToken(s: string, cls: string, j: nat)
    requires PlainClass(cls) && MatchAt(s, cls, j).Some?
    ensures TokenAt(s, cls, j) || TokenAt(s, cls, j + 1)
  {
  }

  /** The first token gives the pattern's leftmost match, spanning
      `RemovedSpan`. */
  lemma FirstMatchAtFirstToken(s: string, cls: string)
    requires PlainClass(cls) && HasClass(s, cls)
    ensures var (j, e) := RemovedSpan(s, cls, FirstToken(s, cls, 0).value);
            && MatchAt(s, cls, j) == Some(e)
            && forall j' :: 0 <= j' < j ==> MatchAt(s, cls, j').None?
  {
    var t := FirstToken(s, cls, 0).value;
    var (j, e) := RemovedSpan(s, cls, t);
    TokenMatches(s, cls, t);
    forall j' | 0 <= j' < j ensures MatchAt(s, cls, j').None? {
      if MatchAt(s, cls, j').Some? {
        MatchMeansToken(s, cls, j');
      }
    }
  }

  /** The pattern matches around every token, over `RemovedSpan`. */
  lemma TokenMatches(s: string, cls: string, t: nat)
    requires PlainClass(cls) && TokenAt(s, cls, t)
    ensures var (j, e) := RemovedSpan(s, cls, t);
            MatchAt(s, cls, j) == Some(e)
  {
    var (j, e) := RemovedSpan(s, cls, t);
    if t == 0 {
      assert !JsSpace(s[0]) by {
        assert s[0] == cls[0];
      }
      assert MatchAt(s, cls, 0) == TailAt(s, cls, 0);
    } else {
      assert j + 1 == t;
      assert MatchAt(s, cls, j) == TailAt(s, cls, t);
    }
  }

  /** `hasClass` is true exactly when the pattern matches somewhere. */
  lemma HasClassIsMatch(s: string, cls: string)
    requires PlainClass(cls)
    ensures HasClass(s, cls) <==> exists j :: 0 <= j <= |s| && MatchAt(s, cls, j).Some?
  {
    if HasClass(s, cls) {
      FirstMatchAtFirstToken(s, cls);
      var (j, e) := RemovedSpan(s, cls, FirstToken(s, cls, 0).value);
      assert MatchAt(s, cls, j).Some?;
    } else {
      forall j | 0 <= j <= |s| ensures MatchAt(s, cls, j).None? {
        if MatchAt(s, cls, j).Some? {
          MatchMeansToken(s, cls, j);
        }
      }
    }
  }

  /** Two tokens never overlap unless they are the same word at the same
      place. */
  lemma TokensDisjoint(s: string, c: string, i: nat, d: string, k: nat)
    requires PlainClass(c) && PlainClass(d)
    requires TokenAt(s, c, i) && TokenAt(s, d, k) && i <= k < i + |c|
    ensures k == i && c == d
  {
    if k > i {
      InsideNotBlank(s, c, i, k - 1);
    }
    if |c| < |d| {
      InsideNotBlank(s, d, k, i + |c|);
    } else if |d| < |c| {
      InsideNotBlank(s, c, i, k + |d|);
    }
    assert c == s[i..i + |c|];
  }

  /** Inside an occurrence of a plain class there is no blank. */
  lemma InsideNotBlank(s: string, c: string, i: nat, x: nat)
    requires PlainClass(c) && OccursAt(c, s, i) && i <= x < i + |c|
    ensures !JsSpace(s[x])
  {
    assert s[x] == c[x - i];
  }

  // ---------------------------------------------------------------------
  // hasClass against the word list
  // ---------------------------------------------------------------------

  /** A token of a suffix that starts after a blank is a token of the whole. */
  lemma TokenShift(s: string, d: nat, c: string, i: nat, j: nat)
    requires d <= |s| && j == d + i
    requires i > 0 || d == 0 || JsSpace(s[d - 1])
    ensures TokenAt(s[d..], c, i) <==> TokenAt(s, c, j)
  {
    if OccursAt(c, s, j) {
      assert s[d..][i..i + |c|] == s[j..j + |c|];
    }
    if OccursAt(c, s[d..], i) {
      assert s[d..][i..i + |c|] == s[j..j + |c|];
    }
  }

  /** A plain class stands as a token at the start exactly when it is the
      leading word. */
  lemma LeadingToken(s: string, cls: string)
    requires PlainClass(cls) && |s| > 0 && !JsSpace(s[0])
    ensures TokenAt(s, cls, 0) <==> cls == s[..NonSpaceRun(s)]
  {
    var n := NonSpaceRun(s);
    if TokenAt(s, cls, 0) {
      LeadingTokenIsRun(s, cls);
    }
    if cls == s[..n] {
      assert s[0..|cls|] == cls;
    }
  }

  /** A plain class standing as a token at the start spans the leading run. */
  lemma LeadingTokenIsRun(s: string, cls: string)
    requires PlainClass(cls) && TokenAt(s, cls, 0)
    ensures cls == s[..NonSpaceRun(s)]
  {
    forall k | 0 <= k < |cls| ensures !JsSpace(s[k]) {
      InsideNotBlank(s, cls, 0, k);
    }
    RunUnique(s, |cls|);
    assert s[..|cls|] == cls;
  }

  /** The leading run is the only prefix of non-blanks that ends at a blank or
      at the end. */
  lemma RunUnique(s: string, m: nat)
    requires m <= |s| && (m == |s| || JsSpace(s[m]))
    requires forall k :: 0 <= k < m ==> !JsSpace(s[k])
    ensures m == NonSpaceRun(s)
  {
  }

  /** `hasClass` holds exactly when the class is one of the attribute's
      blank-separated words. */
  lemma {:induction false} HasClassIffWord(s: string, cls: string)
    requires PlainClass(cls)
    ensures HasClass(s, cls) <==> cls in Tokens(s)
    decreases |s|
  {
    if |s| == 0 {
    } else if JsSpace(s[0]) {
      HasClassIffWord(s[1..], cls);
      BlankHead(s, cls);
    } else {
      var n := NonSpaceRun(s);
      HasClassIffWord(s[n..], cls);
      WordHead(s, cls);
      assert Tokens(s) == [s[..n]] + Tokens(s[n..]);
    }
  }

  /** A leading blank neither makes nor breaks a token. */
  lemma BlankHead(s: string, cls: string)
    requires PlainClass(cls) && |s| > 0 && JsSpace(s[0])
    ensures HasClass(s, cls) <==> HasClass(s[1..], cls)
  {
    if HasClass(s, cls) {
      var t := FirstToken(s, cls, 0).value;
      assert t > 0 by {
        assert s[t] == cls[0];
      }
      TokenShift(s, 1, cls, t - 1, t);
    }
    if HasClass(s[1..], cls) {
      var t := FirstToken(s[1..], cls, 0).value;
      TokenShift(s, 1, cls, t, 1 + t);
    }
  }

  /** With a word in front, the class is there exactly when it is that word
      or it is in the rest. */
  lemma WordHead(s: string, cls: string)
    requires PlainClass(cls) && |s| > 0 && !JsSpace(s[0])
    ensures var n := NonSpaceRun(s);
            HasClass(s, cls) <==> cls == s[..n] || HasClass(s[n..], cls)
  {
    var n := NonSpaceRun(s);
    LeadingToken(s, cls);
    if HasClass(s, cls) && cls != s[..n] {
      LaterToken(s, cls, n);
    }
    if HasClass(s[n..], cls) {
      TokenInRest(s, cls, n);
    }
  }

  /** A class other than the leading word lies in the rest. */
  lemma LaterToken(s: string, cls: string, n: nat)
    requires PlainClass(cls) && |s| > 0 && !JsSpace(s[0]) && n == NonSpaceRun(s)
    requires HasClass(s, cls) && !TokenAt(s, cls, 0)
    ensures HasClass(s[n..], cls)
  {
    var t := FirstToken(s, cls, 0).value;
    assert t > n;
    TokenShift(s, n, cls, t - n, t);
  }

  /** A class in the rest is in the whole list. */
  lemma TokenInRest(s: string, cls: string, n: nat)
    requires PlainClass(cls) && n == NonSpaceRun(s)
    requires HasClass(s[n..], cls)
    ensures HasClass(s, cls)
  {
    var t := FirstToken(s[n..], cls, 0).value;
    assert t > 0 by {
      assert s[n..][t] == cls[0];
    }
    TokenShift(s, n, cls, t, n + t);
  }

  /** A blank-free word appended after a blank becomes the last word. */
  lemma {:induction false} TokensAppend(a: string, w: string)
    requires PlainClass(w)
    ensures Tokens(a + " " + w) == Tokens(a) + [w]
    decreases |a|
  {
    var s := a + " " + w;
    if |a| == 0 {
      assert s[1..] == w;
      assert NonSpaceRun(w) == |w| by {
        RunOfPlain(w);
      }
      assert w[..|w|] == w && w[|w|..] == [];
    } else if JsSpace(a[0]) {
      assert s[1..] == a[1..] + " " + w;
      TokensAppend(a[1..], w);
    } else {
      var n := NonSpaceRun(a);
      RunOfPrefix(a, " " + w);
      assert s == a + (" " + w);
      assert s[..n] == a[..n];
      assert s[n..] == a[n..] + " " + w;
      TokensAppend(a[n..], w);
    }
  }

  /** A plain class is one run of non-blank characters. */
  lemma RunOfPlain(w: string)
    requires PlainClass(w)
    ensures NonSpaceRun(w) == |w|
  {
    RunUnique(w, |w|);
  }

  /** The leading run of `a` stays the leading run when a blank follows `a`. */
  lemma RunOfPrefix(a: string, b: string)
    requires |b| > 0 && JsSpace(b[0])
    ensures NonSpaceRun(a + b) == NonSpaceRun(a)
  {
    var n := NonSpaceRun(a);
    assert forall k :: 0 <= k < n ==> (a + b)[k] == a[k];
    assert (a + b)[n] == if n < |a| then a[n] else b[0];
    RunUnique(a + b, n);
  }

  // ---------------------------------------------------------------------
  // addClass and removeClass
  // ---------------------------------------------------------------------

  /** A token of `a` stays one once a blank and more text follow it. */
  lemma TokenBeforeBlank(a: string, b: string, c: string, i: nat)
    requires TokenAt(a, c, i) && |b| > 0 && JsSpace(b[0])
    ensures TokenAt(a + b, c, i)
  {
    assert (a + b)[i..i + |c|] == a[i..i + |c|];
  }

  /** A token of `a + b` that ends inside `a` is a token of `a`. */
  lemma TokenOfPrefix(a: string, b: string, c: string, i: nat)
    requires TokenAt(a + b, c, i) && i + |c| <= |a|
    ensures TokenAt(a, c, i)
  {
    assert (a + b)[i..i + |c|] == a[i..i + |c|];
  }

  /** Adding a class makes it the last word and keeps every other class. */
  lemma AddClassWords(s: string, cls: string)
    requires PlainClass(cls)
    ensures !HasClass(s, cls) ==> Tokens(AddClass(s, cls)) == Tokens(s) + [cls]
    ensures forall c :: PlainClass(c) && HasClass(s, c) ==> HasClass(AddClass(s, cls), c)
  {
    if !HasClass(s, cls) {
      TokensAppend(s, cls);
    }
    forall c | PlainClass(c) && HasClass(s, c) ensures HasClass(AddClass(s, cls), c) {
      if !HasClass(s, cls) {
        AppendKeepsClass(s, cls, c);
      }
    }
  }

  /** A class present before `" " + cls` is appended is present after. */
  lemma AppendKeepsClass(s: string, cls: string, c: string)
    requires PlainClass(c) && HasClass(s, c)
    ensures HasClass(s + " " + cls, c)
  {
    var t := FirstToken(s, c, 0).value;
    assert s + " " + cls == s + (" " + cls);
    TokenBeforeBlank(s, " " + cls, c, t);
  }

  /** Adding twice is adding once. */
  lemma AddClassIdempotent(s: string, cls: string)
    requires PlainClass(cls)
    ensures AddClass(AddClass(s, cls), cls) == AddClass(s, cls)
  {
  }

  /** No token overlaps a blank. */
  lemma TokenAvoidsBlank(r: string, c: string, i: nat, b: nat)
    requires PlainClass(c) && TokenAt(r, c, i) && b < |r| && JsSpace(r[b])
    ensures i + |c| <= b || b < i
  {
    if i <= b < i + |c| {
      InsideNotBlank(r, c, i, b);
    }
  }

  /** A token before a span that is replaced by one blank stays a token. */
  lemma SpliceKeepsBefore(s: string, j: nat, e: nat, c: string, i: nat)
    requires j < e <= |s| && i + |c| <= j && |c| > 0
    requires i + |c| < j || JsSpace(s[j])
    ensures TokenAt(s[..j] + " " + s[e..], c, i) <==> TokenAt(s, c, i)
  {
    var r := s[..j] + " " + s[e..];
    assert r[..j] == s[..j];
    assert r[j] == ' ';
    assert r[i..i + |c|] == s[i..i + |c|];
  }

  /** A token after a span that is replaced by one blank stays a token,
      shifted. */
  lemma SpliceKeepsAfter(s: string, j: nat, e: nat, c: string, k: nat, a: nat, b: nat)
    requires a == j + 1 + k && b == e + k
    requires j < e && b + |c| <= |s| && |c| > 0
    requires k > 0 || JsSpace(s[e - 1])
    ensures TokenAt(s[..j] + " " + s[e..], c, a) <==> TokenAt(s, c, b)
  {
    var r, t := s[..j] + " " + s[e..], s[e..];
    assert r[j + 1..] == t;
    assert r[j] == ' ';
    var u, w := r[a..a + |c|], t[k..k + |c|];
    forall x | 0 <= x < |c| ensures u[x] == w[x] {
      assert r[j + 1..][k + x] == t[k + x];
    }
    assert u == w;
    assert s[b..b + |c|] == t[k..k + |c|];
  }

  /** The span `removeClass` replaces: a blank or the start, the class, and a
      blank or the end. */
  lemma RemovedSpanShape(s: string, cls: string, t: nat)
    requires PlainClass(cls) && TokenAt(s, cls, t)
    ensures var (j, e) := RemovedSpan(s, cls, t);
            && j < e <= |s| && j <= t && t + |cls| <= e
            && (t == 0 || JsSpace(s[j]))
            && (e == |s| || JsSpace(s[e - 1]))
            && !JsSpace(s[t]) && !JsSpace(s[t + |cls| - 1])
  {
    assert s[t] == cls[0] && s[t + |cls| - 1] == cls[|cls| - 1];
  }

  /** What `removeClass` leaves, given the first token. */
  lemma RemoveClassSplice(s: string, cls: string) returns (t: nat, j: nat, e: nat)
    requires PlainClass(cls) && HasClass(s, cls)
    ensures t == FirstToken(s, cls, 0).value && (j, e) == RemovedSpan(s, cls, t)
    ensures RemoveClass(s, cls) == s[..j] + " " + s[e..]
  {
    t := FirstToken(s, cls, 0).value;
    j, e := RemovedSpan(s, cls, t).0, RemovedSpan(s, cls, t).1;
  }

  /** A token other than the removed one reappears after the splice. */
  lemma SpliceKeepsToken(s: string, cls: string, t: nat, c: string, i: nat) returns (i': nat)
    requires PlainClass(cls) && PlainClass(c) && TokenAt(s, cls, t) && TokenAt(s, c, i) && i != t
    ensures var (j, e) := RemovedSpan(s, cls, t);
            TokenAt(s[..j] + " " + s[e..], c, i')
  {
    var (j, e) := RemovedSpan(s, cls, t);
    RemovedSpanShape(s, cls, t);
    assert !(i <= t < i + |c|) by {
      if i <= t < i + |c| {
        TokensDisjoint(s, c, i, cls, t);
      }
    }
    assert !(t <= i < t + |cls|) by {
      if t <= i < t + |cls| {
        TokensDisjoint(s, cls, t, c, i);
      }
    }
    if i < t {
      assert i + |c| != t;
      SpliceKeepsBefore(s, j, e, c, i);
      i' := i;
    } else {
      assert i != t + |cls|;
      var k := i - e;
      i' := j + 1 + k;
      SpliceKeepsAfter(s, j, e, c, k, i', i);
    }
  }

  /** Every token after the splice was a token other than the removed one. */
  lemma SpliceTokenWasThere(s: string, cls: string, t: nat, c: string, i: nat) returns (i0: nat)
    requires PlainClass(cls) && PlainClass(c) && TokenAt(s, cls, t)
    requires var (j, e) := RemovedSpan(s, cls, t);
             TokenAt(s[..j] + " " + s[e..], c, i)
    ensures TokenAt(s, c, i0) && i0 != t
  {
    var (j, e) := RemovedSpan(s, cls, t);
    RemovedSpanShape(s, cls, t);
    var r := s[..j] + " " + s[e..];
    assert r[j] == ' ';
    TokenAvoidsBlank(r, c, i, j);
    if i + |c| <= j {
      SpliceKeepsBefore(s, j, e, c, i);
      i0 := i;
    } else {
      var k := i - j - 1;
      i0 := e + k;
      SpliceKeepsAfter(s, j, e, c, k, i, i0);
    }
  }

  /** Removing one class keeps every other class. */
  lemma RemoveKeepsOthers(s: string, cls: string, c: string)
    requires PlainClass(cls) && PlainClass(c) && c != cls
    requires HasClass(s, c)
    ensures HasClass(RemoveClass(s, cls), c)
  {
    if HasClass(s, cls) {
      var t, j, e := RemoveClassSplice(s, cls);
      var i := FirstToken(s, c, 0).value;
      assert i != t by {
        if i == t {
          TokensDisjoint(s, c, i, cls, t);
        }
      }
      var i' := SpliceKeepsToken(s, cls, t, c, i);
      assert TokenAt(RemoveClass(s, cls), c, i');
    }
  }

  /** A class written once is gone after `removeClass`. */
  lemma RemoveSingle(s: string, cls: string)
    requires PlainClass(cls) && HasClass(s, cls)
    requires forall i :: 0 <= i <= |s| && TokenAt(s, cls, i) ==> i == FirstToken(s, cls, 0).value
    ensures !HasClass(RemoveClass(s, cls), cls)
  {
    var t, j, e := RemoveClassSplice(s, cls);
    var r := RemoveClass(s, cls);
    forall i | 0 <= i <= |r| ensures !TokenAt(r, cls, i) {
      if TokenAt(r, cls, i) {
        var i0 := SpliceTokenWasThere(s, cls, t, cls, i);
      }
    }
  }

  /** A class written twice survives one `removeClass`. */
  lemma RemoveLeavesDuplicate()
    ensures RemoveClass("a a", "a") == " a"
    ensures HasClass(" a", "a")
  {
    assert TokenAt("a a", "a", 0);
    assert TokenAt(" a", "a", 1);
  }

  /** Adding a missing class and removing it again leaves the attribute with
      one trailing blank. */
  lemma RemoveAfterAdd(s: string, cls: string)
    requires PlainClass(cls) && !HasClass(s, cls)
    ensures RemoveClass(AddClass(s, cls), cls) == s + " "
  {
    var s' := s + " " + cls;
    var t := |s| + 1;
    AppendedIsFirst(s, cls, s', t);
    assert RemovedSpan(s', cls, t) == (|s|, |s'|);
    assert s'[..|s|] == s;
  }

  /** The appended class is the first token of the attribute. */
  lemma AppendedIsFirst(s: string, cls: string, s': string, t: nat)
    requires PlainClass(cls) && !HasClass(s, cls)
    requires s' == s + " " + cls && t == |s| + 1
    ensures FirstToken(s', cls, 0) == Some(t)
  {
    assert TokenAt(s', cls, t);
    forall i | 0 <= i < t ensures !TokenAt(s', cls, i) {
      if TokenAt(s', cls, i) {
        TokenAvoidsBlank(s', cls, i, |s|);
        assert s' == s + (" " + cls);
        TokenOfPrefix(s, " " + cls, cls, i);
      }
    }
    FirstTokenAt(s', cls, 0, t);
  }
}

=== FILE: dompath.dfy ===
/** The bridge's structural locations (`getDOM`, `recreateDOMFromString` and
    the common-ancestor loop of `recreateHighlight`). A node is named by the
    child indices that lead to it from `body`; the location string is those
    indices followed by a character offset, joined with commas. */
module DomPath {
  import opened Wrappers
  import opened Text

  /** A node of the document below `body`, with its child list. */
  datatype Node = Node(children: seq<Node>)

  /** A decoded location: the indices followed, the node reached and the
      offset. */
  datatype Located = Located(path: seq<int>, node: Node, offset: int)

  /** The node reached by following `path` through the child lists from
      `root`; an index outside a child list reaches nothing. */
  function NodeAt(root: Node, path: seq<int>): (r: Option<Node>)
    ensures |path| == 0 ==> r == Some(root)
    decreases |path|
  {
    if |path| == 0 then Some(root)
    else if 0 <= path[0] < |root.children| then NodeAt(root.children[path[0]], path[1..])
    else None
  }

  predicate ValidPath(root: Node, path: seq<int>) {
    NodeAt(root, path).Some?
  }

  // ---------------------------------------------------------------------
  // getDOM
  // ---------------------------------------------------------------------

  /** The indices `getDOM` pushes while it climbs from the node to `body`:
      the node's index in its parent first, `body`'s child last. */
  function ClimbIndices(path: seq<nat>): (tags: seq<nat>)
    ensures |tags| == |path|
    decreases |path|
  {
    if |path| == 0 then [] else [path[|path| - 1]] + ClimbIndices(path[..|path| - 1])
  }

  /** `Array.prototype.reverse`. */
  function Reverse(xs: seq<nat>): (r: seq<nat>)
    ensures |r| == |xs|
    decreases |xs|
  {
    if |xs| == 0 then [] else Reverse(xs[1..]) + [xs[0]]
  }

  /** Each number written as JavaScript writes an integer. */
  function Spellings(ns: seq<int>): (r: seq<string>)
    ensures |r| == |ns|
    ensures forall k :: 0 <= k < |r| ==> r[k] == IntToString(ns[k]) && ',' !in r[k]
    decreases |ns|
  {
    if |ns| == 0 then [] else [IntToString(ns[0])] + Spellings(ns[1..])
  }

  /** `getDOM(node, offset)` for the node at `path`: the climbed indices
      reversed in place, the offset pushed, all joined with commas. */
  function GetDom(path: seq<nat>, offset: nat): (r: string)
    ensures Split(r, ',') == Spellings(path + [offset])
  {
    ClimbReversed(path);
    SplitJoin(Spellings(path + [offset]), ',');
    Join(Spellings(Reverse(ClimbIndices(path)) + [offset]), ',')
  }

  // ---------------------------------------------------------------------
  // recreateDOMFromString
  // ---------------------------------------------------------------------

  /** `str.split(",").map(Number)`, defined when every piece is a number. */
  function ParseNumbers(parts: seq<string>): (r: Option<seq<int>>)
    ensures r.Some? ==> |r.value| == |parts|
    ensures r.Some? ==> forall k :: 0 <= k < |parts| ==> ParseJsNumber(parts[k]) == Some(r.value[k])
    ensures r.None? ==> exists k :: 0 <= k < |parts| && ParseJsNumber(parts[k]).None?
    decreases |parts|
  {
    if |parts| == 0 then Some([])
    else
      match ParseJsNumber(parts[0])
      case None => None
      case Some(n) =>
        match ParseNumbers(parts[1..])
        case None => None
        case Some(rest) => Some([n] + rest)
  }

  /** `recreateDOMFromString(str)`: the last number is the offset and the
      others are followed through the child lists from `body`. */
  function RecreateDom(root: Node, str: string): (r: Option<Located>)
    ensures r.Some? ==> NodeAt(root, r.value.path) == Some(r.value.node)
    ensures r.Some? ==> |r.value.path| + 1 == |Split(str, ',')|
  {
    match ParseNumbers(Split(str, ','))
    case None => None
    case Some(ns) =>
      var path := ns[..|ns| - 1];
      match NodeAt(root, path)
      case None => None
      case Some(n) => Some(Located(path, n, ns[|ns| - 1]))
  }

  // ---------------------------------------------------------------------
  // Properties
  // ---------------------------------------------------------------------

  /** Reversing the climbed indices gives the path from `body` down. */
  lemma {:induction false} ClimbReversed(path: seq<nat>)
    ensures Reverse(ClimbIndices(path)) == path
    decreases |path|
  {
    if |path| > 0 {
      var init := path[..|path| - 1];
      ClimbReversed(init);
      ReverseCons(path[|path| - 1], ClimbIndices(init));
      assert path == init + [path[|path| - 1]];
    }
  }

  lemma {:induction false} ReverseCons(x: nat, xs: seq<nat>)
    ensures Reverse([x] + xs) == Reverse(xs) + [x]
  {
    assert ([x] + xs)[1..] == xs;
  }

  /** Reading back the numbers JavaScript writes. */
  lemma {:induction false} ParseSpellings(ns: seq<int>)
    requires forall k :: 0 <= k < |ns| ==> -MaxSafeInteger <= ns[k] <= MaxSafeInteger
    ensures ParseNumbers(Spellings(ns)) == Some(ns)
    decreases |ns|
  {
    if |ns| > 0 {
      JsNumberToString(ns[0]);
      var rest := ns[1..];
      forall k | 0 <= k < |rest| ensures -MaxSafeInteger <= rest[k] <= MaxSafeInteger {
        assert rest[k] == ns[k + 1];
      }
      ParseSpellings(rest);
      ParseCons(ns, rest);
    }
  }

  /** One more number in front of a list that reads back. */
  lemma ParseCons(ns: seq<int>, rest: seq<int>)
    requires |ns| > 0 && rest == ns[1..]
    requires ParseJsNumber(IntToString(ns[0])) == Some(ns[0])
    requires ParseNumbers(Spellings(rest)) == Some(rest)
    ensures ParseNumbers(Spellings(ns)) == Some(ns)
  {
    assert Spellings(ns)[1..] == Spellings(rest);
    assert [ns[0]] + rest == ns;
  }

  /** Following a path in two legs. */
  lemma {:induction false} NodeAtAppend(root: Node, p: seq<int>, q: seq<int>)
    ensures NodeAt(root, p + q) == match NodeAt(root, p)
                                   case None => None
                                   case Some(n) => NodeAt(n, q)
    decreases |p|
  {
    if |p| > 0 {
      assert (p + q)[0] == p[0] && (p + q)[1..] == p[1..] + q;
      if 0 <= p[0] < |root.children| {
        NodeAtAppend(root.children[p[0]], p[1..], q);
      }
    } else {
      assert p + q == q;
    }
  }

  /** The path of a node that exists, with an offset, reads back as that
      node, the same path and the same offset. */
  lemma DomRoundTrip(root: Node, path: seq<nat>, offset: nat)
    requires ValidPath(root, path)
    requires forall k :: 0 <= k < |path| ==> path[k] <= MaxSafeInteger
    requires offset <= MaxSafeInteger
    ensures RecreateDom(root, GetDom(path, offset)) == Some(Located(path, NodeAt(root, path).value, offset))
  {
    ReadBack(path, offset);
    RecreateParsed(root, GetDom(path, offset), path, offset);
  }

  /** A string that parses into a path and an offset reads back as the node
      there, or as nothing when the path leaves the tree. */
  lemma RecreateParsed(root: Node, str: string, path: seq<nat>, offset: nat)
    requires var ns := ParseNumbers(Split(str, ','));
             ns.Some? && |ns.value| == |path| + 1
             && ns.value[..|path|] == path && ns.value[|path|] == offset
    ensures ValidPath(root, path) ==> RecreateDom(root, str) == Some(Located(path, NodeAt(root, path).value, offset))
    ensures !ValidPath(root, path) ==> RecreateDom(root, str).None?
  {
  }

  /** The location string of a path and offset splits and parses back into
      the path's indices followed by the offset. */
  lemma ReadBack(path: seq<nat>, offset: nat)
    requires forall k :: 0 <= k < |path| ==> path[k] <= MaxSafeInteger
    requires offset <= MaxSafeInteger
    ensures var ns := ParseNumbers(Split(GetDom(path, offset), ','));
            ns.Some? && |ns.value| == |path| + 1
            && ns.value[..|path|] == path && ns.value[|path|] == offset
  {
    var ns: seq<int> := path + [offset];
    ParseSpellings(ns);
    assert ns[..|path|] == path;
  }

  /** A location whose path leaves the tree decodes to nothing. */
  lemma StalePathFails(root: Node, path: seq<nat>, offset: nat)
    requires !ValidPath(root, path)
    requires forall k :: 0 <= k < |path| ==> path[k] <= MaxSafeInteger
    requires offset <= MaxSafeInteger
    ensures RecreateDom(root, GetDom(path, offset)).None?
  {
    ReadBack(path, offset);
    RecreateParsed(root, GetDom(path, offset), path, offset);
  }

  /** One index past the last child reaches nothing. */
  lemma IndexBeyondChildren(root: Node, path: seq<int>, k: int)
    requires ValidPath(root, path)
    requires k < 0 || k >= |NodeAt(root, path).value.children|
    ensures NodeAt(root, path + [k]).None?
  {
    NodeAtAppend(root, path, [k]);
  }

  /** The empty location is `body` at offset 0, since `Number("")` is 0. */
  lemma EmptyLocationIsBody(root: Node)
    ensures RecreateDom(root, "") == Some(Located([], root, 0))
  {
    assert Split("", ',') == [""];
  }

  /** `Number` accepts a leading `+`, so "+0" is body at offset 0 too. */
  lemma PlusSignedLocation(root: Node)
    ensures RecreateDom(root, "+0") == Some(Located([], root, 0))
  {
    var parts: seq<string> := ["+0"];
    assert Join(parts, ',') == "+0";
    SplitJoin(parts, ',');
    assert "+0"[1..] == "0";
  }

  /** Every ancestor of a node that exists exists too. */
  lemma {:induction false} AncestorsExist(root: Node, path: seq<int>, q: seq<int>)
    requires ValidPath(root, path) && q <= path
    ensures ValidPath(root, q)
  {
    assert path == q + path[|q|..];
    NodeAtAppend(root, q, path[|q|..]);
  }

  // ---------------------------------------------------------------------
  // The common ancestor
  // ---------------------------------------------------------------------

  /** The longest common prefix of two paths. */
  function CommonPrefix(a: seq<int>, b: seq<int>): (r: seq<int>)
    ensures r <= a && r <= b
    ensures |r| == |a| || |r| == |b| || a[|r|] != b[|r|]
    decreases |a|
  {
    if |a| == 0 || |b| == 0 || a[0] != b[0] then []
    else [a[0]] + CommonPrefix(a[1..], b[1..])
  }

  /** Every common prefix lies within the longest one. */
  lemma CommonPrefixGreatest(a: seq<int>, b: seq<int>, q: seq<int>)
    requires q <= a && q <= b
    ensures q <= CommonPrefix(a, b)
  {
    var r := CommonPrefix(a, b);
    if |q| > |r| {
      PrefixAgrees(q, a, b, |r|);
    }
  }

  /** Two sequences that both extend `q` agree inside it. */
  lemma PrefixAgrees(q: seq<int>, a: seq<int>, b: seq<int>, k: nat)
    requires q <= a && q <= b && k < |q|
    ensures a[k] == b[k]
  {
    assert a[k] == q[k] == b[k];
  }

  /** The loop of `recreateHighlight`: from the start container climb to
      the parent until the current node contains the end container
      (`contains` is true of the node itself), stopping at `body`. */
  method CommonAncestorContainer(start: seq<int>, end: seq<int>) returns (c: seq<int>)
    ensures c == CommonPrefix(start, end)
  {
    c := start;
    CommonPrefixGreatest(start, end, CommonPrefix(start, end));
    while true
      invariant c <= start
      invariant CommonPrefix(start, end) <= c
      decreases |c|
    {
      if c <= end {
        CommonPrefixGreatest(start, end, c);
        break;
      }
      c := c[..|c| - 1];
      if c == [] {
        break;
      }
    }
  }
}

=== FILE: highlight.dfy ===
/** The highlight record, its style enumeration with the CSS class mapping, and
    the `highlights` table definition. */
module HighlightModel {
  import opened Wrappers

  /** The `date` field: a floating-point time interval, carried through unchanged
      and otherwise opaque. */
  datatype Date = Date(sinceReferenceDate: real)

  /** One user highlight, with the thirteen persisted fields. */
  datatype Highlight = Highlight(
    id: string,
    bookId: string,
    content: string,
    contentPost: string,
    contentPre: string,
    date: Date,
    page: int,
    style: int,       // the `type` field: a raw HighlightStyle value
    startOffset: int,
    endOffset: int,
    noteForHighlight: Option<string>,
    startLocation: string,
    endLocation: string)

  /** The designated initializer. Every field has a default except `date`, whose
      default reads the clock and is therefore the caller's `now`. */
  function Init(now: Date, id: string := "", bookId: string := "", content: string := "",
                contentPost: string := "", contentPre: string := "", page: int := 0,
                style: int := 0, startOffset: int := -1, endOffset: int := -1,
                noteForHighlight: Option<string> := None, startLocation: string := "",
                endLocation: string := ""): (h: Highlight)
    ensures h.id == id && h.bookId == bookId && h.content == content
    ensures h.contentPost == contentPost && h.contentPre == contentPre && h.date == now
    ensures h.page == page && h.style == style
    ensures h.startOffset == startOffset && h.endOffset == endOffset
    ensures h.noteForHighlight == noteForHighlight
    ensures h.startLocation == startLocation && h.endLocation == endLocation
  {
    Highlight(id, bookId, content, contentPost, contentPre, now, page, style,
              startOffset, endOffset, noteForHighlight, startLocation, endLocation)
  }

  /** `Highlight()` with every argument left at its default. */
  lemma DefaultRecord(now: Date)
    ensures var h := Init(now);
            && h.id == "" && h.bookId == "" && h.content == ""
            && h.contentPost == "" && h.contentPre == ""
            && h.startLocation == "" && h.endLocation == ""
            && h.page == 0 && h.style == 0
            && h.startOffset == -1 && h.endOffset == -1
            && h.noteForHighlight == None && h.date == now
  {
  }

  // ---------------------------------------------------------------------
  // HighlightStyle
  // ---------------------------------------------------------------------

  /** The five visual styles, with raw values 0..4 in declaration order. */
  datatype HighlightStyle = Yellow | Green | Blue | Pink | Underline {

    function RawValue(): (n: int)
      ensures 0 <= n < |ClassNames|
    {
      match this
      case Yellow => 0
      case Green => 1
      case Blue => 2
      case Pink => 3
      case Underline => 4
    }
  }

  /** The CSS class of each style, indexed by raw value. */
  const ClassNames: seq<string> :=
    ["highlight-yellow", "highlight-green", "highlight-blue", "highlight-pink", "highlight-underline"]

  /** `HighlightStyle()`: the default style. */
  function DefaultStyle(): (s: HighlightStyle)
    ensures s.RawValue() == 0
  {
    Yellow
  }

  /** `HighlightStyle(rawValue:)`: defined exactly on 0..4. */
  function StyleFromRaw(n: int): (r: Option<HighlightStyle>)
    ensures r.Some? <==> 0 <= n < |ClassNames|
    ensures r.Some? ==> r.value.RawValue() == n
  {
    if n == 0 then Some(Yellow)
    else if n == 1 then Some(Green)
    else if n == 2 then Some(Blue)
    else if n == 3 then Some(Pink)
    else if n == 4 then Some(Underline)
    else None
  }

  /** The style named by a CSS class; any other string is yellow. */
  function StyleForClass(className: string): (s: HighlightStyle)
    ensures className !in ClassNames ==> s == Yellow
    ensures className in ClassNames ==> ClassNames[s.RawValue()] == className
  {
    if className == "highlight-yellow" then Yellow
    else if className == "highlight-green" then Green
    else if className == "highlight-blue" then Blue
    else if className == "highlight-pink" then Pink
    else if className == "highlight-underline" then Underline
    else Yellow
  }

  /** The CSS class of a raw style value; values outside 0..4 fall back to the
      default style's class. */
  function ClassForStyle(style: int): (c: string)
    ensures c in ClassNames
    ensures 0 <= style < |ClassNames| ==> StyleFromRaw(style).value.RawValue() == style && c == ClassNames[style]
    ensures !(0 <= style < |ClassNames|) ==> c == "highlight-yellow"
  {
    var s := StyleFromRaw(style).GetOr(DefaultStyle());
    match s
    case Yellow => "highlight-yellow"
    case Green => "highlight-green"
    case Blue => "highlight-blue"
    case Pink => "highlight-pink"
    case Underline => "highlight-underline"
  }

  /** Every style survives the trip to its class and back. */
  lemma StyleClassRoundTrip(s: HighlightStyle)
    ensures StyleForClass(ClassForStyle(s.RawValue())) == s
  {
  }

  /** Every recognised class survives the trip to its style and back. */
  lemma ClassStyleRoundTrip(className: string)
    requires className in ClassNames
    ensures ClassForStyle(StyleForClass(className).RawValue()) == className
  {
  }

  /** A raw value read back through its class is the value itself inside 0..4,
      and the default style's value outside it. */
  lemma RawValueThroughClass(n: int)
    ensures StyleForClass(ClassForStyle(n)).RawValue() == if 0 <= n < |ClassNames| then n else 0
  {
    if 0 <= n < |ClassNames| {
      StyleClassRoundTrip(StyleFromRaw(n).value);
    }
  }

  // ---------------------------------------------------------------------
  // The table definition (`createStatement`)
  // ---------------------------------------------------------------------

  /** Declared SQLite column types. */
  datatype SqlType = TextType | IntegerType | RealType

  datatype Column = Column(name: string, declType: SqlType)

  /** The table the statement creates. */
  const TableName: string := "highlights"

  /** The primary-key column: `TEXT PRIMARY KEY NOT NULL`. */
  const PrimaryKeyColumn: string := "id"

  /** The columns of `CREATE TABLE "highlights"`, in declaration order. The
      statement carries no `IF NOT EXISTS`. */
  const CreateColumns: seq<Column> := [
    Column("id", TextType),
    Column("bookId", TextType),
    Column("content", TextType),
    Column("contentPost", TextType),
    Column("contentPre", TextType),
    Column("date", RealType),
    Column("page", IntegerType),
    Column("type", IntegerType),
    Column("startOffset", IntegerType),
    Column("endOffset", IntegerType),
    Column("noteForHighlight", TextType),
    Column("startLocation", TextType),
    Column("endLocation", TextType)
  ]

  /** The column list of the store's INSERT statement. */
  const InsertColumns: seq<string> := [
    "id", "bookId", "content", "contentPost", "contentPre", "date", "page", "type",
    "startOffset", "endOffset", "noteForHighlight", "startLocation", "endLocation"
  ]

  /** The columns added by schema version 1; the rest form the version-0 table. */
  const SchemaOneColumns: seq<string> := ["startLocation", "endLocation"]

  function ColumnNames(cols: seq<Column>): (names: seq<string>)
    ensures |names| == |cols|
    ensures forall i :: 0 <= i < |cols| ==> names[i] == cols[i].name
  {
    seq(|cols|, i requires 0 <= i < |cols| => cols[i].name)
  }

  /** The created table has thirteen columns, in the order the INSERT
      lists them and the readers index them (0..12); the two location columns
      are TEXT and come last. */
  lemma CreateStatementShape()
    ensures |CreateColumns| == 13
    ensures ColumnNames(CreateColumns) == InsertColumns
    ensures CreateColumns[0].name == PrimaryKeyColumn
    ensures CreateColumns[11] == Column("startLocation", TextType)
    ensures CreateColumns[12] == Column("endLocation", TextType)
    ensures InsertColumns[11..] == SchemaOneColumns
  {

  }
}

=== FILE: matching.dfy ===
/** `Highlight.matchHighlight` and `Highlight.subString`: finding the
    `<highlight id="ID" onclick="…" class="…">…</highlight>` wrapper of a
    highlight in page HTML and rebuilding the record from it, with the text
    around it trimmed at the nearest markup. */
module HighlightMatch {
  import opened Wrappers
  import opened Text
  import opened IcuRegex
  import opened SentenceSpam
  import opened HighlightModel

  const OnclickDelim: string := "\" class=\""
  const ClassDelim: string := "\">"
  const CloseTag: string := "</highlight>"

  /** The literal head of the pattern for `id`, up to the onclick value. The id
      is taken literally. */
  function OpenPrefix(id: string): string {
    "<highlight id=\"" + id + "\" onclick=\""
  }

  /** One match of the pattern: the whole match is `[start, end)`, group 1 (the
      class) is `[classStart, classEnd)` and group 2 (the body) is
      `[bodyStart, bodyEnd)`. */
  datatype TagMatch = TagMatch(start: nat, classStart: nat, classEnd: nat, bodyStart: nat, bodyEnd: nat, end: nat)

  predicate TagWithin(s: string, m: TagMatch) {
    m.start < m.classStart <= m.classEnd < m.bodyStart <= m.bodyEnd < m.end <= |s|
  }

  /** `">((.|\s)*?)</highlight>` tried with the class group ending at `k`: the
      end of the body, if the rest of the pattern matches there. */
  function BodyAfter(s: string, k: nat): (r: Option<nat>)
    requires k <= |s|
    ensures r.Some? ==> OccursAt(ClassDelim, s, k) && k + |ClassDelim| <= r.value
    ensures r.Some? ==> OccursAt(CloseTag, s, r.value) && AllAccepted(s, k + |ClassDelim|, r.value, DotOrSpace)
  {
    if OccursAt(ClassDelim, s, k) then LazyUntil(s, k + |ClassDelim|, DotOrSpace, CloseTag) else None
  }

  /** The tail `(.*?)">((.|\s)*?)</highlight>` from `k`: the lazy class group
      tries each end in turn, backtracking whenever the body cannot match. The
      answer is the class end and the body end. */
  function ClassFrom(s: string, k: nat): (r: Option<(nat, nat)>)
    requires k <= |s|
    ensures r.Some? ==> k <= r.value.0 <= |s| && BodyAfter(s, r.value.0) == Some(r.value.1)
    decreases |s| - k
  {
    match BodyAfter(s, k)
    case Some(e) => Some((k, e))
    case None => if k < |s| && Dot.Accepts(s[k]) then ClassFrom(s, k + 1) else None
  }

  /** The class group runs over one line of text. */
  lemma {:induction false} ClassFromAccepted(s: string, k: nat)
    requires k <= |s| && ClassFrom(s, k).Some?
    ensures AllAccepted(s, k, ClassFrom(s, k).value.0, Dot)
    decreases |s| - k
  {
    if BodyAfter(s, k).None? {
      ClassFromAccepted(s, k + 1);
    }
  }

  /** The class group ends at the first place, reached through one line of
      text, where the rest of the pattern matches; there is none exactly when
      no such place exists. */
  lemma {:induction false} ClassFromFirst(s: string, k: nat)
    requires k <= |s|
    ensures ClassFrom(s, k).Some? ==> forall j :: k <= j < ClassFrom(s, k).value.0 ==> BodyAfter(s, j).None?
    ensures ClassFrom(s, k).None? ==> forall j :: k <= j <= |s| && AllAccepted(s, k, j, Dot) ==> BodyAfter(s, j).None?
    decreases |s| - k
  {
    if BodyAfter(s, k).None? && k < |s| && Dot.Accepts(s[k]) {
      ClassFromFirst(s, k + 1);
      assert forall j :: k + 1 <= j <= |s| && AllAccepted(s, k, j, Dot) ==> AllAccepted(s, k + 1, j, Dot);
    }
  }

  /** `" class="` followed by the tail, tried with the onclick value ending at `k`. */
  function ClassAfter(s: string, k: nat): (r: Option<(nat, nat)>)
    requires k <= |s|
    ensures r.Some? ==> OccursAt(OnclickDelim, s, k) && r == ClassFrom(s, k + |OnclickDelim|)
  {
    if OccursAt(OnclickDelim, s, k) then ClassFrom(s, k + |OnclickDelim|) else None
  }

  /** The lazy onclick value `.*?` from `k`: the end of the onclick value at
      which the rest of the pattern first matches. */
  function OnclickFrom(s: string, k: nat): (r: Option<nat>)
    requires k <= |s|
    ensures r.Some? ==> k <= r.value <= |s| && ClassAfter(s, r.value).Some?
    decreases |s| - k
  {
    if ClassAfter(s, k).Some? then Some(k)
    else if k < |s| && Dot.Accepts(s[k]) then OnclickFrom(s, k + 1)
    else None
  }

  /** The onclick value runs over one line of text. */
  lemma {:induction false} OnclickFromAccepted(s: string, k: nat)
    requires k <= |s| && OnclickFrom(s, k).Some?
    ensures AllAccepted(s, k, OnclickFrom(s, k).value, Dot)
    decreases |s| - k
  {
    if ClassAfter(s, k).None? {
      OnclickFromAccepted(s, k + 1);
    }
  }

  /** The onclick value ends at the first place, reached through one line of
      text, where the rest of the pattern matches; there is none exactly when
      no such place exists. */
  lemma {:induction false} OnclickFromFirst(s: string, k: nat)
    requires k <= |s|
    ensures OnclickFrom(s, k).Some? ==> forall j :: k <= j < OnclickFrom(s, k).value ==> ClassAfter(s, j).None?
    ensures OnclickFrom(s, k).None? ==> forall j :: k <= j <= |s| && AllAccepted(s, k, j, Dot) ==> ClassAfter(s, j).None?
    decreases |s| - k
  {
    if ClassAfter(s, k).None? && k < |s| && Dot.Accepts(s[k]) {
      var next := k + 1;
      OnclickFromFirst(s, next);
      assert OnclickFrom(s, k) == OnclickFrom(s, next);
      if OnclickFrom(s, k).Some? {
        forall j | k <= j < OnclickFrom(s, k).value ensures ClassAfter(s, j).None? {
          if j == k {
          } else {
            assert next <= j;
          }
        }
      } else {
        forall j | k <= j <= |s| && AllAccepted(s, k, j, Dot) ensures ClassAfter(s, j).None? {
          if j == k {
          } else {
            assert AllAccepted(s, next, j, Dot);
          }
        }
      }
    }
  }

  /** The match assembled from its start and the end of its onclick value. */
  function Assemble(s: string, i: nat, k: nat): (m: TagMatch)
    requires k <= |s| && ClassAfter(s, k).Some?
  {
    var c := ClassAfter(s, k).value;
    TagMatch(i, k + |OnclickDelim|, c.0, c.0 + |ClassDelim|, c.1, c.1 + |CloseTag|)
  }

  /** The match at index `i` whose literal head ends at `o`: the lazy onclick
      value from `o` and the assembled tail. */
  function TagFrom(s: string, i: nat, o: nat): (r: Option<TagMatch>)
    requires i <= o <= |s|
    ensures r.Some? ==> r.value.start == i && TagWithin(s, r.value)
  {
    if OnclickFrom(s, o).Some? then Some(Assemble(s, i, OnclickFrom(s, o).value)) else None
  }

  /** The match at index `i` of the pattern whose literal head is `head`. */
  function TagAtHead(s: string, head: string, i: nat): (r: Option<TagMatch>)
    ensures r.Some? ==> r.value.start == i && TagWithin(s, r.value)
  {
    if OccursAt(head, s, i) then TagFrom(s, i, HeadEnd(head, i)) else None
  }

  /** Where a literal head placed at `i` ends. */
  function HeadEnd(head: string, i: nat): (o: nat)
    ensures o == i + |head|
  {
    i + |head|
  }

  /** The match of the pattern for `id` that starts at index `i`, if any. */
  function TagAt(s: string, id: string, i: nat): (r: Option<TagMatch>)
    ensures r.Some? ==> r.value.start == i && TagWithin(s, r.value)
  {
    TagAtHead(s, OpenPrefix(id), i)
  }

  /** The assembled match has `" class="`, `">` and `</highlight>` at its
      seams, a one-line class, and a body without VT or NEL. */
  lemma AssembleShape(s: string, i: nat, k: nat)
    requires k <= |s| && ClassAfter(s, k).Some?
    ensures var m := Assemble(s, i, k);
      && m.classStart - |OnclickDelim| == k
      && OccursAt(OnclickDelim, s, k)
      && OccursAt(ClassDelim, s, m.classEnd) && m.bodyStart == m.classEnd + |ClassDelim|
      && OccursAt(CloseTag, s, m.bodyEnd) && m.end == m.bodyEnd + |CloseTag|
      && AllAccepted(s, m.classStart, m.classEnd, Dot)
      && AllAccepted(s, m.bodyStart, m.bodyEnd, DotOrSpace)
      && (forall j :: m.classStart <= j < m.classEnd ==> BodyAfter(s, j).None?)
  {
    var c := ClassAfter(s, k).value;
    ClassFromAccepted(s, k + |OnclickDelim|);
    ClassFromFirst(s, k + |OnclickDelim|);
    assert BodyAfter(s, c.0) == Some(c.1);
  }

  /** A match is the literal head followed by the onclick value the lazy scan
      picks (see `OnclickFromAccepted` and `OnclickFromFirst`) and the
      assembled tail. */
  lemma TagAtShape(s: string, id: string, i: nat) returns (k: nat)
    requires TagAt(s, id, i).Some?
    ensures OccursAt(OpenPrefix(id), s, i)
    ensures OnclickFrom(s, HeadEnd(OpenPrefix(id), i)) == Some(k)
    ensures TagAt(s, id, i) == Some(Assemble(s, i, k))
  {
    k := OnclickFrom(s, HeadEnd(OpenPrefix(id), i)).value;
  }

  /** The lazy class group stops at the first `">` it reaches when the class
      text before it is one line without `"`. */
  lemma {:induction false} ClassFromFinds(s: string, k: nat, e: nat)
    requires k <= e <= |s|
    requires forall j :: k <= j < e ==> s[j] != '"' && Dot.Accepts(s[j])
    requires BodyAfter(s, e).Some?
    ensures ClassFrom(s, k) == Some((e, BodyAfter(s, e).value))
    decreases e - k
  {
    if k < e {
      if k + |ClassDelim| <= |s| {
        assert s[k..k + |ClassDelim|][0] == s[k];
      }
      ClassFromFinds(s, k + 1, e);
    }
  }

  /** The lazy onclick value stops at the first `" class="` it reaches when
      the value before it is one line without `"`. */
  lemma {:induction false} OnclickFromFinds(s: string, k: nat, e: nat)
    requires k <= e <= |s|
    requires forall j :: k <= j < e ==> s[j] != '"' && Dot.Accepts(s[j])
    requires ClassAfter(s, e).Some?
    ensures OnclickFrom(s, k) == Some(e)
    decreases e - k
  {
    if k < e {
      if k + |OnclickDelim| <= |s| {
        assert s[k..k + |OnclickDelim|][0] == s[k];
      }
      OnclickFromFinds(s, k + 1, e);
    }
  }

  /** Where `t` occurs in `s`, its characters are those of `s` index by index. */
  lemma OccursChars(t: string, s: string, i: nat)
    requires OccursAt(t, s, i)
    ensures forall j :: i <= j < i + |t| ==> s[j] == t[j - i]
  {
    forall j | i <= j < i + |t| ensures s[j] == t[j - i] {
      assert s[i..i + |t|][j - i] == s[j];
    }
  }

  /** The tail of a written tag, placed from `o` (the end of the head): the
      onclick value, `" class="`, the class, `">`, the body and `</highlight>`. */
  predicate TailWrittenAt(s: string, o: nat, onclick: string, cls: string, body: string) {
    var c := o + |onclick| + |OnclickDelim|;
    var d := c + |cls| + |ClassDelim|;
    && OccursAt(onclick, s, o) && OccursAt(OnclickDelim, s, o + |onclick|)
    && OccursAt(cls, s, c) && OccursAt(ClassDelim, s, c + |cls|)
    && OccursAt(body, s, d) && OccursAt(CloseTag, s, d + |body|)
  }

  /** Text the pattern's lazy groups cannot stop inside: an onclick value and a
      class on one line without `"`, and a body without VT, NEL or `</highlight>`. */
  predicate TagPartsPlain(onclick: string, cls: string, body: string) {
    && (forall x :: 0 <= x < |onclick| ==> onclick[x] != '"' && Dot.Accepts(onclick[x]))
    && (forall x :: 0 <= x < |cls| ==> cls[x] != '"' && Dot.Accepts(cls[x]))
    && (forall x :: 0 <= x < |body| ==> DotOrSpace.Accepts(body[x]))
    && !Occurs(CloseTag, body)
  }

  /** The body group of a written tag ends right before its `</highlight>`. */
  lemma WrittenBody(s: string, d: nat, body: string, be: nat)
    requires be == d + |body|
    requires OccursAt(body, s, d) && OccursAt(CloseTag, s, be)
    requires forall x :: 0 <= x < |body| ==> DotOrSpace.Accepts(body[x])
    requires !Occurs(CloseTag, body)
    ensures LazyUntil(s, d, DotOrSpace, CloseTag) == Some(be)
  {
    CloseTagHeadOnce();
    LazyUntilAt(s, d, body, CloseTag, DotOrSpace);
  }

  /** `</highlight>` has a single `<`. */
  lemma CloseTagHeadOnce()
    ensures |CloseTag| > 0 && CloseTag[0] !in CloseTag[1..]
  {
    assert CloseTag[1..] == "/highlight>";
  }

  /** The class group of a written tag ends at the written `">`. */
  lemma WrittenClass(s: string, c: nat, cls: string, ce: nat, be: nat)
    requires ce == c + |cls|
    requires OccursAt(cls, s, c) && BodyAfter(s, ce) == Some(be)
    requires forall x :: 0 <= x < |cls| ==> cls[x] != '"' && Dot.Accepts(cls[x])
    ensures ClassFrom(s, c) == Some((ce, be))
  {
    OccursChars(cls, s, c);
    ClassFromFinds(s, c, ce);
  }

  /** The onclick value of a written tag ends at the written `" class="`. */
  lemma WrittenOnclick(s: string, o: nat, onclick: string, k: nat)
    requires k == o + |onclick|
    requires OccursAt(onclick, s, o) && k <= |s| && ClassAfter(s, k).Some?
    requires forall x :: 0 <= x < |onclick| ==> onclick[x] != '"' && Dot.Accepts(onclick[x])
    ensures OnclickFrom(s, o) == Some(k)
  {
    OccursChars(onclick, s, o);
    OnclickFromFinds(s, o, k);
  }

  /** The pieces of a written tail, each at its own position. */
  lemma TailPieces(s: string, o: nat, onclick: string, cls: string, body: string, k: nat, c: nat, ce: nat, d: nat, be: nat)
    requires TailWrittenAt(s, o, onclick, cls, body)
    requires k == o + |onclick| && c == k + |OnclickDelim| && ce == c + |cls|
    requires d == ce + |ClassDelim| && be == d + |body|
    ensures OccursAt(onclick, s, o) && OccursAt(OnclickDelim, s, k) && OccursAt(cls, s, c)
    ensures OccursAt(ClassDelim, s, ce) && OccursAt(body, s, d) && OccursAt(CloseTag, s, be)
  {
  }

  /** After the head, the lazy groups of the pattern stop exactly at the
      written delimiters when the written parts are plain. */
  lemma TailFound(s: string, o: nat, onclick: string, cls: string, body: string, k: nat, ce: nat, be: nat)
    requires TailWrittenAt(s, o, onclick, cls, body) && TagPartsPlain(onclick, cls, body)
    requires k == o + |onclick|
    requires ce == k + |OnclickDelim| + |cls| && be == ce + |ClassDelim| + |body|
    ensures k <= |s|
    ensures OnclickFrom(s, o) == Some(k)
    ensures ClassAfter(s, k) == Some((ce, be))
    ensures s[k + |OnclickDelim|..ce] == cls && s[ce + |ClassDelim|..be] == body
  {
    TailFoundAt(s, o, onclick, cls, body, k, k + |OnclickDelim|, ce, ce + |ClassDelim|, be);
  }

  /** The same with every position named. */
  lemma TailFoundAt(s: string, o: nat, onclick: string, cls: string, body: string,
                    k: nat, c: nat, ce: nat, d: nat, be: nat)
    requires TailWrittenAt(s, o, onclick, cls, body) && TagPartsPlain(onclick, cls, body)
    requires k == o + |onclick| && c == k + |OnclickDelim| && ce == c + |cls|
    requires d == ce + |ClassDelim| && be == d + |body|
    ensures k <= |s|
    ensures OnclickFrom(s, o) == Some(k)
    ensures ClassAfter(s, k) == Some((ce, be))
    ensures s[c..ce] == cls && s[d..be] == body
  {
    TailPieces(s, o, onclick, cls, body, k, c, ce, d, be);
    WrittenBody(s, d, body, be);
    BodyAfterAt(s, ce, d, be);
    WrittenClass(s, c, cls, ce, be);
    ClassAfterAt(s, k, c, ce, be);
    WrittenOnclick(s, o, onclick, k);
    SliceAt(s, cls, c, ce);
    SliceAt(s, body, d, be);
  }

  /** A piece written at `i` is the slice from `i` to its end. */
  lemma SliceAt(s: string, t: string, i: nat, j: nat)
    requires OccursAt(t, s, i) && j == i + |t|
    ensures j <= |s| && s[i..j] == t
  {
  }

  /** The body group once the class delimiter stands at `ce`. */
  lemma BodyAfterAt(s: string, ce: nat, d: nat, be: nat)
    requires d == ce + |ClassDelim| && ce <= |s|
    requires OccursAt(ClassDelim, s, ce) && LazyUntil(s, d, DotOrSpace, CloseTag) == Some(be)
    ensures BodyAfter(s, ce) == Some(be)
  {
  }

  /** The class and body groups once the onclick delimiter stands at `k`. */
  lemma ClassAfterAt(s: string, k: nat, c: nat, ce: nat, be: nat)
    requires c == k + |OnclickDelim| && k <= |s|
    requires OccursAt(OnclickDelim, s, k) && ClassFrom(s, c) == Some((ce, be))
    ensures ClassAfter(s, k) == Some((ce, be))
  {
  }

  /** The match at `i` once the onclick value from `o` ends at `k`. */
  lemma TagFromAt(s: string, i: nat, o: nat, k: nat, ce: nat, be: nat)
    requires i <= o <= k <= |s|
    requires OnclickFrom(s, o) == Some(k)
    requires ClassAfter(s, k) == Some((ce, be))
    ensures TagFrom(s, i, o) == Some(TagMatch(i, k + |OnclickDelim|, ce, ce + |ClassDelim|, be, be + |CloseTag|))
  {
    var m := Assemble(s, i, k);
    assert m == TagMatch(i, k + |OnclickDelim|, ce, ce + |ClassDelim|, be, be + |CloseTag|);
    assert TagFrom(s, i, o) == Some(m);
  }

  /** Where the groups of a written tag fall when its head ends at `o`. */
  predicate WrittenLayout(m: TagMatch, o: int, onclick: string, cls: string, body: string) {
    && m.classStart == o + |onclick| + |OnclickDelim|
    && m.classEnd == m.classStart + |cls|
    && m.bodyStart == m.classEnd + |ClassDelim|
    && m.bodyEnd == m.bodyStart + |body|
    && m.end == m.bodyEnd + |CloseTag|
  }

  /** A written tag whose parts are plain is the match found at its start,
      with the class and body groups spanning exactly the written class and
      body. */
  lemma TagAtWritten(s: string, i: nat, id: string, onclick: string, cls: string, body: string)
    requires OccursAt(OpenPrefix(id), s, i)
    requires TailWrittenAt(s, i + |OpenPrefix(id)|, onclick, cls, body) && TagPartsPlain(onclick, cls, body)
    ensures TagAt(s, id, i).Some?
    ensures var m := TagAt(s, id, i).value;
            && m.start == i && WrittenLayout(m, i + |OpenPrefix(id)|, onclick, cls, body)
            && s[m.classStart..m.classEnd] == cls && s[m.bodyStart..m.bodyEnd] == body
  {
    var _ := HeadWritten(s, i, OpenPrefix(id), onclick, cls, body);
  }

  /** The same for any literal head. */
  lemma HeadWritten(s: string, i: nat, head: string, onclick: string, cls: string, body: string) returns (m: TagMatch)
    requires OccursAt(head, s, i)
    requires TailWrittenAt(s, i + |head|, onclick, cls, body) && TagPartsPlain(onclick, cls, body)
    ensures TagAtHead(s, head, i) == Some(m)
    ensures m.start == i && WrittenLayout(m, i + |head|, onclick, cls, body)
    ensures s[m.classStart..m.classEnd] == cls && s[m.bodyStart..m.bodyEnd] == body
  {
    var o := HeadEnd(head, i);
    var k := o + |onclick|;
    var ce := k + |OnclickDelim| + |cls|;
    var be := ce + |ClassDelim| + |body|;
    TailFound(s, o, onclick, cls, body, k, ce, be);
    TagFromAt(s, i, o, k, ce, be);
    m := TagMatch(i, k + |OnclickDelim|, ce, ce + |ClassDelim|, be, be + |CloseTag|);
  }

  /** The successive matches from `from`, each search resuming at the end of
      the previous match; the first one is the leftmost match of the text. */
  function TagMatches(s: string, id: string, from: nat): (ms: seq<TagMatch>)
    ensures forall k :: 0 <= k < |ms| ==> from <= ms[k].start && TagAt(s, id, ms[k].start) == Some(ms[k])
    ensures forall k :: 0 <= k < |ms| - 1 ==> ms[k].end <= ms[k + 1].start
    ensures |ms| > 0 ==> forall j :: from <= j < ms[0].start ==> TagAt(s, id, j).None?
    ensures |ms| == 0 ==> forall j :: from <= j < |s| ==> TagAt(s, id, j).None?
    decreases |s| - from
  {
    if from >= |s| then []
    else
      match TagAt(s, id, from)
      case Some(m) =>
        var rest := TagMatches(s, id, m.end);
        TagCons((j: nat) => TagAt(s, id, j), from, m, rest);
        [m] + rest
      case None =>
        var rest := TagMatches(s, id, from + 1);
        TagSkip(s, id, from, rest);
        rest
  }

  /** Prepending a match found at `from` to the matches found after it keeps
      them anchored and in order; `at` stands for the matcher at each index. */
  lemma TagCons(at: nat -> Option<TagMatch>, from: nat, m: TagMatch, rest: seq<TagMatch>)
    requires at(from) == Some(m) && m.start == from && m.start < m.end
    requires forall k :: 0 <= k < |rest| ==> m.end <= rest[k].start && at(rest[k].start) == Some(rest[k])
    requires forall k :: 0 <= k < |rest| - 1 ==> rest[k].end <= rest[k + 1].start
    ensures var ms := [m] + rest;
            && (forall k :: 0 <= k < |ms| ==> from <= ms[k].start && at(ms[k].start) == Some(ms[k]))
            && (forall k :: 0 <= k < |ms| - 1 ==> ms[k].end <= ms[k + 1].start)
  {
    var ms := [m] + rest;
    forall k | 0 <= k < |ms| ensures from <= ms[k].start && at(ms[k].start) == Some(ms[k]) {
      if k > 0 {
        assert ms[k] == rest[k - 1];
      }
    }
    forall k | 0 <= k < |ms| - 1 ensures ms[k].end <= ms[k + 1].start {
      assert ms[k + 1] == rest[k];
      if k > 0 {
        assert ms[k] == rest[k - 1];
      }
    }
  }

  /** One step of the scan: a match at `from` is kept and the scan resumes
      at its end; otherwise the scan moves on by one. */
  lemma TagMatchesStep(s: string, id: string, from: nat)
    requires from < |s|
    ensures TagAt(s, id, from).Some? ==>
              && from < TagAt(s, id, from).value.end
              && TagMatches(s, id, from) == [TagAt(s, id, from).value] + TagMatches(s, id, TagAt(s, id, from).value.end)
    ensures TagAt(s, id, from).None? ==> TagMatches(s, id, from) == TagMatches(s, id, from + 1)
  {
  }

  /** No match is skipped: between two successive matches, and after the
      last one, no match for `id` starts anywhere. */
  lemma {:induction false} TagMatchesComplete(s: string, id: string, from: nat)
    ensures var ms := TagMatches(s, id, from);
            && (forall k :: 0 <= k < |ms| - 1 ==> NoTagIn(s, id, ms[k].end, ms[k + 1].start))
            && (|ms| > 0 ==> NoTagIn(s, id, ms[|ms| - 1].end, |s|))
    decreases |s| - from
  {
    if from < |s| {
      TagMatchesStep(s, id, from);
      var t := TagAt(s, id, from);
      if t.Some? {
        TagMatchesComplete(s, id, t.value.end);
        TagGapsCons(s, id, t.value, TagMatches(s, id, t.value.end));
      } else {
        TagMatchesComplete(s, id, from + 1);
      }
    }
  }

  /** No match for `id` starts at any index from `lo` up to `hi`. */
  predicate NoTagIn(s: string, id: string, lo: nat, hi: nat) {
    forall j :: lo <= j < hi ==> TagAt(s, id, j).None?
  }

  /** No match is skipped: with no match between `m` and the first of `rest`,
      none in the gaps of `rest` and none after its last, the same holds of
      the gaps of `[m] + rest` and after its last. */
  lemma TagGapsCons(s: string, id: string, m: TagMatch, rest: seq<TagMatch>)
    requires |rest| > 0 ==> NoTagIn(s, id, m.end, rest[0].start)
    requires |rest| == 0 ==> NoTagIn(s, id, m.end, |s|)
    requires forall k :: 0 <= k < |rest| - 1 ==> NoTagIn(s, id, rest[k].end, rest[k + 1].start)
    requires |rest| > 0 ==> NoTagIn(s, id, rest[|rest| - 1].end, |s|)
    ensures var ms := [m] + rest;
            && (forall k :: 0 <= k < |ms| - 1 ==> NoTagIn(s, id, ms[k].end, ms[k + 1].start))
            && NoTagIn(s, id, ms[|ms| - 1].end, |s|)
  {
    var ms := [m] + rest;
    forall k | 0 <= k < |ms| - 1 ensures NoTagIn(s, id, ms[k].end, ms[k + 1].start) {
      assert ms[k + 1] == rest[k];
      if k > 0 {
        assert ms[k] == rest[k - 1];
      }
    }
    if |rest| > 0 {
      assert ms[|ms| - 1] == rest[|rest| - 1];
    }
  }

  lemma TagSkip(s: string, id: string, from: nat, rest: seq<TagMatch>)
    requires TagAt(s, id, from).None?
    requires |rest| > 0 ==> forall j :: from + 1 <= j < rest[0].start ==> TagAt(s, id, j).None?
    requires |rest| == 0 ==> forall j :: from + 1 <= j < |s| ==> TagAt(s, id, j).None?
    ensures |rest| > 0 ==> forall j :: from <= j < rest[0].start ==> TagAt(s, id, j).None?
    ensures |rest| == 0 ==> forall j :: from <= j < |s| ==> TagAt(s, id, j).None?
  {
  }

  /** The leftmost match for `id`, the one `matchHighlight` builds its answer from. */
  function FirstTag(s: string, id: string): (r: Option<TagMatch>)
    ensures r.Some? ==> TagAt(s, id, r.value.start) == r
    ensures r.Some? ==> forall j :: 0 <= j < r.value.start ==> TagAt(s, id, j).None?
    ensures r.None? ==> forall j :: 0 <= j < |s| ==> TagAt(s, id, j).None?
  {
    var ms := TagMatches(s, id, 0);
    if |ms| == 0 then None else Some(ms[0])
  }

  // ---------------------------------------------------------------------
  // subString: trimming the context windows at markup
  // ---------------------------------------------------------------------

  /** The lookahead `(?=[^>]*$)` at `p`: a run free of `>` reaches `$`. */
  predicate NoGtToEnd(s: string, p: nat)
    requires p <= |s|
  {
    exists q :: p <= q <= |s| && DollarAt(s, q) && forall t :: p <= t < q ==> s[t] != '>'
  }

  /** The lookahead holds exactly where no `>` follows: `$` can only stand at the
      very end or before a final line terminator, and `>` is not one. */
  lemma NoGtToEndMeans(s: string, p: nat)
    requires p <= |s|
    ensures NoGtToEnd(s, p) <==> forall t :: p <= t < |s| ==> s[t] != '>'
  {
    if forall t :: p <= t < |s| ==> s[t] != '>' {
      assert DollarAt(s, |s|);
    }
  }

  /** At the very end of the input the pattern matches the empty string. */
  lemma PreMatchesAtEnd(s: string)
    ensures NoGtToEnd(s, |s|) && GreedyToEnd(s, |s|, DotOrSpace) == Some(|s|)
  {
    assert DollarAt(s, |s|);
    GreedyToEndAll(s, |s|, DotOrSpace);
  }

  /** The first match of `((?=[^>]*$)(.|\s)*$)` at or after `p`, as a range;
      there always is one, at the end of the input if nowhere earlier. */
  function PreMatchFrom(s: string, p: nat): (r: (nat, nat))
    requires p <= |s|
    ensures p <= r.0 <= |s| && NoGtToEnd(s, r.0) && GreedyToEnd(s, r.0, DotOrSpace) == Some(r.1)
    ensures forall j :: p <= j < r.0 ==> !(NoGtToEnd(s, j) && GreedyToEnd(s, j, DotOrSpace).Some?)
    decreases |s| - p
  {
    if p < |s| && !(NoGtToEnd(s, p) && GreedyToEnd(s, p, DotOrSpace).Some?) then PreMatchFrom(s, p + 1)
    else
      PreMatchesAtEnd(s);
      (p, GreedyToEnd(s, p, DotOrSpace).value)
  }

  /** `subString(ofContent:fromRangeOfString: ">", withPattern: "((?=[^>]*$)(.|\\s)*$)")`:
      the text after the last `>`, kept whole when it has none. */
  function PreContext(content: string): (r: string)
    ensures '>' !in r && |r| <= |content|
    ensures '>' !in content ==> r == content
  {
    if '>' in content then
      var m := PreMatchFrom(content, 0);
      NoGtToEndMeans(content, m.0);
      content[m.0..m.1]
    else content
  }

  /** With no VT or NEL in the text, the match runs to the end of the input
      and starts right after the last `>`. */
  lemma PreMatchAfterLastGt(content: string)
    requires '>' in content && AllAccepted(content, 0, |content|, DotOrSpace)
    ensures var m := PreMatchFrom(content, 0);
            0 < m.0 && content[m.0 - 1] == '>' && m.1 == |content|
  {
    var p := PreMatchFrom(content, 0).0;
    assert AllAccepted(content, p, |content|, DotOrSpace);
    GreedyToEndAll(content, p, DotOrSpace);
    NoGtToEndMeans(content, p);
    var g :| 0 <= g < |content| && content[g] == '>';
    assert 0 < p;
    assert AllAccepted(content, p - 1, |content|, DotOrSpace);
    GreedyToEndAll(content, p - 1, DotOrSpace);
    NoGtToEndMeans(content, p - 1);
  }

  /** With no VT or NEL in the window, the trimmed text is exactly what follows
      the last `>`. */
  lemma PreContextAfterLastGt(content: string)
    requires '>' in content && AllAccepted(content, 0, |content|, DotOrSpace)
    ensures var r := PreContext(content);
            |r| < |content| && r == content[|content| - |r|..] && content[|content| - |r| - 1] == '>'
  {
    PreMatchAfterLastGt(content);
    var m := PreMatchFrom(content, 0);
    assert PreContext(content) == content[m.0..m.1];
  }

  /** `subString(ofContent:fromRangeOfString: "<", withPattern: "^((.|\\s)*?)(?=<)")`:
      the text before the first `<`, kept whole when it has none or when a VT
      or NEL comes first. */
  function PostContext(content: string): (r: string)
    ensures |r| <= |content| && r == content[..|r|]
    ensures '<' !in content ==> r == content
  {
    if '<' in content then
      match LazyUntil(content, 0, DotOrSpace, "<")
      case Some(k) => content[..k]
      case None => content
    else content
  }

  /** With no VT or NEL in the window, the trimmed text stops right before the
      first `<`. */
  lemma PostContextBeforeFirstLt(content: string)
    requires AllAccepted(content, 0, |content|, DotOrSpace)
    ensures var r := PostContext(content);
            '<' !in r && ('<' in content ==> |r| < |content| && content[|r|] == '<')
  {
    if '<' in content {
      var k :| 0 <= k < |content| && content[k] == '<';
      assert OccursAt("<", content, k);
      assert AllAccepted(content, 0, k, DotOrSpace);
      var r := LazyUntil(content, 0, DotOrSpace, "<");
      assert r.Some?;
      var e := r.value;
      assert forall j :: 0 <= j < e ==> content[j] != '<' by {
        forall j | 0 <= j < e ensures content[j] != '<' {
          assert !OccursAt("<", content, j);
        }
      }
    }
  }

  /** A text without `<` or without `>` holds no narration span, so cleaning
      leaves it alone. */
  lemma CleanWithoutMarkup(t: string)
    requires '<' !in t || '>' !in t
    ensures RemoveSentenceSpam(t) == t
  {
    forall i: nat | i + |SpanOpen| <= |t| ensures !OccursAt(SpanOpen, t, i) {
      assert t[i] != SpanOpen[0] || t[i + |SpanOpen| - 1] != SpanOpen[|SpanOpen| - 1];
    }
    NoOpenNoMatches(t, 0);
  }

  // ---------------------------------------------------------------------
  // matchHighlight
  // ---------------------------------------------------------------------

  /** The argument record `MatchingHighlight`. */
  datatype MatchingHighlight = MatchingHighlight(
    text: string, id: string, startOffset: string, endOffset: string, bookId: string, currentPage: int)

  /** The outcome of `matchHighlight`. `RangeFault` is the uncaught range
      exception `NSString.substring(with:)` raises when a context window of
      any match runs outside the text. */
  datatype MatchOutcome = NoMatch | Matched(highlight: Highlight) | RangeFault

  /** `r` is the text of `s` that ends at `e`. */
  predicate EndsAt(r: string, s: string, e: nat) {
    |r| <= e <= |s| && r == s[e - |r|..e]
  }

  /** `r` is the text of `s` that starts at `b`. */
  predicate StartsAt(r: string, s: string, b: nat) {
    b + |r| <= |s| && r == s[b..b + |r|]
  }

  /** Both context windows of `kHighlightRange` characters lie inside the text. */
  predicate WindowsFit(s: string, m: TagMatch, range: nat) {
    range <= m.start && m.end + range <= |s|
  }

  /** The highlighted text of a match, cleaned of narration spans: never
      longer than the tag body, and the body itself when it holds no markup. */
  function MatchContent(s: string, m: TagMatch): (r: string)
    requires TagWithin(s, m)
    ensures |r| <= m.bodyEnd - m.bodyStart
    ensures '<' !in s[m.bodyStart..m.bodyEnd] ==> r == s[m.bodyStart..m.bodyEnd]
  {
    var body := s[m.bodyStart..m.bodyEnd];
    assert '<' !in body ==> RemoveSentenceSpam(body) == body by {
      if '<' !in body {
        CleanWithoutMarkup(body);
      }
    }
    RemoveSentenceSpam(body)
  }

  /** The cleaned context before a match: at most `range` characters, no `>`,
      and, when the window holds no VT or NEL, the text right before the tag. */
  function MatchContentPre(s: string, m: TagMatch, range: nat): (r: string)
    requires TagWithin(s, m) && WindowsFit(s, m, range) && range > 0
    ensures '>' !in r && |r| <= range
    ensures AllAccepted(s, m.start - range, m.start, DotOrSpace) ==> EndsAt(r, s, m.start)
  {
    var pre := PreContext(s[m.start - range..m.start]);
    PreFacts(s, m, range);
    RemoveSentenceSpam(pre)
  }

  /** The cleaned context after a match: at most `range` characters and, when
      the window holds no VT or NEL, the text right after the tag up to the
      next `<`. */
  function MatchContentPost(s: string, m: TagMatch, range: nat): (r: string)
    requires TagWithin(s, m) && WindowsFit(s, m, range)
    ensures |r| <= range
    ensures AllAccepted(s, m.end, m.end + range, DotOrSpace) ==> '<' !in r && StartsAt(r, s, m.end)
  {
    var post := PostContext(s[m.end..m.end + range]);
    PostFacts(s, m, range);
    RemoveSentenceSpam(post)
  }

  /** Some match has a context window running outside the text. */
  predicate SomeWindowOut(s: string, ms: seq<TagMatch>, range: nat) {
    exists k :: 0 <= k < |ms| && !WindowsFit(s, ms[k], range)
  }

  /** The record rebuilt from one match: the tag's id and the caller's book,
      page and offsets (an unparsable offset is -1), the style the class names
      (yellow for any other class), and the cleaned body and context windows. */
  function BuildFromMatch(mh: MatchingHighlight, m: TagMatch, range: nat, now: Date): (h: Highlight)
    requires TagWithin(mh.text, m) && WindowsFit(mh.text, m, range) && range > 0
    ensures h.id == mh.id && h.bookId == mh.bookId && h.page == mh.currentPage && h.date == now
    ensures ParseInt(mh.startOffset).Some? ==> h.startOffset == ParseInt(mh.startOffset).value
    ensures ParseInt(mh.startOffset).None? ==> h.startOffset == -1
    ensures ParseInt(mh.endOffset).Some? ==> h.endOffset == ParseInt(mh.endOffset).value
    ensures ParseInt(mh.endOffset).None? ==> h.endOffset == -1
    ensures h.noteForHighlight == None && h.startLocation == "" && h.endLocation == ""
    ensures 0 <= h.style < |ClassNames|
    ensures mh.text[m.classStart..m.classEnd] in ClassNames ==> ClassNames[h.style] == mh.text[m.classStart..m.classEnd]
    ensures mh.text[m.classStart..m.classEnd] !in ClassNames ==> h.style == 0
    ensures h.content == MatchContent(mh.text, m)
    ensures h.contentPre == MatchContentPre(mh.text, m, range)
    ensures h.contentPost == MatchContentPost(mh.text, m, range)
  {
    Init(now,
         id := mh.id,
         bookId := mh.bookId,
         content := MatchContent(mh.text, m),
         contentPost := MatchContentPost(mh.text, m, range),
         contentPre := MatchContentPre(mh.text, m, range),
         page := mh.currentPage,
         style := StyleForClass(mh.text[m.classStart..m.classEnd]).RawValue(),
         startOffset := ParseInt(mh.startOffset).GetOr(-1),
         endOffset := ParseInt(mh.endOffset).GetOr(-1))
  }

  /** `matchHighlight`: every match is mapped (so any window out of range
      faults), and the first match in text order is the answer. `range` is
      `kHighlightRange` and `now` the current date. */
  function MatchHighlightIn(mh: MatchingHighlight, range: nat, now: Date): (r: MatchOutcome)
    requires range > 0
    ensures r.RangeFault? <==> SomeWindowOut(mh.text, TagMatches(mh.text, mh.id, 0), range)
    ensures r == NoMatch <==> FirstTag(mh.text, mh.id).None?
    ensures r.Matched? ==> && FirstTag(mh.text, mh.id).Some?
                           && WindowsFit(mh.text, FirstTag(mh.text, mh.id).value, range)
                           && r.highlight == BuildFromMatch(mh, FirstTag(mh.text, mh.id).value, range, now)
  {
    var ms := TagMatches(mh.text, mh.id, 0);
    if SomeWindowOut(mh.text, ms, range) then RangeFault
    else if |ms| == 0 then NoMatch
    else Matched(BuildFromMatch(mh, ms[0], range, now))
  }

  /** The trimmed text before a match has no `>`, survives cleaning, and, when
      the window holds no VT or NEL, is the text right before the match. */
  lemma PreFacts(s: string, m: TagMatch, range: nat)
    requires TagWithin(s, m) && WindowsFit(s, m, range) && range > 0
    ensures var pre := PreContext(s[m.start - range..m.start]);
            && RemoveSentenceSpam(pre) == pre && '>' !in pre && |pre| <= range
            && (AllAccepted(s, m.start - range, m.start, DotOrSpace) ==> EndsAt(pre, s, m.start))
  {
    CleanWithoutMarkup(PreContext(s[m.start - range..m.start]));
    if AllAccepted(s, m.start - range, m.start, DotOrSpace) {
      PreSuffix(s, m, range);
    }
  }

  /** Over a window without VT or NEL the trimmed text before a match is the
      window's tail. */
  lemma PreSuffix(s: string, m: TagMatch, range: nat)
    requires TagWithin(s, m) && WindowsFit(s, m, range)
    requires AllAccepted(s, m.start - range, m.start, DotOrSpace)
    ensures EndsAt(PreContext(s[m.start - range..m.start]), s, m.start)
  {
    var w := s[m.start - range..m.start];
    var pre := PreContext(w);
    assert AllAccepted(w, 0, |w|, DotOrSpace) by {
      forall x | 0 <= x < |w| ensures DotOrSpace.Accepts(w[x]) {
        assert w[x] == s[m.start - range + x];
      }
    }
    if '>' in w {
      PreContextAfterLastGt(w);
    }
    assert pre == w[|w| - |pre|..];
  }

  /** The trimmed text after a match is a prefix of the window, and, when the
      window holds no VT or NEL, it has no `<` and survives cleaning. */
  lemma PostFacts(s: string, m: TagMatch, range: nat)
    requires TagWithin(s, m) && WindowsFit(s, m, range)
    ensures var post := PostContext(s[m.end..m.end + range]);
            && StartsAt(post, s, m.end)
            && (AllAccepted(s, m.end, m.end + range, DotOrSpace) ==> '<' !in post && RemoveSentenceSpam(post) == post)
  {
    var w := s[m.end..m.end + range];
    var post := PostContext(w);
    assert post == w[..|post|];
    if AllAccepted(s, m.end, m.end + range, DotOrSpace) {
      assert AllAccepted(w, 0, |w|, DotOrSpace) by {
        forall x | 0 <= x < |w| ensures DotOrSpace.Accepts(w[x]) {
          assert w[x] == s[m.end + x];
        }
      }
      PostContextBeforeFirstLt(w);
      CleanWithoutMarkup(post);
    }
  }
}

=== FILE: narration.dfy ===
/** The bridge's sentence helpers for narration: `pushSpan`, which wraps a
    paragraph fragment in a sentence span when it has a letter or digit, and
    the reading cursor of `findNextSentenceInArray` and
    `resetCurrentSentenceIndex`. */
module Narration {
  import opened Text
  import opened SentenceSpam

  // ---------------------------------------------------------------------
  // pushSpan
  // ---------------------------------------------------------------------

  predicate AsciiAlnum(c: char) {
    ('a' <= c <= 'z') || ('A' <= c <= 'Z') || ('0' <= c <= '9')
  }

  /** Whether `string.match('[a-zA-Z0-9]+')` finds anything. */
  predicate HasAlnum(s: string) {
    exists k :: 0 <= k < |s| && AsciiAlnum(s[k])
  }

  /** The span `pushSpan` writes around a fragment. */
  function ClassSpan(className: string, s: string): string {
    "<span class=\"" + className + "\">" + s + "</span>"
  }

  /** `pushSpan(array, className, string)`: the fragment is pushed wrapped in
      a span of that class when it has a letter or digit, and as it is
      otherwise. */
  function PushSpan(parts: seq<string>, className: string, s: string): (r: seq<string>)
    ensures |r| == |parts| + 1 && r[..|parts|] == parts
    ensures HasAlnum(s) ==> |r[|parts|]| > |s|
    ensures !HasAlnum(s) ==> r[|parts|] == s
  {
    parts + [if HasAlnum(s) then ClassSpan(className, s) else s]
  }

  /** The fragments of one paragraph pushed in order with the `sentence`
      class, as the splitter does. */
  function PushAll(parts: seq<string>, fs: seq<string>): (r: seq<string>)
    ensures |r| == |parts| + |fs|
    decreases |fs|
  {
    if |fs| == 0 then parts else PushAll(PushSpan(parts, "sentence", fs[0]), fs[1..])
  }

  /** The span of the `sentence` class is the one cleaning strips. */
  lemma SentenceSpanIsNarrationSpan(s: string)
    ensures ClassSpan("sentence", s) == SpanOpen + s + SpanClose
  {
  }

  /** `array.join("")` after one more element. */
  lemma {:induction false} ConcatAllSnoc(a: seq<string>, x: string)
    ensures ConcatAll(a + [x]) == ConcatAll(a) + x
    decreases |a|
  {
    if |a| == 0 {
      assert [] + [x] == [x];
    } else {
      assert (a + [x])[1..] == a[1..] + [x];
      ConcatAllSnoc(a[1..], x);
    }
  }

  /** A paragraph whose fragments all have a letter or digit is written as
      the fragments, each in its sentence span. */
  lemma {:induction false} PushAllWraps(parts: seq<string>, fs: seq<string>)
    requires forall k :: 0 <= k < |fs| ==> HasAlnum(fs[k])
    ensures ConcatAll(PushAll(parts, fs)) == ConcatAll(parts) + WrapAll(fs)
    decreases |fs|
  {
    if |fs| > 0 {
      var w := SpanOpen + fs[0] + SpanClose;
      PushSentence(parts, fs[0]);
      ConcatAllSnoc(parts, w);
      PushAllWraps(parts + [w], fs[1..]);
      assert WrapAll(fs) == w + WrapAll(fs[1..]);
      Regroup(ConcatAll(parts), w, WrapAll(fs[1..]), WrapAll(fs));
    }
  }

  lemma Regroup(a: string, w: string, rest: string, all: string)
    requires all == w + rest
    ensures a + w + rest == a + all
  {
  }

  /** A fragment with a letter or digit is pushed in the narration span. */
  lemma PushSentence(parts: seq<string>, f: string)
    requires HasAlnum(f)
    ensures PushSpan(parts, "sentence", f) == parts + [SpanOpen + f + SpanClose]
  {
    SentenceSpanIsNarrationSpan(f);
  }

  /** Cleaning the paragraph the splitter wrote gives back its text, when
      every fragment has a letter or digit and none holds `</span>` or a
      character the cleaning pattern cannot cross. */
  lemma SplitParagraphCleans(fs: seq<string>)
    requires |fs| > 0
    requires forall k :: 0 <= k < |fs| ==> HasAlnum(fs[k])
    requires forall k :: 0 <= k < |fs| ==> Wrappable(fs[k])
    ensures RemoveSentenceSpam(ConcatAll(PushAll([], fs))) == ConcatAll(fs)
  {
    PushedParagraph(fs);
    FirstFragmentShows(fs);
    CleanWrapped(fs);
  }

  /** The splitter's output for a paragraph of such fragments is the
      fragments wrapped back to back. */
  lemma PushedParagraph(fs: seq<string>)
    requires forall k :: 0 <= k < |fs| ==> HasAlnum(fs[k])
    ensures ConcatAll(PushAll([], fs)) == WrapAll(fs)
  {
    PushAllWraps([], fs);
    assert ConcatAll([]) == "";
  }

  /** A paragraph whose first fragment has a letter or digit is not empty. */
  lemma FirstFragmentShows(fs: seq<string>)
    requires |fs| > 0 && HasAlnum(fs[0])
    ensures |ConcatAll(fs)| > 0
  {
    assert ConcatAll(fs) == fs[0] + ConcatAll(fs[1..]);
  }

  /** A wrapped sentence is unwrapped by cleaning. */
  lemma PushedSentenceCleans(parts: seq<string>, s: string)
    requires HasAlnum(s) && Wrappable(s)
    ensures RemoveSentenceSpam(PushSpan(parts, "sentence", s)[|parts|]) == s
  {
    SentenceSpanIsNarrationSpan(s);
    assert PushSpan(parts, "sentence", s)[|parts|] == SpanOpen + s + SpanClose;
    assert |s| > 0;
    UnwrapSentence(s);
  }

  /** A fragment without letters or digits cannot hold a sentence span, so
      cleaning keeps it. */
  lemma BareFragmentKept(parts: seq<string>, s: string)
    requires !HasAlnum(s)
    ensures RemoveSentenceSpam(PushSpan(parts, "sentence", s)[|parts|]) == s
  {
    forall i: nat ensures !OccursAt(SpanOpen, s, i) {
      if OccursAt(SpanOpen, s, i) {
        OpenHasAlnum(s, i);
      }
    }
    NoOpenNoMatches(s, 0);
  }

  /** The sentence span's opening tag has letters. */
  lemma OpenHasAlnum(s: string, i: nat)
    requires OccursAt(SpanOpen, s, i)
    ensures HasAlnum(s)
  {
    assert s[i + 1] == SpanOpen[1];
  }

  // ---------------------------------------------------------------------
  // The reading cursor
  // ---------------------------------------------------------------------

  /** What an array lookup gives in JavaScript: `null` from the function
      itself, `undefined` past the end, or an element. */
  datatype Lookup<T> = Null | Undefined | Found(value: T)

  /** The cursor's value when no sentence is being read. */
  const NoSentence: int := -1

  /** `resetCurrentSentenceIndex()`. */
  function ResetIndex(): (i: int)
    ensures i < 0
  {
    NoSentence
  }

  /** `findNextSentenceInArray(els)` on cursor `index`: a cursor in use moves
      one on and yields the element there; a reset cursor yields `null` and
      stays. */
  function FindNextSentence<T>(index: int, els: seq<T>): (r: (int, Lookup<T>))
    ensures index < 0 ==> r == (index, Null)
    ensures index >= 0 ==> r.0 == index + 1
    ensures index >= 0 ==> (r.1.Found? <==> index + 1 < |els|) && (r.1.Found? ==> r.1.value == els[index + 1])
    ensures index >= 0 ==> r.1 != Null
  {
    if index >= 0 then
      (index + 1, if index + 1 < |els| then Found(els[index + 1]) else Undefined)
    else (index, Null)
  }

  /** The `q`-th sentence read after cursor `index`. */
  function ReadAt<T>(index: int, els: seq<T>, q: nat): Lookup<T> {
    if index < 0 then Null
    else if index + 1 + q < |els| then Found(els[index + 1 + q])
    else Undefined
  }

  /** `k` successive calls: from a cursor in use they read the elements after
      it in order, then `undefined`; after a reset every call yields `null`. */
  method ReadAhead<T>(index: int, els: seq<T>, k: nat) returns (cursor: int, seen: seq<Lookup<T>>)
    ensures |seen| == k
    ensures cursor == if index < 0 then index else index + k
    ensures forall q :: 0 <= q < k ==> seen[q] == ReadAt(index, els, q)
  {
    cursor, seen := index, [];
    var m := 0;
    while m < k
      invariant 0 <= m <= k && |seen| == m
      invariant cursor == if index < 0 then index else index + m
      invariant forall q :: 0 <= q < m ==> seen[q] == ReadAt(index, els, q)
    {
      var r := FindNextSentence(cursor, els);
      cursor, seen := r.0, seen + [r.1];
      m := m + 1;
    }
  }

  /** After a reset the cursor reads nothing until it is set again. */
  lemma ResetReadsNothing<T>(els: seq<T>)
    ensures FindNextSentence(ResetIndex(), els) == (ResetIndex(), Null)
  {
  }
}

=== FILE: page.dfy ===
/** `FolioReaderPage.htmlContentWithInsertHighlights` and
    `FolioReaderPage.getEventTouchPoint`: restoring stored highlights into a
    chapter's HTML by literal search, and reading the touch position out of a
    click URL. */
module HighlightPage {
  import opened Wrappers
  import opened Text
  import opened IcuRegex
  import opened SentenceSpam
  import opened HighlightModel
  import opened HighlightMatch

  // ---------------------------------------------------------------------
  // The restored tag
  // ---------------------------------------------------------------------

  const NoteAction: string := "callHighlightWithNoteURL(this);"
  const PlainAction: string := "callHighlightURL(this);"

  /** The click action of a restored highlight: the note variant whenever the
      record has a note, even an empty one. */
  function OnclickAction(h: Highlight): (a: string)
    ensures h.noteForHighlight.Some? <==> a == NoteAction
  {
    if h.noteForHighlight.Some? then NoteAction else PlainAction
  }

  /** The `<highlight>` element written around the highlighted text: it opens
      with the head the pattern for the record's id looks for and closes with
      the highlighted text and `</highlight>`. */
  function HighlightTag(h: Highlight): (r: string)
    ensures StartsAt(OpenPrefix(h.id), r, 0)
    ensures EndsAt(h.content + CloseTag, r, |r|)
  {
    "<highlight id=\"" + h.id + "\" onclick=\"" + OnclickAction(h) + "\" class=\""
      + ClassForStyle(h.style) + "\">" + h.content + "</highlight>"
  }

  /** The written tag is the head the pattern for its id expects, then the
      onclick value, the class and the content between the delimiters the
      pattern looks for. */
  lemma TagLayout(h: Highlight)
    ensures HighlightTag(h)
            == OpenPrefix(h.id) + (OnclickAction(h) + (OnclickDelim + (ClassForStyle(h.style)
               + (ClassDelim + (h.content + CloseTag)))))
    ensures |HighlightTag(h)| == |h.content| + |OpenPrefix(h.id)| + |OnclickAction(h)|
                                 + |OnclickDelim| + |ClassForStyle(h.style)| + |ClassDelim| + |CloseTag|
  {
    var p, a, c := OpenPrefix(h.id), OnclickAction(h), ClassForStyle(h.style);
    assert HighlightTag(h) == p + a + OnclickDelim + c + ClassDelim + h.content + CloseTag;
    Nest(p, a, OnclickDelim, c, ClassDelim, h.content, CloseTag);
  }

  /** Concatenation regrouped to the right. */
  lemma Nest(p: string, a: string, b: string, c: string, d: string, e: string, f: string)
    ensures p + a + b + c + d + e + f == p + (a + (b + (c + (d + (e + f)))))
  {
  }

  /** The action and class the page writes are one line without `"`. */
  lemma WrittenAttributesPlain(h: Highlight)
    ensures forall x :: 0 <= x < |OnclickAction(h)| ==> OnclickAction(h)[x] != '"' && Dot.Accepts(OnclickAction(h)[x])
    ensures forall x :: 0 <= x < |ClassForStyle(h.style)| ==>
              ClassForStyle(h.style)[x] != '"' && Dot.Accepts(ClassForStyle(h.style)[x])
  {
    ActionPlain(h);
    ClassPlain(h.style);
  }

  lemma ActionPlain(h: Highlight)
    ensures forall x :: 0 <= x < |OnclickAction(h)| ==> OnclickAction(h)[x] != '"' && Dot.Accepts(OnclickAction(h)[x])
  {
    if h.noteForHighlight.Some? {
      LettersArePlain(NoteAction);
    } else {
      LettersArePlain(PlainAction);
    }
  }

  lemma ClassPlain(style: int)
    ensures forall x :: 0 <= x < |ClassForStyle(style)| ==>
              ClassForStyle(style)[x] != '"' && Dot.Accepts(ClassForStyle(style)[x])
  {
    var c := ClassForStyle(style);
    assert c in ClassNames;
    LettersArePlain(c);
  }

  /** Letters, `-`, parentheses and `;` are neither `"` nor a line break. */
  lemma LettersArePlain(w: string)
    requires forall x :: 0 <= x < |w| ==> 'a' <= w[x] <= 'z' || 'A' <= w[x] <= 'Z' || w[x] in "-();"
    ensures forall x :: 0 <= x < |w| ==> w[x] != '"' && Dot.Accepts(w[x])
  {
  }

  // ---------------------------------------------------------------------
  // Restoring highlights
  // ---------------------------------------------------------------------

  /** The text searched for: the cleaned context and content. */
  function Locator(h: Highlight): (l: string)
    ensures |l| <= |h.contentPre| + |h.content| + |h.contentPost|
  {
    RemoveSentenceSpam(h.contentPre + h.content + h.contentPost)
  }

  /** The page HTML, or the range exception `replacingCharacters(in:with:)`
      raises when the replaced range runs past the end. */
  datatype PageOutcome = Page(html: string) | PageRangeFault

  /** `t` written over the `n` characters from `p`. */
  function Splice(html: string, p: nat, n: nat, t: string): (r: string)
    requires p + n <= |html|
    ensures |r| == |html| + |t| - n
    ensures OccursAt(t, r, p)
    ensures r[..p] == html[..p] && r[p + |t|..] == html[p + n..]
  {
    var r := html[..p] + t + html[p + n..];
    assert r[..p] == html[..p];
    assert r[p..p + |t|] == t;
    assert r[p + |t|..] == html[p + n..];
    r
  }

  /** `r` is `html` with the `n` characters from `p` replaced by `t`. */
  predicate Replaced(html: string, p: nat, n: nat, t: string, r: string) {
    && OccursAt(t, r, p) && p + n <= |html|
    && r[..p] == html[..p] && r[p + |t|..] == html[p + n..]
  }

  /** Where the tag of `h` goes: the first literal occurrence of the locator,
      moved on by the length of the uncleaned `contentPre`. */
  function TagPosition(html: string, h: Highlight): (p: Option<nat>)
    ensures p.None? <==> FindLiteral(html, Locator(h)).None?
    ensures p.Some? ==> p.value >= |h.contentPre| && OccursAt(Locator(h), html, p.value - |h.contentPre|)
    ensures p.Some? ==> forall j :: 0 <= j < p.value - |h.contentPre| ==> !OccursAt(Locator(h), html, j)
  {
    match FindLiteral(html, Locator(h))
    case None => None
    case Some(i) => Some(i + |h.contentPre|)
  }

  /** Restoring one highlight: the content's characters at the tag position
      are replaced by the tag; without an occurrence of the locator the HTML
      stays as it is, and a range past the end raises. */
  function InsertOne(html: string, h: Highlight): (r: PageOutcome)
    ensures TagPosition(html, h).None? ==> r == Page(html)
    ensures TagPosition(html, h).Some? ==> (r.Page? <==> TagPosition(html, h).value + |h.content| <= |html|)
    ensures r.Page? && TagPosition(html, h).Some? ==>
              Replaced(html, TagPosition(html, h).value, |h.content|, HighlightTag(h), r.html)
  {
    match TagPosition(html, h)
    case None => Page(html)
    case Some(p) =>
      if p + |h.content| <= |html| then Page(Splice(html, p, |h.content|, HighlightTag(h)))
      else PageRangeFault
  }

  /** The highlights restored one after another, each search running on the
      HTML the earlier ones produced; a range exception ends the whole pass. */
  function InsertAll(html: string, hs: seq<Highlight>): (r: PageOutcome)
    ensures r.Page? ==> |r.html| >= |html|
    decreases |hs|
  {
    if |hs| == 0 then Page(html)
    else
      match InsertOne(html, hs[0])
      case PageRangeFault => PageRangeFault
      case Page(next) =>
        TagLayout(hs[0]);
        InsertAll(next, hs[1..])
  }

  /** `htmlContentWithInsertHighlights`: without a book name nothing is
      restored. `hs` are the highlights stored for the book and page. */
  function HtmlWithHighlights(html: string, bookName: Option<string>, hs: seq<Highlight>): (r: PageOutcome)
    ensures bookName.None? || |hs| == 0 ==> r == Page(html)
  {
    if bookName.None? || |hs| == 0 then Page(html) else InsertAll(html, hs)
  }

  /** Restoring a list in two parts is restoring the first part and then the
      second on its result. */
  lemma {:induction false} InsertAllAppend(html: string, hs1: seq<Highlight>, hs2: seq<Highlight>)
    ensures InsertAll(html, hs1 + hs2)
            == match InsertAll(html, hs1)
               case PageRangeFault => PageRangeFault
               case Page(mid) => InsertAll(mid, hs2)
    decreases |hs1|
  {
    if |hs1| == 0 {
      assert hs1 + hs2 == hs2;
    } else {
      assert (hs1 + hs2)[0] == hs1[0];
      assert (hs1 + hs2)[1..] == hs1[1..] + hs2;
      match InsertOne(html, hs1[0])
      case PageRangeFault =>
      case Page(next) => InsertAllAppend(next, hs1[1..], hs2);
    }
  }

  /** A highlight whose locator is nowhere in the HTML is skipped and the
      pass goes on with the next one. */
  lemma NotFoundSkipped(html: string, h: Highlight, rest: seq<Highlight>)
    requires !Occurs(Locator(h), html)
    ensures InsertAll(html, [h] + rest) == InsertAll(html, rest)
  {
    assert ([h] + rest)[1..] == rest;
  }

  /** When every locator in the list appears, a pass that does not fault grows
      the HTML by exactly the tag overhead of each highlight. */
  function TagOverhead(hs: seq<Highlight>): (n: nat)
    decreases |hs|
  {
    if |hs| == 0 then 0
    else
      TagLayout(hs[0]);
      |HighlightTag(hs[0])| - |hs[0].content| + TagOverhead(hs[1..])
  }

  /** `FoundAll(html, hs)`: each highlight's locator occurs in the HTML as it
      stands when its turn comes. */
  predicate FoundAll(html: string, hs: seq<Highlight>)
    decreases |hs|
  {
    |hs| == 0 ||
      (Occurs(Locator(hs[0]), html) && |Locator(hs[0])| > 0 &&
       match InsertOne(html, hs[0])
       case PageRangeFault => true
       case Page(next) => FoundAll(next, hs[1..]))
  }

  lemma {:induction false} InsertAllGrowth(html: string, hs: seq<Highlight>)
    requires FoundAll(html, hs) && InsertAll(html, hs).Page?
    ensures |InsertAll(html, hs).html| == |html| + TagOverhead(hs)
    decreases |hs|
  {
    if |hs| > 0 {
      var next := InsertOne(html, hs[0]).html;
      InsertAllGrowth(next, hs[1..]);
    }
  }

  // ---------------------------------------------------------------------
  // A restored tag is what matchHighlight finds
  // ---------------------------------------------------------------------

  /** The pattern head for an id without `<` has `<` only at its start. */
  lemma OpenPrefixOneLt(id: string)
    requires '<' !in id
    ensures OpenPrefix(id)[0] == '<'
    ensures forall k :: 1 <= k < |OpenPrefix(id)| ==> OpenPrefix(id)[k] != '<'
  {
    var p := OpenPrefix(id);
    forall k | 1 <= k < |p| ensures p[k] != '<' {
      if k < 15 {
        assert p[k] == "<highlight id=\""[k];
      } else if k < 15 + |id| {
        assert p[k] == id[k - 15];
      } else {
        assert p[k] == "\" onclick=\""[k - 15 - |id|];
      }
    }
  }

  /** A pattern whose first character does not recur in it, placed at `p`,
      can only occur before `p` inside the text before `p`. */
  lemma NoEarlyOccurrence(pat: string, s: string, p: nat)
    requires |pat| > 0 && p < |s| && s[p] == pat[0]
    requires forall k :: 1 <= k < |pat| ==> pat[k] != pat[0]
    requires !Occurs(pat, s[..p])
    ensures forall j :: 0 <= j < p ==> !OccursAt(pat, s, j)
  {
    forall j | 0 <= j < p ensures !OccursAt(pat, s, j) {
      if j + |pat| <= p {
        assert !OccursAt(pat, s[..p], j);
        assert s[..p][j..j + |pat|] == s[j..j + |pat|];
      } else if j + |pat| <= |s| {
        assert s[j..j + |pat|][p - j] == s[p];
      }
    }
  }

  /** The tag restored at `p` is the leftmost match for its id when no head for
      that id occurs earlier, and its groups hold the written class and
      content. */
  lemma RestoredTagIsFirst(s: string, p: nat, h: Highlight)
    requires OccursAt(HighlightTag(h), s, p)
    requires '<' !in h.id && !Occurs(OpenPrefix(h.id), s[..p])
    requires forall x :: 0 <= x < |h.content| ==> DotOrSpace.Accepts(h.content[x])
    requires !Occurs(CloseTag, h.content)
    ensures FirstTag(s, h.id).Some?
    ensures var m := FirstTag(s, h.id).value;
            && m.start == p
            && s[m.classStart..m.classEnd] == ClassForStyle(h.style)
            && s[m.bodyStart..m.bodyEnd] == h.content
  {
    var m := RestoredTagAt(s, p, h);
    var P := OpenPrefix(h.id);
    OpenPrefixOneLt(h.id);
    assert s[p] == P[0] by {
      assert s[p..p + |HighlightTag(h)|][0] == s[p];
    }
    NoEarlyOccurrence(P, s, p);
    forall j | 0 <= j < p ensures TagAt(s, h.id, j).None? {
      if TagAt(s, h.id, j).Some? {
        var _ := TagAtShape(s, h.id, j);
      }
    }
  }

  /** The match at `p` of a restored tag, with its groups. */
  lemma RestoredTagAt(s: string, p: nat, h: Highlight) returns (m: TagMatch)
    requires OccursAt(HighlightTag(h), s, p)
    requires forall x :: 0 <= x < |h.content| ==> DotOrSpace.Accepts(h.content[x])
    requires !Occurs(CloseTag, h.content)
    ensures TagAt(s, h.id, p) == Some(m)
    ensures s[m.classStart..m.classEnd] == ClassForStyle(h.style)
    ensures s[m.bodyStart..m.bodyEnd] == h.content
  {
    var a, c := OnclickAction(h), ClassForStyle(h.style);
    TagPiecesOf(s, p, h);
    RestoredPartsPlain(h);
    TagAtWritten(s, p, h.id, a, c, h.content);
    m := TagAt(s, h.id, p).value;
  }

  /** The parts of a restored tag are ones the pattern's lazy groups cannot
      stop inside, when its content has no VT, NEL or `</highlight>`. */
  lemma RestoredPartsPlain(h: Highlight)
    requires forall x :: 0 <= x < |h.content| ==> DotOrSpace.Accepts(h.content[x])
    requires !Occurs(CloseTag, h.content)
    ensures TagPartsPlain(OnclickAction(h), ClassForStyle(h.style), h.content)
  {
    WrittenAttributesPlain(h);
  }

  /** The pieces of a written tag, one after another from `p`. */
  lemma TagPiecesOf(s: string, p: nat, h: Highlight)
    requires OccursAt(HighlightTag(h), s, p)
    ensures OccursAt(OpenPrefix(h.id), s, p)
    ensures TailWrittenAt(s, p + |OpenPrefix(h.id)|, OnclickAction(h), ClassForStyle(h.style), h.content)
  {
    TagLayout(h);
    TagPieces(s, p, OpenPrefix(h.id), OnclickAction(h), ClassForStyle(h.style), h.content);
  }

  /** The pieces of a tag laid out from `p`, one after another. */
  lemma TagPieces(s: string, p: nat, P: string, a: string, c: string, body: string)
    requires OccursAt(P + (a + (OnclickDelim + (c + (ClassDelim + (body + CloseTag))))), s, p)
    ensures OccursAt(P, s, p)
    ensures TailWrittenAt(s, p + |P|, a, c, body)
  {
    var t5 := body + CloseTag;
    var t4 := ClassDelim + t5;
    var t3 := c + t4;
    var t2 := OnclickDelim + t3;
    var t1 := a + t2;
    var o := p + |P|;
    var k := o + |a|;
    var cs := k + |OnclickDelim|;
    var ce := cs + |c|;
    var d := ce + |ClassDelim|;
    var be := d + |body|;
    OccursSplit(P, t1, s, p, o);
    OccursSplit(a, t2, s, o, k);
    OccursSplit(OnclickDelim, t3, s, k, cs);
    OccursSplit(c, t4, s, cs, ce);
    OccursSplit(ClassDelim, t5, s, ce, d);
    OccursSplit(body, CloseTag, s, d, be);
    TailWrittenIntro(s, o, a, c, body, k, cs, ce, d, be);
  }

  lemma OccursSplit(x: string, y: string, s: string, i: nat, j: nat)
    requires OccursAt(x + y, s, i) && j == i + |x|
    ensures OccursAt(x, s, i) && OccursAt(y, s, j)
  {
    assert s[i..j] == (x + y)[..|x|];
    assert s[j..j + |y|] == (x + y)[|x|..];
  }

  /** The six pieces of a tail, each at its own position, make a written tail. */
  lemma TailWrittenIntro(s: string, o: nat, a: string, c: string, body: string,
                         k: nat, cs: nat, ce: nat, d: nat, be: nat)
    requires k == o + |a| && cs == k + |OnclickDelim| && ce == cs + |c|
    requires d == ce + |ClassDelim| && be == d + |body|
    requires OccursAt(a, s, o) && OccursAt(OnclickDelim, s, k) && OccursAt(c, s, cs)
    requires OccursAt(ClassDelim, s, ce) && OccursAt(body, s, d) && OccursAt(CloseTag, s, be)
    ensures TailWrittenAt(s, o, a, c, body)
  {
  }

  /** Restoring a highlight and then matching the page for its id gives back
      the cleaned content and the style (the default style for a raw value
      outside 0..4), when the restored tag is the first for that id. */
  lemma RestoreThenMatch(html: string, h: Highlight, mh: MatchingHighlight, range: nat, now: Date)
    requires InsertOne(html, h).Page? && TagPosition(html, h).Some?
    requires range > 0 && mh.id == h.id && mh.text == InsertOne(html, h).html
    requires '<' !in h.id
    requires !Occurs(OpenPrefix(h.id), html[..TagPosition(html, h).value])
    requires forall x :: 0 <= x < |h.content| ==> DotOrSpace.Accepts(h.content[x])
    requires !Occurs(CloseTag, h.content)
    ensures MatchHighlightIn(mh, range, now) != NoMatch
    ensures MatchHighlightIn(mh, range, now).Matched? ==>
              && MatchHighlightIn(mh, range, now).highlight.content == RemoveSentenceSpam(h.content)
              && MatchHighlightIn(mh, range, now).highlight.style == (if 0 <= h.style < |ClassNames| then h.style else 0)
              && MatchHighlightIn(mh, range, now).highlight.id == h.id
  {
    var p := TagPosition(html, h).value;
    var s := mh.text;
    assert s[..p] == html[..p];
    RestoredTagIsFirst(s, p, h);
    RawValueThroughClass(h.style);
  }

  // ---------------------------------------------------------------------
  // getEventTouchPoint
  // ---------------------------------------------------------------------

  const ClientXName: string := "/clientX="
  const ClientYName: string := "clientY="

  /** `getEventTouchPoint(fromPositionParameterString:)`: both parameter names
      removed wherever they occur, the rest split on `&`, and a point exactly
      when there are two components that both parse as `Int`. */
  function EventTouchPoint(param: string): (r: Option<(int, int)>)
    ensures r.Some? ==> IsInt64(r.value.0) && IsInt64(r.value.1)
    ensures r.Some? ==> |Split(ReplaceAll(ReplaceAll(param, ClientXName, ""), ClientYName, ""), '&')| == 2
    ensures var parts := Split(ReplaceAll(ReplaceAll(param, ClientXName, ""), ClientYName, ""), '&');
            && (r.Some? <==> |parts| == 2 && ParseInt(parts[0]).Some? && ParseInt(parts[1]).Some?)
            && (r.Some? ==> r.value == (ParseInt(parts[0]).value, ParseInt(parts[1]).value))
  {
    var stripped := ReplaceAll(ReplaceAll(param, ClientXName, ""), ClientYName, "");
    var parts := Split(stripped, '&');
    if |parts| == 2 && ParseInt(parts[0]).Some? && ParseInt(parts[1]).Some? then
      Some((ParseInt(parts[0]).value, ParseInt(parts[1]).value))
    else None
  }

  /** The click position string the bridge builds. */
  function PositionParameter(x: int, y: int): (r: string)
    ensures StartsAt(ClientXName, r, 0)
    ensures EndsAt(IntToString(y), r, |r|)
  {
    ClientXName + IntToString(x) + "&" + ClientYName + IntToString(y)
  }

  /** The decimal spelling has neither `/` nor `c`, so neither parameter name
      can start inside it. */
  lemma NumberHasNoNameStart(x: int)
    ensures '/' !in IntToString(x) && 'c' !in IntToString(x)
  {
    var xs := IntToString(x);
    forall k | 0 <= k < |xs| ensures xs[k] != '/' && xs[k] != 'c' {
    }
  }

  /** Removing a name that leads the string and does not recur. */
  lemma StripLeading(name: string, t: string)
    requires |name| > 0 && name[0] !in t
    ensures ReplaceAll(name + t, name, "") == t
  {
    var u := name + t;
    assert u[..|name|] == name;
    assert u[|name|..] == t;
    assert ReplaceAll(u, name, "") == "" + ReplaceAll(t, name, "");
    ReplaceAllAbsent(t, name, "");
  }

  /** Reading the touch point undoes the bridge's formatting. */
  lemma TouchPointRoundTrip(x: int, y: int)
    requires IsInt64(x) && IsInt64(y)
    ensures EventTouchPoint(PositionParameter(x, y)) == Some((x, y))
  {
    var xs := IntToString(x);
    var ys := IntToString(y);
    NumberHasNoNameStart(x);
    NumberHasNoNameStart(y);
    StripNames(xs, ys);
    assert Join([xs, ys], '&') == (xs + "&") + ys;
    SplitJoin([xs, ys], '&');
    ParseIntToString(x);
    ParseIntToString(y);
  }

  /** Removing both names from a position string built of two spellings
      without `/` or `c` leaves the spellings joined by `&`. */
  lemma StripNames(xs: string, ys: string)
    requires '/' !in xs && 'c' !in xs && '/' !in ys && 'c' !in ys
    ensures ReplaceAll(ReplaceAll(ClientXName + xs + "&" + ClientYName + ys, ClientXName, ""), ClientYName, "")
            == (xs + "&") + ys
  {
    var tail := (xs + "&") + (ClientYName + ys);
    assert ClientXName + xs + "&" + ClientYName + ys == ClientXName + tail;
    assert '/' !in tail by {
      assert '/' !in xs + "&" && '/' !in ClientYName + ys;
    }
    StripLeading(ClientXName, tail);
    assert 'c' !in xs + "&";
    ReplaceAllSkips(xs + "&", ClientYName + ys, ClientYName, "");
    StripLeading(ClientYName, ys);
  }

  /** A third component, as when an extra `&` appears, gives no point. */
  lemma ExtraComponentRejected()
    ensures EventTouchPoint("1&2&3") == None
  {
    ReplaceAllAbsent("1&2&3", ClientXName, "");
    ReplaceAllAbsent("1&2&3", ClientYName, "");
    assert Join(["1", "2", "3"], '&') == "1&2&3";
    SplitJoin(["1", "2", "3"], '&');
  }
}

=== FILE: regex.dfy ===
/** The fragments of ICU regular-expression semantics (NSRegularExpression with
    default options) that the highlight patterns use: `.`, `\s`, their union
    `(.|\s)`, and a lazy repetition `X*?` followed by a literal delimiter. */
module IcuRegex {
  import opened Wrappers
  import opened Text

  /** ICU line terminators: `.` does not match these without DOTALL. */
  predicate LineTerminator(c: char) {
    c == '\n' || c == '\U{000B}' || c == '\U{000C}' || c == '\r'
    || c == '\U{0085}' || c == '\U{2028}' || c == '\U{2029}'
  }

  /** Unicode general category Z (separators). */
  predicate SeparatorZ(c: char) {
    c == ' ' || c == '\U{00A0}' || c == '\U{1680}' || ('\U{2000}' <= c <= '\U{200A}')
    || c == '\U{2028}' || c == '\U{2029}' || c == '\U{202F}' || c == '\U{205F}' || c == '\U{3000}'
  }

  /** ICU `\s`: `[\t\n\f\r\p{Z}]`. */
  predicate IcuSpace(c: char) {
    c == '\t' || c == '\n' || c == '\U{000C}' || c == '\r' || SeparatorZ(c)
  }

  /** The two single-character classes the patterns repeat. */
  datatype CharClass = Dot | DotOrSpace {
    predicate Accepts(c: char) {
      match this
      case Dot => !LineTerminator(c)
      case DotOrSpace => !LineTerminator(c) || IcuSpace(c)
    }
  }

  /** `(.|\s)` takes every character except VT (U+000B) and NEL (U+0085), the
      two line terminators that are not ICU white space. */
  lemma DotOrSpaceAccepts(c: char)
    ensures DotOrSpace.Accepts(c) <==> c != '\U{000B}' && c != '\U{0085}'
  {
  }

  /** Every character of `s[i..j]` is in the class. */
  predicate AllAccepted(s: seq<char>, i: int, j: int, cc: CharClass)
    requires 0 <= i <= j <= |s|
  {
    forall t :: i <= t < j ==> cc.Accepts(s[t])
  }

  /** The lazy `X*?` followed by the literal `delim`, started at `from`: the end
      of the repeated part, i.e. the first occurrence of `delim` that is reached
      through characters of the class only. */
  function LazyUntil(s: seq<char>, from: nat, cc: CharClass, delim: seq<char>): (r: Option<nat>)
    requires from <= |s|
    ensures r.Some? ==> from <= r.value <= |s| && OccursAt(delim, s, r.value)
    ensures r.Some? ==> AllAccepted(s, from, r.value, cc)
    ensures r.Some? ==> forall j :: from <= j < r.value ==> !OccursAt(delim, s, j)
    ensures r.None? ==> forall k :: from <= k <= |s| && OccursAt(delim, s, k) ==> !AllAccepted(s, from, k, cc)
    decreases |s| - from
  {
    if OccursAt(delim, s, from) then Some(from)
    else if from < |s| && cc.Accepts(s[from]) then LazyUntil(s, from + 1, cc, delim)
    else None
  }

  /** The lazy repetition stops exactly at a delimiter occurrence that is
      reached through the class and has no earlier occurrence before it. */
  lemma {:induction false} LazyUntilFinds(s: seq<char>, from: nat, k: nat, cc: CharClass, delim: seq<char>)
    requires from <= k <= |s| && OccursAt(delim, s, k)
    requires AllAccepted(s, from, k, cc)
    requires forall j :: from <= j < k ==> !OccursAt(delim, s, j)
    ensures LazyUntil(s, from, cc, delim) == Some(k)
    decreases k - from
  {
    if from < k {
      LazyUntilFinds(s, from + 1, k, cc, delim);
    }
  }

  /** A delimiter found right after a text of accepted characters, the text
      starting at `from`, is where the lazy repetition from `from` stops,
      provided no occurrence of the delimiter can start inside the text:
      either the text lacks the delimiter's first character, or the text
      lacks the delimiter and that first character does not recur in it. */
  lemma LazyUntilAt(s: seq<char>, from: nat, t: seq<char>, d: seq<char>, cc: CharClass)
    requires |d| > 0 && OccursAt(t, s, from) && OccursAt(d, s, from + |t|)
    requires forall x :: 0 <= x < |t| ==> cc.Accepts(t[x])
    requires d[0] !in t || (!Occurs(d, t) && d[0] !in d[1..])
    ensures LazyUntil(s, from, cc, d) == Some(from + |t|)
  {
    var e := from + |t|;
    forall j | from <= j < e ensures !OccursAt(d, s, j) {
      NoDelimiterInside(s, from, t, d, j);
    }
    assert AllAccepted(s, from, e, cc) by {
      forall x | from <= x < e ensures cc.Accepts(s[x]) {
        assert s[x] == t[x - from];
      }
    }
    LazyUntilFinds(s, from, e, cc, d);
  }

  /** No occurrence of the delimiter starts inside the text before it. */
  lemma NoDelimiterInside(s: seq<char>, from: nat, t: seq<char>, d: seq<char>, j: nat)
    requires |d| > 0 && OccursAt(t, s, from) && OccursAt(d, s, from + |t|)
    requires d[0] !in t || (!Occurs(d, t) && d[0] !in d[1..])
    requires from <= j < from + |t|
    ensures !OccursAt(d, s, j)
  {
    var clear := d[0] !in t;
    assert !clear ==> !Occurs(d, t) && d[0] !in d[1..];
    var e := from + |t|;
    assert s[j] == t[j - from] by { assert s[from..e][j - from] == s[j]; }
    assert s[e] == d[0] by { assert s[e..e + |d|][0] == s[e]; }
    if j + |d| <= |s| {
      var w := s[j..j + |d|];
      if clear {
        assert w[0] == s[j];
      } else if j + |d| <= e {
        WithinOccurrence(t, s, from, j, |d|);
        assert !OccursAt(d, t, j - from);
      } else {
        assert d[1..][e - j - 1] == d[e - j];
        assert w[e - j] == s[e];
      }
    }
  }

  /** The same, for a text written between `a` and the delimiter. */
  lemma LazyUntilAfter(a: seq<char>, t: seq<char>, d: seq<char>, b: seq<char>, cc: CharClass)
    requires |d| > 0
    requires forall x :: 0 <= x < |t| ==> cc.Accepts(t[x])
    requires d[0] !in t || (!Occurs(d, t) && d[0] !in d[1..])
    ensures LazyUntil(a + t + d + b, |a|, cc, d) == Some(|a| + |t|)
  {
    var s := a + t + d + b;
    assert s[|a|..|a| + |t|] == t;
    assert s[|a| + |t|..|a| + |t| + |d|] == d;
    LazyUntilAt(s, |a|, t, d, cc);
  }

  // ---------------------------------------------------------------------
  // The end-of-input anchor and the greedy run up to it
  // ---------------------------------------------------------------------

  /** ICU `$` without the multiline option: the end of the input, or just before
      a line terminator that ends the input (CR LF counting as one). */
  predicate DollarAt(s: seq<char>, q: int) {
    && 0 <= q <= |s|
    && (q == |s|
        || (q == |s| - 1 && LineTerminator(s[q]))
        || (q == |s| - 2 && s[q] == '\r' && s[q + 1] == '\n'))
  }

  /** The first index at or after `p` whose character the class refuses, or the
      end of the input. */
  function BlockEnd(s: seq<char>, p: nat, cc: CharClass): (b: nat)
    requires p <= |s|
    ensures p <= b <= |s| && AllAccepted(s, p, b, cc)
    ensures b < |s| ==> !cc.Accepts(s[b])
    decreases |s| - p
  {
    if p < |s| && cc.Accepts(s[p]) then BlockEnd(s, p + 1, cc) else p
  }

  /** The largest `q` in `[p, hi]` where `$` holds. */
  function LastDollar(s: seq<char>, p: nat, hi: nat): (r: Option<nat>)
    requires p <= hi <= |s|
    ensures r.Some? ==> p <= r.value <= hi && DollarAt(s, r.value)
    ensures r.Some? ==> forall q :: r.value < q <= hi ==> !DollarAt(s, q)
    ensures r.None? ==> forall q :: p <= q <= hi ==> !DollarAt(s, q)
    decreases hi - p
  {
    if DollarAt(s, hi) then Some(hi)
    else if hi > p then LastDollar(s, p, hi - 1)
    else None
  }

  /** The greedy `X*$` started at `p`: the longest run of class characters
      after which `$` holds. */
  function GreedyToEnd(s: seq<char>, p: nat, cc: CharClass): (r: Option<nat>)
    requires p <= |s|
    ensures r.Some? ==> p <= r.value <= |s| && AllAccepted(s, p, r.value, cc) && DollarAt(s, r.value)
    ensures r.Some? ==> forall q :: r.value < q <= |s| && AllAccepted(s, p, q, cc) ==> !DollarAt(s, q)
    ensures r.None? ==> forall q :: p <= q <= |s| && AllAccepted(s, p, q, cc) ==> !DollarAt(s, q)
  {
    var b := BlockEnd(s, p, cc);
    assert forall q :: b < q <= |s| ==> !AllAccepted(s, p, q, cc);
    LastDollar(s, p, b)
  }

  /** When the class accepts the whole rest of the input, the greedy run takes
      all of it. */
  lemma GreedyToEndAll(s: seq<char>, p: nat, cc: CharClass)
    requires p <= |s| && AllAccepted(s, p, |s|, cc)
    ensures GreedyToEnd(s, p, cc) == Some(|s|)
  {
    assert AllAccepted(s, p, |s|, cc) && DollarAt(s, |s|);
  }
}

=== FILE: repository.dfy ===
/** The façade over the store (`DBAPIManager`): it holds an optional store
    handle, nil when the database could not be opened, and absorbs every error
    the store raises, so a mutation that fails leaves the store as it was and
    a read that fails answers nil or the empty list. */
module HighlightRepository {
  import opened Wrappers
  import opened HighlightModel
  import opened HighlightStore

  datatype Manager = Manager(handler: Option<Store>)

  /** Every handle the façade holds satisfies the store invariant. */
  predicate ManagerValid(m: Manager) {
    m.handler.Some? ==> Valid(m.handler.value)
  }

  /** `init()`: open the database file (`openOk` says whether `sqlite3_open`
      succeeded; `readable` and `writable` whether the version pragmas do),
      then try to create the table, ignoring the failure when it exists. */
  function Connect(file: Store, openOk: bool, readable: bool, writable: bool): (m: Manager)
    ensures m.handler.None? <==> !openOk
    ensures m.handler.Some? ==> m.handler.value.table.Some?
    ensures openOk && file.table.None? ==> m.handler.value.table.value == Table(CreateColumns, [])
    ensures openOk && file.table.Some? ==> m.handler.value == OpenStore(file, readable, writable)
  {
    if !openOk then Manager(None)
    else
      var db := OpenStore(file, readable, writable);
      Manager(Some(CreateTable(db).ValueOr(db)))
  }

  /** The store after a mutation whose error is caught and logged. */
  function Absorb(db: Store, r: Result<Store, SqlError>): (d: Store)
    ensures r.Failure? ==> d == db
    ensures r.Success? ==> d == r.value
  {
    r.ValueOr(db)
  }

  /** `addHighlight(highlight:completion:)`: the insert, with a duplicate id or
      a missing table ignored; the completion block is never called. */
  function Add(m: Manager, h: Highlight): (r: Manager)
    requires Insertable(h)
    ensures m.handler.None? ==> r == m
    ensures m.handler.Some? ==> r.handler.Some?
    ensures m.handler.Some? && AddHighlight(m.handler.value, h).Failure? ==> r == m
  {
    match m.handler
    case None => m
    case Some(db) => Manager(Some(Absorb(db, AddHighlight(db, h))))
  }

  /** `updateHighlight(id:type:)`: writes the style's raw value. */
  function UpdateStyle(m: Manager, id: string, style: HighlightStyle): (r: Manager)
    ensures m.handler.None? ==> r == m
    ensures m.handler.Some? ==> r.handler.Some?
  {
    match m.handler
    case None => m
    case Some(db) => Manager(Some(Absorb(db, HighlightStore.UpdateStyle(db, id, style.RawValue()))))
  }

  /** `updateHighlight(id:note:)`. */
  function UpdateNote(m: Manager, id: string, note: string): (r: Manager)
    ensures m.handler.None? ==> r == m
    ensures m.handler.Some? ==> r.handler.Some?
  {
    match m.handler
    case None => m
    case Some(db) => Manager(Some(Absorb(db, HighlightStore.UpdateNote(db, id, note))))
  }

  /** `removeHighlight(byId:)`. */
  function Remove(m: Manager, id: string): (r: Manager)
    ensures m.handler.None? ==> r == m
    ensures m.handler.Some? ==> r.handler.Some?
  {
    match m.handler
    case None => m
    case Some(db) => Manager(Some(Absorb(db, RemoveHighlight(db, id))))
  }

  /** `getHighlight(byId:)`: nil without a handle, on an error, or for an
      absent id. */
  function Get(m: Manager, id: string): (r: Option<Highlight>)
    ensures m.handler.None? ==> r.None?
    ensures m.handler.Some? && m.handler.value.table.None? ==> r.None?
    ensures m.handler.Some? && m.handler.value.table.Some? ==>
              (r.Some? <==> HasId(m.handler.value.table.value.rows, CText(id)))
  {
    match m.handler
    case None => None
    case Some(db) => GetHighlight(db, id).ValueOr(None)
  }

  /** `getAllHighlight(byBookId:page:)`; a nil page means every page of the
      book. */
  function GetAllByBookId(m: Manager, bookId: string, page: Option<int> := None): (r: seq<Highlight>)
    requires page.Some? ==> IsInt32(page.value)
    ensures m.handler.None? || m.handler.value.table.None? ==> r == []
    ensures forall k :: 0 <= k < |r| ==> r[k].bookId == CText(bookId) && (page.Some? ==> r[k].page == page.value)
    ensures m.handler.Some? && m.handler.value.table.Some? ==>
              r == Where(ReadRows(m.handler.value.table.value.rows), OfBook(bookId, page))
  {
    match m.handler
    case None => []
    case Some(db) => GetAllByBook(db, bookId, page).ValueOr([])
  }

  /** `getAllHighlights()`. */
  function GetAllHighlights(m: Manager): (r: seq<Highlight>)
    ensures m.handler.None? || m.handler.value.table.None? ==> r == []
    ensures m.handler.Some? && m.handler.value.table.Some? ==> |r| == |m.handler.value.table.value.rows|
    ensures m.handler.Some? && m.handler.value.table.Some? ==>
              forall k :: 0 <= k < |r| ==> r[k] == ReadRow(m.handler.value.table.value.rows[k])
  {
    match m.handler
    case None => []
    case Some(db) => GetAll(db).ValueOr([])
  }

  // ---------------------------------------------------------------------
  // Properties
  // ---------------------------------------------------------------------

  /** Without a handle every call is inert. */
  lemma NilHandlerInert(h: Highlight, id: string, style: HighlightStyle, note: string, bookId: string, page: Option<int>)
    requires Insertable(h) && (page.Some? ==> IsInt32(page.value))
    ensures var m := Manager(None);
            && Add(m, h) == m && UpdateStyle(m, id, style) == m && UpdateNote(m, id, note) == m
            && Remove(m, id) == m
            && Get(m, id) == None && GetAllByBookId(m, bookId, page) == [] && GetAllHighlights(m) == []
  {
  }

  /** Every façade call keeps the store invariant. */
  lemma CallsKeepValid(m: Manager, h: Highlight, id: string, style: HighlightStyle, note: string)
    requires ManagerValid(m) && Insertable(h)
    ensures ManagerValid(Add(m, h))
    ensures ManagerValid(UpdateStyle(m, id, style))
    ensures ManagerValid(UpdateNote(m, id, note))
    ensures ManagerValid(Remove(m, id))
  {
    if m.handler.Some? {
      var db := m.handler.value;
      if AddHighlight(db, h).Success? {
        AddKeepsValid(db, h);
      }
      if db.table.Some? {
        UpdateKeepsValid(db, id, style.RawValue(), note);
        RemoveKeepsValid(db, id);
      }
    }
  }

  /** The handle a fresh connection makes is valid. */
  lemma ConnectValid(file: Store, openOk: bool, readable: bool, writable: bool)
    requires Valid(file)
    ensures ManagerValid(Connect(file, openOk, readable, writable))
  {
    OpenKeepsValid(file, readable, writable);
  }

  /** A first launch on an empty database file gets the full table at
      version 1 (when the pragmas work), and a record added to it reads back
      as persisted. */
  lemma FirstLaunchRoundTrip(h: Highlight)
    requires Insertable(h)
    ensures var m := Connect(Store(None, 0), true, true, true);
            && m.handler == Some(Store(Some(Table(CreateColumns, [])), CurrentSchemaVersion))
            && Get(Add(m, h), h.id) == Some(Persisted(h))
  {
    var db := Store(Some(Table(CreateColumns, [])), CurrentSchemaVersion);
    CreatedTableInsertable();
    assert !HasId(db.table.value.rows, CText(h.id));
    AddThenGet(db, h);
  }

  /** A record whose id is not yet stored reads back as persisted. */
  lemma AddThenGetThroughFacade(m: Manager, h: Highlight)
    requires ManagerValid(m) && Insertable(h)
    requires m.handler.Some? && m.handler.value.table.Some?
    requires HasInsertColumns(m.handler.value.table.value)
    requires !HasId(m.handler.value.table.value.rows, CText(h.id))
    ensures Get(Add(m, h), h.id) == Some(Persisted(h))
  {
    AddThenGet(m.handler.value, h);
  }

  /** A second add with a stored id is swallowed: nothing changes and the
      first record is still the one read back. */
  lemma AddDuplicateIgnored(m: Manager, h: Highlight, other: Highlight)
    requires Insertable(h) && Insertable(other)
    requires m.handler.Some? && AddHighlight(m.handler.value, h).Success?
    requires CText(other.id) == CText(h.id)
    ensures Add(Add(m, h), other) == Add(m, h)
  {
    AddDuplicateFails(m.handler.value, h, other);
  }

  /** The style path stores only raw values 0..4, and the read after it sees
      the new style on the stored id. */
  lemma UpdateStyleStoresRawValue(m: Manager, id: string, style: HighlightStyle)
    requires ManagerValid(m) && m.handler.Some? && m.handler.value.table.Some?
    ensures Get(m, id).Some? ==> Get(UpdateStyle(m, id, style), id) == Some(Get(m, id).value.(style := style.RawValue()))
    ensures Get(UpdateStyle(m, id, style), id).Some? ==> 0 <= Get(UpdateStyle(m, id, style), id).value.style < |ClassNames|
  {
    UpdateStyleThenGet(m.handler.value, id, style.RawValue(), id);
  }

  /** The note path writes the note: the next read of a stored id sees it,
      as the C interface keeps it. */
  lemma UpdateNoteWritesNote(m: Manager, id: string, note: string)
    requires ManagerValid(m) && m.handler.Some? && m.handler.value.table.Some?
    ensures Get(m, id).Some? ==> Get(UpdateNote(m, id, note), id) == Some(Get(m, id).value.(noteForHighlight := Some(CText(note))))
    ensures Get(m, id).None? ==> Get(UpdateNote(m, id, note), id).None?
  {
    UpdateNoteThenGet(m.handler.value, id, note, id);
  }

  /** A record added under a new id shows in the list of all highlights, as
      the last one, and in the list of its book (and of its page). */
  lemma AddThenListed(m: Manager, h: Highlight, page: Option<int>)
    requires ManagerValid(m) && Insertable(h)
    requires m.handler.Some? && m.handler.value.table.Some?
    requires HasInsertColumns(m.handler.value.table.value)
    requires !HasId(m.handler.value.table.value.rows, CText(h.id))
    requires page.Some? ==> IsInt32(page.value)
    ensures GetAllHighlights(Add(m, h)) == GetAllHighlights(m) + [Persisted(h)]
    ensures GetAllByBookId(Add(m, h), h.bookId, page)
            == GetAllByBookId(m, h.bookId, page) + (if page.None? || page.value == h.page then [Persisted(h)] else [])
  {
    AddThenScan(m.handler.value, h, h.bookId, page);
  }

  /** After a removal the id reads nil. */
  lemma RemoveThenGetNil(m: Manager, id: string)
    requires ManagerValid(m) && m.handler.Some? && m.handler.value.table.Some?
    ensures Get(Remove(m, id), id) == None
  {
    RemoveThenGet(m.handler.value, id, id);
  }
}

=== FILE: sentence.dfy ===
/** `Highlight.removeSentenceSpam`: strips the `<span class="sentence">` wrappers
    that the narration support injects, keeping only their inner texts. */
module SentenceSpam {
  import opened Wrappers
  import opened Text
  import opened IcuRegex

  const SpanOpen: string := "<span class=\"sentence\">"
  const SpanClose: string := "</span>"

  /** One match of `<span class="sentence">((.|\s)*?)</span>`: the whole match is
      `[start, end)` and capture group 1 is `[innerStart, innerEnd)`. */
  datatype SpanMatch = SpanMatch(start: nat, innerStart: nat, innerEnd: nat, end: nat)

  predicate WithinText(s: string, m: SpanMatch) {
    m.start < m.innerStart <= m.innerEnd < m.end <= |s|
  }

  /** The match of the pattern that starts at index `i`, if any. */
  function SpanAt(s: string, i: nat): (r: Option<SpanMatch>)
    ensures r.Some? ==> r.value.start == i && WithinText(s, r.value)
    ensures r.Some? ==> OccursAt(SpanOpen, s, i) && r.value.innerStart == i + |SpanOpen|
    ensures r.Some? ==> OccursAt(SpanClose, s, r.value.innerEnd) && r.value.end == r.value.innerEnd + |SpanClose|
    ensures r.Some? ==> forall j :: r.value.innerStart <= j < r.value.innerEnd ==> !OccursAt(SpanClose, s, j)
  {
    if OccursAt(SpanOpen, s, i) then
      match LazyUntil(s, i + |SpanOpen|, DotOrSpace, SpanClose)
      case Some(k) => Some(SpanMatch(i, i + |SpanOpen|, k, k + |SpanClose|))
      case None => None
    else None
  }

  /** Every index at or after `from` where a match could start is covered by one
      of the matches in `ms`. */
  predicate Covers(s: string, from: nat, ms: seq<SpanMatch>) {
    forall j :: from <= j < |s| && SpanAt(s, j).Some? ==>
      exists k :: 0 <= k < |ms| && ms[k].start <= j < ms[k].end
  }

  /** The successive matches of `matches(in:)` from index `from`: left to right,
      each search resuming where the previous match ended. */
  function SpanMatches(s: string, from: nat): (ms: seq<SpanMatch>)
    ensures forall k :: 0 <= k < |ms| ==> from <= ms[k].start && SpanAt(s, ms[k].start) == Some(ms[k])
    ensures forall k :: 0 <= k < |ms| - 1 ==> ms[k].end <= ms[k + 1].start
    ensures Covers(s, from, ms)
    decreases |s| - from
  {
    if from >= |s| then []
    else
      match SpanAt(s, from)
      case Some(m) =>
        var rest := SpanMatches(s, m.end);
        CoversCons(s, from, m, rest);
        ConsMatches(s, from, m, rest);
        ConsOrdered(m, rest);
        [m] + rest
      case None =>
        var rest := SpanMatches(s, from + 1);
        CoversSkip(s, from, rest);
        rest
  }

  lemma CoversSkip(s: string, from: nat, rest: seq<SpanMatch>)
    requires SpanAt(s, from).None?
    requires Covers(s, from + 1, rest)
    ensures Covers(s, from, rest)
  {
  }

  lemma ConsMatches(s: string, from: nat, m: SpanMatch, rest: seq<SpanMatch>)
    requires SpanAt(s, from) == Some(m)
    requires forall k :: 0 <= k < |rest| ==> m.end <= rest[k].start && SpanAt(s, rest[k].start) == Some(rest[k])
    ensures forall k :: 0 <= k < |[m] + rest| ==> from <= ([m] + rest)[k].start && SpanAt(s, ([m] + rest)[k].start) == Some(([m] + rest)[k])
  {
    var ms := [m] + rest;
    forall k | 0 <= k < |ms|
      ensures from <= ms[k].start && SpanAt(s, ms[k].start) == Some(ms[k])
    {
      if k > 0 {
        assert ms[k] == rest[k - 1];
      }
    }
  }

  lemma ConsOrdered(m: SpanMatch, rest: seq<SpanMatch>)
    requires forall k :: 0 <= k < |rest| - 1 ==> rest[k].end <= rest[k + 1].start
    requires |rest| > 0 ==> m.end <= rest[0].start
    ensures forall k :: 0 <= k < |[m] + rest| - 1 ==> ([m] + rest)[k].end <= ([m] + rest)[k + 1].start
  {
    var ms := [m] + rest;
    assert forall k :: 1 <= k < |ms| ==> ms[k] == rest[k - 1];
  }

  /** A match at `from` followed by a covering of the text after it covers
      everything from `from` on. */
  lemma CoversCons(s: string, from: nat, m: SpanMatch, rest: seq<SpanMatch>)
    requires SpanAt(s, from) == Some(m)
    requires Covers(s, m.end, rest)
    ensures Covers(s, from, [m] + rest)
  {
    forall j | from <= j < |s| && SpanAt(s, j).Some?
      ensures exists k :: 0 <= k < |[m] + rest| && ([m] + rest)[k].start <= j < ([m] + rest)[k].end
    {
      if j < m.end {
        InHead(m, rest, j);
      } else {
        var k' :| 0 <= k' < |rest| && rest[k'].start <= j < rest[k'].end;
        InTail(m, rest, j, k');
      }
    }
  }

  lemma InHead(m: SpanMatch, rest: seq<SpanMatch>, j: nat)
    requires m.start <= j < m.end
    ensures exists k :: 0 <= k < |[m] + rest| && ([m] + rest)[k].start <= j < ([m] + rest)[k].end
  {
    assert ([m] + rest)[0] == m;
  }

  lemma InTail(m: SpanMatch, rest: seq<SpanMatch>, j: nat, k: nat)
    requires k < |rest| && rest[k].start <= j < rest[k].end
    ensures exists k :: 0 <= k < |[m] + rest| && ([m] + rest)[k].start <= j < ([m] + rest)[k].end
  {
    assert ([m] + rest)[k + 1] == rest[k];
  }

  /** Without an opening `<span class="sentence">` there is nothing to match. */
  lemma {:induction false} NoOpenNoMatches(s: string, from: nat)
    requires forall i: nat :: !OccursAt(SpanOpen, s, i)
    ensures SpanMatches(s, from) == []
    decreases |s| - from
  {
    if from < |s| {
      assert SpanAt(s, from).None?;
      NoOpenNoMatches(s, from + 1);
    }
  }

  /** The in-order concatenation of the capture groups of `ms`. */
  function Inners(s: string, ms: seq<SpanMatch>): string
    requires forall k :: 0 <= k < |ms| ==> WithinText(s, ms[k])
  {
    if |ms| == 0 then []
    else
      assert WithinText(s, ms[0]);
      s[ms[0].innerStart..ms[0].innerEnd] + Inners(s, ms[1..])
  }

  /** Every match has an empty capture group. */
  predicate AllInnersEmpty(ms: seq<SpanMatch>) {
    forall k :: 0 <= k < |ms| ==> ms[k].innerStart == ms[k].innerEnd
  }

  /** Cleaning: when the pattern matches and at least one capture is non-empty,
      the text becomes the concatenation of the captures; otherwise it is kept. */
  function RemoveSentenceSpam(text: string): (r: string)
    ensures SpanMatches(text, 0) == [] ==> r == text
    ensures AllInnersEmpty(SpanMatches(text, 0)) ==> r == text
    ensures !AllInnersEmpty(SpanMatches(text, 0)) ==> r == Inners(text, SpanMatches(text, 0))
    ensures |r| <= |text|
  {
    var ms := SpanMatches(text, 0);
    var joined := Inners(text, ms);
    InnersEmpty(text, ms);
    InnersShorter(text, ms, 0);
    if |ms| > 0 && |joined| > 0 then joined else text
  }

  lemma {:induction false} InnersEmpty(s: string, ms: seq<SpanMatch>)
    requires forall k :: 0 <= k < |ms| ==> WithinText(s, ms[k])
    ensures |Inners(s, ms)| == 0 <==> AllInnersEmpty(ms)
    decreases |ms|
  {
    if |ms| > 0 {
      InnersEmpty(s, ms[1..]);
      if AllInnersEmpty(ms[1..]) && ms[0].innerStart == ms[0].innerEnd {
        forall k | 0 <= k < |ms| ensures ms[k].innerStart == ms[k].innerEnd {
          if k > 0 { assert ms[k] == ms[1..][k - 1]; }
        }
      }
    }
  }

  /** Captures of ordered, non-overlapping matches fit in the text they came from. */
  lemma {:induction false} InnersShorter(s: string, ms: seq<SpanMatch>, from: nat)
    requires forall k :: 0 <= k < |ms| ==> WithinText(s, ms[k])
    requires |ms| > 0 ==> from <= ms[0].start
    requires forall k :: 0 <= k < |ms| - 1 ==> ms[k].end <= ms[k + 1].start
    ensures from <= |s| ==> |Inners(s, ms)| <= |s| - from
    decreases |ms|
  {
    if |ms| > 0 {
      InnersShorter(s, ms[1..], ms[0].end);
    }
  }

  // ---------------------------------------------------------------------
  // Unwrapping a single sentence span
  // ---------------------------------------------------------------------

  /** A text the lazy group can carry unchanged up to a trailing `</span>`. */
  predicate Wrappable(t: string) {
    && !Occurs(SpanClose, t)
    && forall i :: 0 <= i < |t| ==> DotOrSpace.Accepts(t[i])
  }

  /** A span wrapped around a wrappable text is matched right where it starts. */
  lemma SpanAtWrapped(a: string, t: string, b: string)
    requires Wrappable(t)
    ensures var s := a + SpanOpen + t + SpanClose + b;
            SpanAt(s, |a|) == Some(SpanMatch(|a|, |a| + |SpanOpen|, |a| + |SpanOpen| + |t|,
                                             |a| + |SpanOpen| + |t| + |SpanClose|))
  {
    var s := a + SpanOpen + t + SpanClose + b;
    OpenOfWrapped(a, t, b);
    CloseOfWrapped(a, t, b);
    SpanAtFrom(s, |a|, |t|);
  }

  lemma OpenOfWrapped(a: string, t: string, b: string)
    ensures OccursAt(SpanOpen, a + SpanOpen + t + SpanClose + b, |a|)
  {
    var s := a + SpanOpen + t + SpanClose + b;
    assert s[|a|..|a| + |SpanOpen|] == SpanOpen;
  }

  /** The lazy group after the opening tag stops at the wrapped text's end. */
  lemma CloseOfWrapped(a: string, t: string, b: string)
    requires Wrappable(t)
    ensures LazyUntil(a + SpanOpen + t + SpanClose + b, |a| + |SpanOpen|, DotOrSpace, SpanClose)
            == Some(|a| + |SpanOpen| + |t|)
  {
    assert SpanClose[0] !in SpanClose[1..];
    LazyUntilAfter(a + SpanOpen, t, SpanClose, b, DotOrSpace);
  }

  /** The span at `i` once its opening tag is there and the lazy group stops
      `n` characters after it. */
  lemma SpanAtFrom(s: string, i: nat, n: nat)
    requires OccursAt(SpanOpen, s, i)
    requires LazyUntil(s, i + |SpanOpen|, DotOrSpace, SpanClose) == Some(i + |SpanOpen| + n)
    ensures SpanAt(s, i) == Some(SpanMatch(i, i + |SpanOpen|, i + |SpanOpen| + n, i + |SpanOpen| + n + |SpanClose|))
  {
  }

  /** Sentences each wrapped in the narration span, back to back. */
  function WrapAll(ts: seq<string>): string
  {
    if |ts| == 0 then [] else SpanOpen + ts[0] + SpanClose + WrapAll(ts[1..])
  }

  /** The sentences themselves, back to back. */
  function ConcatAll(ts: seq<string>): string
  {
    if |ts| == 0 then [] else ts[0] + ConcatAll(ts[1..])
  }

  /** A match found where the scan stands is taken, and the scan resumes at its end. */
  lemma SpanMatchesStep(s: string, from: nat, m: SpanMatch)
    requires from < |s| && SpanAt(s, from) == Some(m)
    ensures SpanMatches(s, from) == [m] + SpanMatches(s, m.end)
  {
  }

  lemma InnersCons(s: string, m: SpanMatch, rest: seq<SpanMatch>)
    requires WithinText(s, m)
    requires forall k :: 0 <= k < |rest| ==> WithinText(s, rest[k])
    ensures Inners(s, [m] + rest) == s[m.innerStart..m.innerEnd] + Inners(s, rest)
  {
    assert ([m] + rest)[1..] == rest;
  }

  /** The scan over a wrapped sentence takes its span whole and resumes after it. */
  lemma ScanWrapped(a: string, t: string, b: string) returns (m: SpanMatch)
    requires Wrappable(t)
    ensures var s := a + SpanOpen + t + SpanClose + b;
            && WithinText(s, m) && m.end == |a| + |SpanOpen| + |t| + |SpanClose|
            && s[m.innerStart..m.innerEnd] == t
            && SpanMatches(s, |a|) == [m] + SpanMatches(s, m.end)
  {
    var s := a + SpanOpen + t + SpanClose + b;
    SpanAtWrapped(a, t, b);
    m := SpanAt(s, |a|).value;
    SpanMatchesStep(s, |a|, m);
    InnerOfWrapped(a, t, b);
  }

  /** The text between the tags of a wrapped sentence is the sentence. */
  lemma InnerOfWrapped(a: string, t: string, b: string)
    ensures var s := a + SpanOpen + t + SpanClose + b;
            |a| + |SpanOpen| + |t| <= |s| && s[|a| + |SpanOpen|..|a| + |SpanOpen| + |t|] == t
  {
    var s := a + SpanOpen + t + SpanClose + b;
    assert s == (a + SpanOpen) + t + (SpanClose + b);
  }

  /** Scanning a run of wrapped sentences finds one match per sentence, whose
      captures are exactly the sentences. */
  lemma {:induction false} MatchesOfWrapped(a: string, ts: seq<string>)
    requires forall k :: 0 <= k < |ts| ==> Wrappable(ts[k])
    ensures var s := a + WrapAll(ts);
            Inners(s, SpanMatches(s, |a|)) == ConcatAll(ts)
    decreases |ts|
  {
    var s := a + WrapAll(ts);
    if |ts| == 0 {
      assert s == a;
    } else {
      var t := ts[0];
      var b := WrapAll(ts[1..]);
      var a' := a + SpanOpen + t + SpanClose;
      assert s == a' + b;
      assert forall k :: 0 <= k < |ts[1..]| ==> Wrappable(ts[1..][k]) by {
        forall k | 0 <= k < |ts[1..]| ensures Wrappable(ts[1..][k]) {
          assert ts[1..][k] == ts[k + 1];
        }
      }
      MatchesOfWrapped(a', ts[1..]);
      WrappedStep(a, t, b, ConcatAll(ts[1..]));
      assert ConcatAll(ts) == t + ConcatAll(ts[1..]);
    }
  }

  /** One wrapped sentence in front of text whose scan captures `inner`. */
  lemma WrappedStep(a: string, t: string, b: string, inner: string)
    requires Wrappable(t)
    requires var a' := a + SpanOpen + t + SpanClose;
             Inners(a' + b, SpanMatches(a' + b, |a'|)) == inner
    ensures var s := a + SpanOpen + t + SpanClose + b;
            Inners(s, SpanMatches(s, |a|)) == t + inner
  {
    var s := a + SpanOpen + t + SpanClose + b;
    var a' := a + SpanOpen + t + SpanClose;
    assert s == a' + b;
    var m := ScanWrapped(a, t, b);
    assert m.end == |a'|;
    var rest := SpanMatches(s, |a'|);
    InnersCons(s, m, rest);
  }

  /** Cleaning a run of wrapped sentences, not all empty, yields the sentences
      concatenated in order, all markup dropped. */
  lemma CleanWrapped(ts: seq<string>)
    requires forall k :: 0 <= k < |ts| ==> Wrappable(ts[k])
    requires |ConcatAll(ts)| > 0
    ensures RemoveSentenceSpam(WrapAll(ts)) == ConcatAll(ts)
  {
    var s := WrapAll(ts);
    MatchesOfWrapped([], ts);
    assert [] + s == s;
    InnersEmpty(s, SpanMatches(s, 0));
  }

  /** Cleaning inverts the narration wrapper around a single sentence. */
  lemma UnwrapSentence(t: string)
    requires |t| > 0 && Wrappable(t)
    ensures RemoveSentenceSpam(SpanOpen + t + SpanClose) == t
  {
    SingleSentence(t);
    CleanWrapped([t]);
  }

  /** One sentence wrapped, and spelled, on its own. */
  lemma SingleSentence(t: string)
    ensures WrapAll([t]) == SpanOpen + t + SpanClose
    ensures ConcatAll([t]) == t
  {
    assert [t][1..] == [];
  }

  /** Cleaning is not idempotent: the captures of three spans can spell a fourth. */
  lemma NotIdempotent()
    ensures var s := WrapAll([SpanOpen + "x", "</span", ">"]);
            RemoveSentenceSpam(s) == SpanOpen + "x" + SpanClose
            && RemoveSentenceSpam(RemoveSentenceSpam(s)) == "x"
  {
    SampleWrappable();
    CleaningTwice("x");
  }

  /** For any sentence `x` that can be wrapped even behind the narration
      span's opening tag, the spans around `<span class="sentence">x`,
      `</span` and `>` clean to a wrapped `x`, which cleans again to `x`. */
  lemma CleaningTwice(x: string)
    requires |x| > 0 && Wrappable(x) && Wrappable(SpanOpen + x)
    ensures var s := WrapAll([SpanOpen + x, "</span", ">"]);
            RemoveSentenceSpam(s) == SpanOpen + x + SpanClose
            && RemoveSentenceSpam(RemoveSentenceSpam(s)) == x
  {
    var ts := [SpanOpen + x, "</span", ">"];
    assert Wrappable(ts[1]) by { assert |ts[1]| < |SpanClose|; }
    assert Wrappable(ts[2]);
    SplitSpells(x);
    CleanWrapped(ts);
    UnwrapSentence(x);
  }

  /** The opening tag in front of `x` can still be wrapped. */
  lemma SampleWrappable()
    ensures Wrappable(SpanOpen + "x")
  {
    var t1 := SpanOpen + "x";
    OpenHeadOnce();
    forall i | 0 <= i <= |t1| ensures !OccursAt(SpanClose, t1, i) {
      if i + |SpanClose| <= |t1| {
        if i == 0 {
          assert t1[1] != SpanClose[1];
          assert t1[i..i + |SpanClose|][1] == t1[1];
        } else {
          assert t1[i] == SpanOpen[1..][i - 1];
          assert t1[i] != SpanClose[0];
        }
      }
    }
  }

  /** The opening tag has a single `<`, at its head. */
  lemma OpenHeadOnce()
    ensures SpanOpen[0] == '<' && '<' !in SpanOpen[1..]
  {
    var tail := SpanOpen[1..];
    forall i | 0 <= i < |tail| ensures tail[i] != '<' {
      assert tail[i] == SpanOpen[i + 1];
    }
  }

  /** The three sentences spell a wrapped `x`. */
  lemma SplitSpells(x: string)
    ensures ConcatAll([SpanOpen + x, "</span", ">"]) == SpanOpen + x + SpanClose
  {
    var t1, t2, t3 := SpanOpen + x, "</span", ">";
    var ts := [t1, t2, t3];
    assert ts[1..] == [t2, t3];
    assert ts[1..][1..] == [t3];
    assert [t3][1..] == [];
    assert ConcatAll([t3]) == t3;
    assert ConcatAll([t2, t3]) == t2 + t3;
    assert ConcatAll(ts) == t1 + (t2 + t3);
    assert t1 + (t2 + t3) == SpanOpen + x + SpanClose;
  }
}

=== FILE: store.dfy ===
/** The SQLite highlight store (`SQLiteDatabase`) as a small versioned state
    machine: an optional `highlights` table, given by its columns and its rows
    in table-scan order, and the database's `user_version`. Every statement
    the store runs is modelled by its SQL meaning; a statement that SQLite
    refuses is a `Failure`, and a failing call leaves the database as it was. */
module HighlightStore {
  import opened Wrappers
  import opened HighlightModel

  /** The errors the store's statements can raise. */
  datatype SqlError =
    | NoSuchTable        // preparing a statement on a missing table
    | NoSuchColumn       // preparing an INSERT that names a missing column
    | TableExists        // CREATE TABLE without IF NOT EXISTS on an existing table
    | ConstraintFailed   // the PRIMARY KEY refuses a second row with the same id

  /** The values of one row. The two location columns hold NULL (`None`) in
      every row that predates the schema-1 migration. Integer columns hold the
      32-bit values `sqlite3_bind_int` wrote. */
  datatype Row = Row(
    id: string,
    bookId: string,
    content: string,
    contentPost: string,
    contentPre: string,
    date: Date,
    page: int,
    style: int,
    startOffset: int,
    endOffset: int,
    note: string,
    startLocation: Option<string>,
    endLocation: Option<string>)

  datatype Table = Table(columns: seq<Column>, rows: seq<Row>)

  datatype Store = Store(table: Option<Table>, userVersion: int)

  /** `currentSchemaVersion`. */
  const CurrentSchemaVersion: int := 1

  const Int32Min: int := -0x8000_0000
  const Int32Max: int := 0x7FFF_FFFF

  /** `Int32(x)` traps outside this range. */
  predicate IsInt32(x: int) {
    Int32Min <= x <= Int32Max
  }

  /** The integer fields of a record the INSERT can bind. */
  predicate Insertable(h: Highlight) {
    IsInt32(h.page) && IsInt32(h.style) && IsInt32(h.startOffset) && IsInt32(h.endOffset)
  }

  // ---------------------------------------------------------------------
  // Text through the C interface
  // ---------------------------------------------------------------------

  /** A string as SQLite sees it through `utf8String` with length -1, and as
      `String(cString:)` reads it back: everything before the first NUL. */
  function CText(s: string): (r: string)
    ensures '\0' !in r
    ensures |r| <= |s| && r == s[..|r|]
    ensures |r| < |s| ==> s[|r|] == '\0'
    ensures '\0' !in s ==> r == s
    decreases |s|
  {
    if |s| == 0 || s[0] == '\0' then []
    else [s[0]] + CText(s[1..])
  }

  // ---------------------------------------------------------------------
  // Table facts
  // ---------------------------------------------------------------------

  predicate HasColumn(t: Table, name: string) {
    name in ColumnNames(t.columns)
  }

  /** The INSERT names every one of its thirteen columns. */
  predicate HasInsertColumns(t: Table) {
    forall k :: 0 <= k < |InsertColumns| ==> HasColumn(t, InsertColumns[k])
  }

  /** Some row carries the (already C-truncated) id. */
  predicate HasId(rows: seq<Row>, id: string) {
    exists k :: 0 <= k < |rows| && rows[k].id == id
  }

  /** The primary key: no two rows share an id. */
  predicate UniqueIds(rows: seq<Row>) {
    forall i, j :: 0 <= i < j < |rows| ==> rows[i].id != rows[j].id
  }

  /** A location column that the table lacks reads as NULL in every row. */
  predicate LocationsFollowColumns(t: Table) {
    && (!HasColumn(t, "startLocation") ==> forall k :: 0 <= k < |t.rows| ==> t.rows[k].startLocation.None?)
    && (!HasColumn(t, "endLocation") ==> forall k :: 0 <= k < |t.rows| ==> t.rows[k].endLocation.None?)
  }

  /** The invariant every operation keeps. */
  predicate Valid(db: Store) {
    db.table.Some? ==> UniqueIds(db.table.value.rows) && LocationsFollowColumns(db.table.value)
  }

  // ---------------------------------------------------------------------
  // Writing and reading a row
  // ---------------------------------------------------------------------

  /** The row the INSERT writes: text through the C interface, a nil note as
      the empty string. */
  function RowOf(h: Highlight): (r: Row)
    requires Insertable(h)
    ensures r.id == CText(h.id) && r.note == CText(h.noteForHighlight.GetOr(""))
    ensures r.startLocation.Some? && r.endLocation.Some?
  {
    Row(CText(h.id), CText(h.bookId), CText(h.content), CText(h.contentPost), CText(h.contentPre),
        h.date, h.page, h.style, h.startOffset, h.endOffset,
        CText(h.noteForHighlight.GetOr("")),
        Some(CText(h.startLocation)), Some(CText(h.endLocation)))
  }

  /** The record a SELECT builds from a row, as the source does it: reading a
      NULL text column with `String(cString:)` traps, shown here as `None`. */
  function ReadRowAsWritten(r: Row): (h: Option<Highlight>)
    ensures h.Some? <==> r.startLocation.Some? && r.endLocation.Some?
    ensures h.Some? ==> h.value.startLocation == r.startLocation.value && h.value.endLocation == r.endLocation.value
  {
    if r.startLocation.Some? && r.endLocation.Some? then
      Some(Highlight(r.id, r.bookId, r.content, r.contentPost, r.contentPre, r.date, r.page, r.style,
                     r.startOffset, r.endOffset, Some(r.note), r.startLocation.value, r.endLocation.value))
    else None
  }

  /** The record a SELECT builds from a row, with a NULL location read as the
      empty string, which is the record's own default for those fields. */
  function ReadRow(r: Row): (h: Highlight)
    ensures h.id == r.id && h.bookId == r.bookId && h.page == r.page && h.style == r.style
    ensures h.noteForHighlight == Some(r.note)
    ensures h.startLocation == r.startLocation.GetOr("") && h.endLocation == r.endLocation.GetOr("")
    ensures ReadRowAsWritten(r).Some? ==> ReadRowAsWritten(r).value == h
  {
    Highlight(r.id, r.bookId, r.content, r.contentPost, r.contentPre, r.date, r.page, r.style,
              r.startOffset, r.endOffset, Some(r.note), r.startLocation.GetOr(""), r.endLocation.GetOr(""))
  }

  /** What the store gives back for a record it stored: every text field as
      the C interface keeps it, and the note never nil. */
  function Persisted(h: Highlight): Highlight {
    h.(id := CText(h.id), bookId := CText(h.bookId), content := CText(h.content),
       contentPost := CText(h.contentPost), contentPre := CText(h.contentPre),
       noteForHighlight := Some(CText(h.noteForHighlight.GetOr(""))),
       startLocation := CText(h.startLocation), endLocation := CText(h.endLocation))
  }

  /** Without NUL characters a stored record comes back field for field,
      except that a nil note comes back as `""`. */
  lemma PersistedWithoutNul(h: Highlight)
    requires '\0' !in h.id && '\0' !in h.bookId && '\0' !in h.content
    requires '\0' !in h.contentPost && '\0' !in h.contentPre
    requires '\0' !in h.noteForHighlight.GetOr("")
    requires '\0' !in h.startLocation && '\0' !in h.endLocation
    ensures Persisted(h) == h.(noteForHighlight := Some(h.noteForHighlight.GetOr("")))
    ensures h.noteForHighlight.None? ==> Persisted(h).noteForHighlight == Some("")
  {
  }

  /** Reading back a written row gives the persisted record. */
  lemma ReadRowOf(h: Highlight)
    requires Insertable(h)
    ensures ReadRowAsWritten(RowOf(h)) == Some(Persisted(h))
    ensures ReadRow(RowOf(h)) == Persisted(h)
  {
  }

  // ---------------------------------------------------------------------
  // Sequence helpers
  // ---------------------------------------------------------------------

  /** The rows satisfying `p`, in table order (a WHERE clause on a scan). */
  function Select(rows: seq<Row>, p: Row -> bool): (r: seq<Row>)
    ensures |r| <= |rows|
    ensures forall k :: 0 <= k < |r| ==> p(r[k]) && r[k] in rows
    ensures forall k :: 0 <= k < |rows| && p(rows[k]) ==> rows[k] in r
    decreases |rows|
  {
    if |rows| == 0 then []
    else if p(rows[0]) then [rows[0]] + Select(rows[1..], p)
    else Select(rows[1..], p)
  }

  /** The records a SELECT returns for the rows, in order. */
  function ReadRows(rows: seq<Row>): (r: seq<Highlight>)
    ensures |r| == |rows|
    ensures forall k :: 0 <= k < |rows| ==> r[k] == ReadRow(rows[k])
    decreases |rows|
  {
    if |rows| == 0 then [] else [ReadRow(rows[0])] + ReadRows(rows[1..])
  }

  /** Records satisfying `q`, in order. */
  function Where(hs: seq<Highlight>, q: Highlight -> bool): (r: seq<Highlight>)
    ensures |r| <= |hs|
    ensures forall k :: 0 <= k < |r| ==> q(r[k]) && r[k] in hs
    ensures forall k :: 0 <= k < |hs| && q(hs[k]) ==> hs[k] in r
    decreases |hs|
  {
    if |hs| == 0 then []
    else if q(hs[0]) then [hs[0]] + Where(hs[1..], q)
    else Where(hs[1..], q)
  }

  /** The first row with the given id. */
  function FindRow(rows: seq<Row>, id: string): (r: Option<Row>)
    ensures r.Some? <==> HasId(rows, id)
    ensures r.Some? ==> r.value in rows && r.value.id == id
    decreases |rows|
  {
    if |rows| == 0 then None
    else if rows[0].id == id then Some(rows[0])
    else
      assert HasId(rows, id) ==> HasId(rows[1..], id) by {
        if HasId(rows, id) {
          var k :| 0 <= k < |rows| && rows[k].id == id;
          assert rows[1..][k - 1] == rows[k];
        }
      }
      FindRow(rows[1..], id)
  }

  // ---------------------------------------------------------------------
  // Statements
  // ---------------------------------------------------------------------

  /** `createTable(table: Highlight.self)`: the thirteen-column table, or
      `TableExists` when the table is already there. */
  function CreateTable(db: Store): (r: Result<Store, SqlError>)
    ensures r.Failure? <==> db.table.Some?
    ensures r.Failure? ==> r.error == TableExists
    ensures r.Success? ==> r.value.table.Some? && r.value.table.value.columns == CreateColumns
    ensures r.Success? ==> r.value.table.value.rows == [] && r.value.userVersion == db.userVersion
  {
    if db.table.Some? then Failure(TableExists)
    else Success(db.(table := Some(Table(CreateColumns, []))))
  }

  /** `addHighlight`: appends the row, or fails on a missing table or column
      or on an id that is already stored. */
  function AddHighlight(db: Store, h: Highlight): (r: Result<Store, SqlError>)
    requires Insertable(h)
    ensures db.table.None? ==> r == Failure(NoSuchTable)
    ensures db.table.Some? && !HasInsertColumns(db.table.value) ==> r == Failure(NoSuchColumn)
    ensures (db.table.Some? && HasInsertColumns(db.table.value) && HasId(db.table.value.rows, CText(h.id)))
              ==> r == Failure(ConstraintFailed)
    ensures r.Success? ==> && db.table.Some?
                           && r.value.table == Some(db.table.value.(rows := db.table.value.rows + [RowOf(h)]))
                           && r.value.userVersion == db.userVersion
  {
    if db.table.None? then Failure(NoSuchTable)
    else if !HasInsertColumns(db.table.value) then Failure(NoSuchColumn)
    else if HasId(db.table.value.rows, CText(h.id)) then Failure(ConstraintFailed)
    else Success(db.(table := Some(db.table.value.(rows := db.table.value.rows + [RowOf(h)]))))
  }

  /** The rows with `f` applied to the one whose id is `id`. */
  function UpdateWhere(rows: seq<Row>, id: string, f: Row -> Row): (r: seq<Row>)
    ensures |r| == |rows|
    ensures forall k :: 0 <= k < |rows| ==> r[k] == if rows[k].id == id then f(rows[k]) else rows[k]
  {
    seq(|rows|, k requires 0 <= k < |rows| => if rows[k].id == id then f(rows[k]) else rows[k])
  }

  function SetStyle(style: int): Row -> Row {
    (row: Row) => row.(style := style)
  }

  function SetNote(note: string): Row -> Row {
    (row: Row) => row.(note := note)
  }

  function IdIsNot(id: string): Row -> bool {
    (row: Row) => row.id != id
  }

  function OnPage(page: int): Highlight -> bool {
    (h: Highlight) => h.page == page
  }

  /** `updateHighlight(id:type:)`: sets `type` on the row with that id. Only a
      missing table is an error; a missing id changes nothing. */
  function UpdateStyle(db: Store, id: string, style: int): (r: Result<Store, SqlError>)
    requires IsInt32(style)
    ensures r.Failure? <==> db.table.None?
    ensures r.Failure? ==> r.error == NoSuchTable
    ensures r.Success? ==> && r.value.userVersion == db.userVersion
                           && r.value.table.Some? && r.value.table.value.columns == db.table.value.columns
  {
    if db.table.None? then Failure(NoSuchTable)
    else Success(db.(table := Some(db.table.value.(
      rows := UpdateWhere(db.table.value.rows, CText(id), SetStyle(style))))))
  }

  /** `updateHighLight(id:note:)`: sets `noteForHighlight` on the row with
      that id. */
  function UpdateNote(db: Store, id: string, note: string): (r: Result<Store, SqlError>)
    ensures r.Failure? <==> db.table.None?
    ensures r.Failure? ==> r.error == NoSuchTable
    ensures r.Success? ==> && r.value.userVersion == db.userVersion
                           && r.value.table.Some? && r.value.table.value.columns == db.table.value.columns
  {
    if db.table.None? then Failure(NoSuchTable)
    else Success(db.(table := Some(db.table.value.(
      rows := UpdateWhere(db.table.value.rows, CText(id), SetNote(CText(note)))))))
  }

  /** `removeHighlight(id:)`: deletes the row with that id, if any. */
  function RemoveHighlight(db: Store, id: string): (r: Result<Store, SqlError>)
    ensures r.Failure? <==> db.table.None?
    ensures r.Failure? ==> r.error == NoSuchTable
    ensures r.Success? ==> && r.value.userVersion == db.userVersion
                           && r.value.table.Some? && r.value.table.value.columns == db.table.value.columns
                           && !HasId(r.value.table.value.rows, CText(id))
  {
    if db.table.None? then Failure(NoSuchTable)
    else Success(db.(table := Some(db.table.value.(
      rows := Select(db.table.value.rows, IdIsNot(CText(id)))))))
  }

  /** `getHighlight(id:)`: the record of the row with that id, or nil. */
  function GetHighlight(db: Store, id: string): (r: Result<Option<Highlight>, SqlError>)
    ensures r.Failure? <==> db.table.None?
    ensures r.Success? ==> (r.value.Some? <==> HasId(db.table.value.rows, CText(id)))
    ensures r.Success? && r.value.Some? ==> r.value.value.id == CText(id)
  {
    if db.table.None? then Failure(NoSuchTable)
    else match FindRow(db.table.value.rows, CText(id))
      case Some(row) => Success(Some(ReadRow(row)))
      case None => Success(None)
  }

  /** The WHERE clause of `getAllHighlights(byBookId:page:)`. */
  function InBook(bookId: string, page: Option<int>): Row -> bool {
    (row: Row) => row.bookId == CText(bookId) && (page.None? || row.page == page.value)
  }

  /** The same condition on a record as read back. */
  function OfBook(bookId: string, page: Option<int>): Highlight -> bool {
    (h: Highlight) => h.bookId == CText(bookId) && (page.None? || h.page == page.value)
  }

  /** `getAllHighlights(byBookId:page:)`: the rows of the book, and of the
      page when one is given. The answer is exactly the full scan's records
      that are of the book (and page), each once and in table order. */
  function GetAllByBook(db: Store, bookId: string, page: Option<int>): (r: Result<seq<Highlight>, SqlError>)
    requires page.Some? ==> IsInt32(page.value)
    ensures r.Failure? <==> db.table.None?
    ensures r.Success? ==> forall k :: 0 <= k < |r.value| ==>
              r.value[k].bookId == CText(bookId) && (page.Some? ==> r.value[k].page == page.value)
    ensures r.Success? ==> forall row :: row in db.table.value.rows && InBook(bookId, page)(row) ==> ReadRow(row) in r.value
    ensures r.Success? ==> r.value == Where(ReadRows(db.table.value.rows), OfBook(bookId, page))
  {
    if db.table.None? then Failure(NoSuchTable)
    else
      var sel := Select(db.table.value.rows, InBook(bookId, page));
      ReadSelected(db.table.value.rows, bookId, page);
      SelectThenRead(db.table.value.rows, InBook(bookId, page), OfBook(bookId, page));
      Success(ReadRows(sel))
  }

  /** Filtering rows and then reading them is reading all rows and then
      filtering the records, when the two conditions agree on every row. */
  lemma {:induction false} SelectThenRead(rows: seq<Row>, p: Row -> bool, q: Highlight -> bool)
    requires forall row: Row :: p(row) <==> q(ReadRow(row))
    ensures ReadRows(Select(rows, p)) == Where(ReadRows(rows), q)
    decreases |rows|
  {
    if |rows| > 0 {
      SelectThenRead(rows[1..], p, q);
      assert ReadRows(rows)[1..] == ReadRows(rows[1..]);
      if p(rows[0]) {
        assert ReadRows([rows[0]] + Select(rows[1..], p))[1..] == ReadRows(Select(rows[1..], p));
      }
    }
  }

  /** The rows of a book read back: each of the book (and page), and every
      such row among them. */
  lemma ReadSelected(rows: seq<Row>, bookId: string, page: Option<int>)
    ensures var hs := ReadRows(Select(rows, InBook(bookId, page)));
            && (forall k :: 0 <= k < |hs| ==> hs[k].bookId == CText(bookId) && (page.Some? ==> hs[k].page == page.value))
            && (forall row :: row in rows && InBook(bookId, page)(row) ==> ReadRow(row) in hs)
  {
    var sel := Select(rows, InBook(bookId, page));
    var hs := ReadRows(sel);
    forall row | row in sel ensures ReadRow(row) in hs {
      var k :| 0 <= k < |sel| && sel[k] == row;
      assert hs[k] == ReadRow(row);
    }
    forall k | 0 <= k < |hs| ensures hs[k].bookId == CText(bookId) && (page.Some? ==> hs[k].page == page.value) {
      assert InBook(bookId, page)(sel[k]);
    }
  }

  /** `getAllHighlights()`: every row. */
  function GetAll(db: Store): (r: Result<seq<Highlight>, SqlError>)
    ensures r.Failure? <==> db.table.None?
    ensures r.Success? ==> |r.value| == |db.table.value.rows|
    ensures r.Success? ==> forall k :: 0 <= k < |r.value| ==> r.value[k] == ReadRow(db.table.value.rows[k])
  {
    if db.table.None? then Failure(NoSuchTable)
    else Success(ReadRows(db.table.value.rows))
  }

  // ---------------------------------------------------------------------
  // Versioning
  // ---------------------------------------------------------------------

  /** `ALTER TABLE highlights ADD COLUMN`, whose failure (no table, column
      already there) is ignored. Existing rows read NULL in the new column. */
  function AddColumn(db: Store, c: Column): (r: Store)
    ensures r.userVersion == db.userVersion
    ensures r.table.None? <==> db.table.None?
    ensures db.table.Some? && HasColumn(db.table.value, c.name) ==> r == db
    ensures db.table.Some? && !HasColumn(db.table.value, c.name) ==>
              r.table.value == Table(db.table.value.columns + [c], db.table.value.rows)
    ensures db.table.Some? ==> HasColumn(r.table.value, c.name) && r.table.value.rows == db.table.value.rows
    ensures db.table.Some? ==> forall n :: HasColumn(db.table.value, n) ==> HasColumn(r.table.value, n)
  {
    if db.table.None? || HasColumn(db.table.value, c.name) then db
    else
      var t := db.table.value;
      assert ColumnNames(t.columns + [c]) == ColumnNames(t.columns) + [c.name];
      db.(table := Some(Table(t.columns + [c], t.rows)))
  }

  /** `migrateToSchema(fromVersion:toVersion:)`: only version 0 has a step,
      which adds `startLocation TEXT` and `endLocation INTEGER`. */
  function MigrateToSchema(db: Store, fromVersion: int): (r: Store)
    ensures fromVersion != 0 ==> r == db
    ensures r.userVersion == db.userVersion && (r.table.None? <==> db.table.None?)
    ensures fromVersion == 0 && db.table.Some? ==>
              && r.table.value.rows == db.table.value.rows
              && HasColumn(r.table.value, "startLocation") && HasColumn(r.table.value, "endLocation")
              && forall n :: HasColumn(db.table.value, n) ==> HasColumn(r.table.value, n)
  {
    if fromVersion + 1 == 1 then
      AddColumn(AddColumn(db, Column("startLocation", TextType)), Column("endLocation", IntegerType))
    else db
  }

  /** `setUserVersion()`: `PRAGMA user_version=1`, when the write succeeds. */
  function SetUserVersion(db: Store, writable: bool): (r: Store)
    ensures r.table == db.table
    ensures r.userVersion == if writable then CurrentSchemaVersion else db.userVersion
  {
    if writable then db.(userVersion := CurrentSchemaVersion) else db
  }

  /** The version check of `init(dbPointer:)`: when `PRAGMA user_version` can
      be read and differs from the current version, migrate from it and then
      record the current version. `readable` and `writable` say whether the
      two pragmas succeed. */
  function OpenStore(db: Store, readable: bool, writable: bool): (r: Store)
    ensures !readable || db.userVersion == CurrentSchemaVersion ==> r == db
    ensures readable && db.userVersion != CurrentSchemaVersion && writable ==> r.userVersion == CurrentSchemaVersion
    ensures db.userVersion != 0 ==> r.table == db.table
    ensures r.table.None? <==> db.table.None?
  {
    if !readable || db.userVersion == CurrentSchemaVersion then db
    else SetUserVersion(MigrateToSchema(db, db.userVersion), writable)
  }

  // ---------------------------------------------------------------------
  // Properties
  // ---------------------------------------------------------------------

  /** A version-0 table without the location columns gains exactly those two
      columns, in order, with NULL in every existing row; the version becomes 1. */
  lemma MigrateFromZero(db: Store)
    requires db.userVersion == 0 && db.table.Some?
    requires !HasColumn(db.table.value, "startLocation") && !HasColumn(db.table.value, "endLocation")
    requires Valid(db)
    ensures var r := OpenStore(db, true, true);
            && r.userVersion == CurrentSchemaVersion
            && r.table.Some? && r.table.value.rows == db.table.value.rows
            && r.table.value.columns == db.table.value.columns + [Column("startLocation", TextType), Column("endLocation", IntegerType)]
            && forall k :: 0 <= k < |r.table.value.rows| ==>
                 r.table.value.rows[k].startLocation.None? && r.table.value.rows[k].endLocation.None?
  {
    var t := db.table.value;
    var t1 := Table(t.columns + [Column("startLocation", TextType)], t.rows);
    assert ColumnNames(t1.columns) == ColumnNames(t.columns) + ["startLocation"];
    assert !HasColumn(t1, "endLocation");
  }

  /** A version above 1 is overwritten by 1 without any migration step. */
  lemma NewerVersionDowngraded(db: Store)
    requires db.userVersion > CurrentSchemaVersion
    ensures OpenStore(db, true, true) == db.(userVersion := CurrentSchemaVersion)
  {
  }

  /** A brand-new database: opening it records version 1 (the migration finds
      no table), and creating the table then gives the full schema. */
  lemma FreshDatabase(readable: bool, writable: bool)
    ensures var db := OpenStore(Store(None, 0), readable, writable);
            && db.table.None?
            && db.userVersion == (if readable && writable then CurrentSchemaVersion else 0)
            && CreateTable(db) == Success(Store(Some(Table(CreateColumns, [])), db.userVersion))
  {
  }

  /** Creating the table on an existing one fails whatever the version, which
      is what a second launch of the app does. */
  lemma CreateTwiceFails(db: Store)
    requires CreateTable(db).Success?
    ensures CreateTable(CreateTable(db).value) == Failure(TableExists)
  {
  }

  /** The created table accepts every INSERT column. */
  lemma CreatedTableInsertable()
    ensures HasInsertColumns(Table(CreateColumns, []))
  {
    CreateStatementShape();
    forall k | 0 <= k < |InsertColumns| ensures HasColumn(Table(CreateColumns, []), InsertColumns[k]) {
      assert ColumnNames(CreateColumns)[k] == InsertColumns[k];
    }
  }

  /** Adding a record and reading it back by its id gives the persisted record. */
  lemma AddThenGet(db: Store, h: Highlight)
    requires Insertable(h) && Valid(db)
    requires AddHighlight(db, h).Success?
    ensures GetHighlight(AddHighlight(db, h).value, h.id) == Success(Some(Persisted(h)))
  {
    var rows := db.table.value.rows;
    var rows' := rows + [RowOf(h)];
    FindRowAfterAbsent(rows, RowOf(h));
    ReadRowOf(h);
  }

  lemma {:induction false} FindRowAfterAbsent(rows: seq<Row>, row: Row)
    requires !HasId(rows, row.id)
    ensures FindRow(rows + [row], row.id) == Some(row)
    decreases |rows|
  {
    if |rows| > 0 {
      assert (rows + [row])[1..] == rows[1..] + [row];
      FindRowAfterAbsent(rows[1..], row);
    }
  }

  /** An id already stored makes the INSERT fail, so the store keeps its rows. */
  lemma AddDuplicateFails(db: Store, h: Highlight, other: Highlight)
    requires Insertable(h) && Insertable(other)
    requires AddHighlight(db, h).Success?
    requires CText(other.id) == CText(h.id)
    ensures AddHighlight(AddHighlight(db, h).value, other) == Failure(ConstraintFailed)
  {
    var t := AddHighlight(db, h).value.table.value;
    assert t.rows[|t.rows| - 1].id == CText(h.id);
    assert ColumnNames(t.columns) == ColumnNames(db.table.value.columns);
  }

  /** Every statement keeps the invariant. */
  lemma AddKeepsValid(db: Store, h: Highlight)
    requires Insertable(h) && Valid(db)
    requires AddHighlight(db, h).Success?
    ensures Valid(AddHighlight(db, h).value)
  {
    var t := db.table.value;
    var rows' := t.rows + [RowOf(h)];
    forall i, j | 0 <= i < j < |rows'| ensures rows'[i].id != rows'[j].id {
      if j == |rows'| - 1 {
        assert rows'[i] == t.rows[i];
      }
    }
    assert HasColumn(t, "startLocation") && HasColumn(t, "endLocation") by {
      assert InsertColumns[11] == "startLocation" && InsertColumns[12] == "endLocation";
    }
  }

  lemma UpdateKeepsValid(db: Store, id: string, style: int, note: string)
    requires Valid(db) && IsInt32(style) && db.table.Some?
    ensures Valid(UpdateStyle(db, id, style).value)
    ensures Valid(UpdateNote(db, id, note).value)
  {
    UpdateKeepsTable(db.table.value, CText(id), SetStyle(style));
    UpdateKeepsTable(db.table.value, CText(id), SetNote(CText(note)));
  }

  /** An update that keeps ids and locations keeps the table invariant. */
  lemma UpdateKeepsTable(t: Table, id: string, f: Row -> Row)
    requires UniqueIds(t.rows) && LocationsFollowColumns(t)
    requires forall row: Row :: f(row).id == row.id
    requires forall row: Row :: f(row).startLocation == row.startLocation && f(row).endLocation == row.endLocation
    ensures var t' := t.(rows := UpdateWhere(t.rows, id, f));
            UniqueIds(t'.rows) && LocationsFollowColumns(t')
  {
  }

  lemma RemoveKeepsValid(db: Store, id: string)
    requires Valid(db) && db.table.Some?
    ensures Valid(RemoveHighlight(db, id).value)
  {
    var rows := db.table.value.rows;
    SelectKeepsUnique(rows, IdIsNot(CText(id)));
    SelectKeepsNullLocations(rows, IdIsNot(CText(id)));
  }

  lemma {:induction false} SelectKeepsUnique(rows: seq<Row>, p: Row -> bool)
    requires UniqueIds(rows)
    ensures UniqueIds(Select(rows, p))
    ensures forall row :: row in Select(rows, p) ==> row in rows[0..]
    decreases |rows|
  {
    if |rows| > 0 {
      SelectKeepsUnique(rows[1..], p);
      var rest := Select(rows[1..], p);
      forall row | row in rest ensures row.id != rows[0].id {
        var k :| 0 <= k < |rows[1..]| && rows[1..][k] == row;
        assert rows[k + 1] == row;
      }
    }
  }

  lemma SelectKeepsNullLocations(rows: seq<Row>, p: Row -> bool)
    ensures (forall k :: 0 <= k < |rows| ==> rows[k].startLocation.None?) ==>
              forall k :: 0 <= k < |Select(rows, p)| ==> Select(rows, p)[k].startLocation.None?
    ensures (forall k :: 0 <= k < |rows| ==> rows[k].endLocation.None?) ==>
              forall k :: 0 <= k < |Select(rows, p)| ==> Select(rows, p)[k].endLocation.None?
  {
  }

  lemma OpenKeepsValid(db: Store, readable: bool, writable: bool)
    requires Valid(db)
    ensures Valid(OpenStore(db, readable, writable))
  {
    if readable && db.userVersion != CurrentSchemaVersion {
      var m := MigrateToSchema(db, db.userVersion);
      if db.userVersion + 1 == 1 {
        var db1 := AddColumn(db, Column("startLocation", TextType));
        AddColumnKeepsValid(db, Column("startLocation", TextType));
        AddColumnKeepsValid(db1, Column("endLocation", IntegerType));
      }
      assert Valid(m);
    }
  }

  /** Adding a column keeps the invariant: the columns only grow. */
  lemma AddColumnKeepsValid(db: Store, c: Column)
    requires Valid(db)
    ensures Valid(AddColumn(db, c))
  {
    if db.table.Some? && !HasColumn(db.table.value, c.name) {
      var t := db.table.value;
      assert ColumnNames(t.columns + [c]) == ColumnNames(t.columns) + [c.name];
    }
  }

  /** Changing the style of a stored id shows in the next read of that id and
      leaves every other field and every other row as it was. */
  lemma UpdateStyleThenGet(db: Store, id: string, style: int, other: string)
    requires Valid(db) && IsInt32(style) && db.table.Some?
    ensures var before := GetHighlight(db, id).value;
            var after := GetHighlight(UpdateStyle(db, id, style).value, id).value;
            && (before.None? <==> after.None?)
            && (before.Some? ==> after.value == before.value.(style := style))
    ensures CText(other) != CText(id) ==>
              GetHighlight(UpdateStyle(db, id, style).value, other) == GetHighlight(db, other)
  {
    var rows := db.table.value.rows;
    UpdateFind(rows, CText(id), SetStyle(style), CText(id));
    UpdateFind(rows, CText(id), SetStyle(style), CText(other));
  }

  /** The same for the note: a later read sees exactly the new note. */
  lemma UpdateNoteThenGet(db: Store, id: string, note: string, other: string)
    requires Valid(db) && db.table.Some?
    ensures var before := GetHighlight(db, id).value;
            var after := GetHighlight(UpdateNote(db, id, note).value, id).value;
            && (before.None? <==> after.None?)
            && (before.Some? ==> after.value == before.value.(noteForHighlight := Some(CText(note))))
    ensures CText(other) != CText(id) ==>
              GetHighlight(UpdateNote(db, id, note).value, other) == GetHighlight(db, other)
  {
    var rows := db.table.value.rows;
    UpdateFind(rows, CText(id), SetNote(CText(note)), CText(id));
    UpdateFind(rows, CText(id), SetNote(CText(note)), CText(other));
  }

  /** Looking up a row after an update that keeps ids. */
  lemma {:induction false} UpdateFind(rows: seq<Row>, id: string, f: Row -> Row, key: string)
    requires forall row: Row :: f(row).id == row.id
    ensures var r := FindRow(UpdateWhere(rows, id, f), key);
            && (r.None? <==> FindRow(rows, key).None?)
            && (r.Some? ==> r.value == if key == id then f(FindRow(rows, key).value) else FindRow(rows, key).value)
    decreases |rows|
  {
    if |rows| > 0 {
      assert UpdateWhere(rows, id, f)[1..] == UpdateWhere(rows[1..], id, f);
      UpdateFind(rows[1..], id, f, key);
    }
  }

  /** After removing an id, reading it gives nil, and reading any other id
      gives what it gave before. */
  lemma RemoveThenGet(db: Store, id: string, other: string)
    requires Valid(db) && db.table.Some?
    ensures GetHighlight(RemoveHighlight(db, id).value, id) == Success(None)
    ensures CText(other) != CText(id) ==>
              GetHighlight(RemoveHighlight(db, id).value, other) == GetHighlight(db, other)
  {
    var rows := db.table.value.rows;
    if CText(other) != CText(id) {
      SelectFind(rows, IdIsNot(CText(id)), CText(other));
    }
  }

  lemma {:induction false} SelectFind(rows: seq<Row>, p: Row -> bool, key: string)
    requires forall row: Row :: row.id == key ==> p(row)
    ensures FindRow(Select(rows, p), key) == FindRow(rows, key)
    decreases |rows|
  {
    if |rows| > 0 {
      SelectFind(rows[1..], p, key);
    }
  }

  /** Removing an id that is not stored changes nothing. */
  lemma RemoveAbsent(db: Store, id: string)
    requires db.table.Some? && !HasId(db.table.value.rows, CText(id))
    ensures RemoveHighlight(db, id) == Success(db)
  {
    SelectAll(db.table.value.rows, IdIsNot(CText(id)));
  }

  lemma {:induction false} SelectAll(rows: seq<Row>, p: Row -> bool)
    requires forall k :: 0 <= k < |rows| ==> p(rows[k])
    ensures Select(rows, p) == rows
    decreases |rows|
  {
    if |rows| > 0 {
      SelectAll(rows[1..], p);
    }
  }

  /** The book query is the full scan filtered by book (and page): only and
      exactly the matching rows, each once, in table order. */
  lemma BookQueryIsFilteredScan(db: Store, bookId: string, page: Option<int>)
    requires db.table.Some? && (page.Some? ==> IsInt32(page.value))
    ensures GetAllByBook(db, bookId, page).value == Where(GetAll(db).value, OfBook(bookId, page))
  {
  }

  /** Reading one more row appends its record. */
  lemma ReadRowsSnoc(rows: seq<Row>, row: Row)
    ensures ReadRows(rows + [row]) == ReadRows(rows) + [ReadRow(row)]
  {
    var l, r := ReadRows(rows + [row]), ReadRows(rows) + [ReadRow(row)];
    forall k | 0 <= k < |l| ensures l[k] == r[k] {
      if k < |rows| {
        assert (rows + [row])[k] == rows[k];
      }
    }
  }

  /** Filtering one more record keeps it exactly when it passes. */
  lemma {:induction false} WhereSnoc(hs: seq<Highlight>, x: Highlight, q: Highlight -> bool)
    ensures Where(hs + [x], q) == Where(hs, q) + (if q(x) then [x] else [])
    decreases |hs|
  {
    if |hs| == 0 {
      assert [] + [x] == [x];
    } else {
      assert (hs + [x])[1..] == hs[1..] + [x];
      WhereSnoc(hs[1..], x, q);
    }
  }

  /** After an add, the full scan and every book query end with the new
      record when it matches, and are otherwise unchanged. */
  lemma AddThenScan(db: Store, h: Highlight, bookId: string, page: Option<int>)
    requires Insertable(h) && AddHighlight(db, h).Success?
    requires page.Some? ==> IsInt32(page.value)
    ensures GetAll(AddHighlight(db, h).value).value == GetAll(db).value + [Persisted(h)]
    ensures GetAllByBook(AddHighlight(db, h).value, bookId, page).value
            == GetAllByBook(db, bookId, page).value + (if OfBook(bookId, page)(Persisted(h)) then [Persisted(h)] else [])
  {
    var rows := db.table.value.rows;
    ReadRowsSnoc(rows, RowOf(h));
    ReadRowOf(h);
    WhereSnoc(ReadRows(rows), Persisted(h), OfBook(bookId, page));
  }

  /** The page-filtered query is the page filter of the book query, in the
      same order. */
  lemma PageQueryRefinesBookQuery(db: Store, bookId: string, page: int)
    requires db.table.Some? && IsInt32(page)
    ensures GetAllByBook(db, bookId, Some(page)).value
            == Where(GetAllByBook(db, bookId, None).value, OnPage(page))
  {
    var rows := db.table.value.rows;
    SelectThenWhere(rows, InBook(bookId, None), InBook(bookId, Some(page)), page);
  }

  lemma {:induction false} SelectThenWhere(rows: seq<Row>, p: Row -> bool, pq: Row -> bool, page: int)
    requires forall row: Row :: pq(row) <==> p(row) && row.page == page
    ensures ReadRows(Select(rows, pq)) == Where(ReadRows(Select(rows, p)), OnPage(page))
    decreases |rows|
  {
    if |rows| > 0 {
      SelectThenWhere(rows[1..], p, pq, page);
      if p(rows[0]) {
        var rest := Select(rows[1..], p);
        assert ReadRows([rows[0]] + rest)[1..] == ReadRows(rest);
      }
    }
  }

  // ---------------------------------------------------------------------
  // Rows from before the migration
  // ---------------------------------------------------------------------

  /** The eleven columns of the version-0 table. */
  const SchemaZeroColumns: seq<Column> := CreateColumns[..11]

  /** A one-row version-0 database as an earlier release left it. */
  function LegacyStore(row: Row): Store
    requires row.startLocation.None? && row.endLocation.None?
  {
    Store(Some(Table(SchemaZeroColumns, [row])), 0)
  }

  /** As written, the first read of a legacy row after the migration traps:
      the migration gives the row NULL locations and the reader turns NULL
      into a string unconditionally. */
  lemma LegacyRowTrapsAsWritten(row: Row)
    requires row.startLocation.None? && row.endLocation.None?
    ensures var db := OpenStore(LegacyStore(row), true, true);
            && db.userVersion == CurrentSchemaVersion
            && db.table.Some? && db.table.value.rows == [row]
            && ReadRowAsWritten(db.table.value.rows[0]) == None
  {
    CreateStatementShape();
    assert ColumnNames(SchemaZeroColumns) == InsertColumns[..11];
    assert !HasColumn(Table(SchemaZeroColumns, [row]), "startLocation");
    assert !HasColumn(Table(SchemaZeroColumns, [row]), "endLocation");
    MigrateFromZero(LegacyStore(row));
  }

  /** Read with NULL as the empty string, the same legacy row comes back with
      every stored field and the record's default locations, and the getter
      finds it by its id. */
  lemma LegacyRowReadsDefaults(row: Row)
    requires row.startLocation.None? && row.endLocation.None? && '\0' !in row.id
    ensures var db := OpenStore(LegacyStore(row), true, true);
            && GetHighlight(db, row.id) == Success(Some(ReadRow(row)))
            && ReadRow(row).startLocation == "" && ReadRow(row).endLocation == ""
            && ReadRow(row).content == row.content && ReadRow(row).date == row.date
  {
    LegacyRowTrapsAsWritten(row);
    var db := OpenStore(LegacyStore(row), true, true);
    assert HasId(db.table.value.rows, row.id);
  }
}

=== FILE: text.dfy ===
/** String primitives the highlight code leans on: literal search (NSString
    `range(of:options:.literal)`), Swift's `replacingOccurrences(of:with:)` and
    `components(separatedBy:)`, JavaScript's `split`/`join`, Swift's `Int(String)`
    and the decimal printing of integers. Strings are `seq<char>`. */
module Text {
  import opened Wrappers

  /** `p` occurs in `s` starting at index `i`. */
  predicate OccursAt(p: seq<char>, s: seq<char>, i: int) {
    0 <= i && i + |p| <= |s| && s[i..i + |p|] == p
  }

  /** `p` occurs somewhere in `s`. */
  predicate Occurs(p: seq<char>, s: seq<char>) {
    exists i :: 0 <= i <= |s| && OccursAt(p, s, i)
  }

  /** A stretch inside a text found at `i` is the same stretch of `s`. */
  lemma WithinOccurrence(t: seq<char>, s: seq<char>, i: nat, j: nat, n: nat)
    requires OccursAt(t, s, i) && i <= j && j + n <= i + |t|
    ensures t[j - i..j - i + n] == s[j..j + n]
  {
    var a, b := t[j - i..j - i + n], s[j..j + n];
    forall x | 0 <= x < n ensures a[x] == b[x] {
      assert s[i..i + |t|][j - i + x] == s[j + x];
    }
  }

  /** The first index at or after `from` where `p` occurs. */
  function FindFrom(s: seq<char>, p: seq<char>, from: nat): (r: Option<nat>)
    ensures r.Some? ==> from <= r.value && OccursAt(p, s, r.value)
    ensures r.Some? ==> forall j :: from <= j < r.value ==> !OccursAt(p, s, j)
    ensures r.None? ==> forall j :: from <= j ==> !OccursAt(p, s, j)
    decreases |s| - from
  {
    if from + |p| > |s| then None
    else if s[from..from + |p|] == p then Some(from)
    else FindFrom(s, p, from + 1)
  }

  /** NSString's literal `range(of:)`: the first occurrence of `p` in `s`.
      Foundation reports an empty search string as not found. */
  function FindLiteral(s: seq<char>, p: seq<char>): (r: Option<nat>)
    ensures r.Some? <==> |p| > 0 && Occurs(p, s)
    ensures r.Some? ==> OccursAt(p, s, r.value) && forall j :: 0 <= j < r.value ==> !OccursAt(p, s, j)
  {
    if |p| == 0 then None else FindFrom(s, p, 0)
  }

  /** Swift's `replacingOccurrences(of: pat, with: rep)`: every non-overlapping
      occurrence, scanning left to right, is replaced. */
  function ReplaceAll(s: seq<char>, pat: seq<char>, rep: seq<char>): seq<char>
    requires |pat| > 0
    decreases |s|
  {
    if |s| < |pat| then s
    else if s[..|pat|] == pat then rep + ReplaceAll(s[|pat|..], pat, rep)
    else [s[0]] + ReplaceAll(s[1..], pat, rep)
  }

  /** Characters that cannot start an occurrence of `pat` pass through
      `ReplaceAll` unchanged. */
  lemma {:induction false} ReplaceAllSkips(a: seq<char>, t: seq<char>, pat: seq<char>, rep: seq<char>)
    requires |pat| > 0 && pat[0] !in a
    ensures ReplaceAll(a + t, pat, rep) == a + ReplaceAll(t, pat, rep)
    decreases |a|
  {
    if |a| > 0 {
      var s := a + t;
      if |s| < |pat| {
        assert !OccursAt(pat, t, 0);
        ReplaceAllShort(t, pat, rep);
        assert ReplaceAll(s, pat, rep) == s;
      } else {
        assert s[0] == a[0] != pat[0];
        assert s[1..] == a[1..] + t;
        ReplaceAllSkips(a[1..], t, pat, rep);
      }
    } else {
      assert a + t == t;
    }
  }

  lemma ReplaceAllShort(s: seq<char>, pat: seq<char>, rep: seq<char>)
    requires |pat| > 0 && |s| < |pat|
    ensures ReplaceAll(s, pat, rep) == s
  {
  }

  /** A string without the first character of `pat` is left as it is. */
  lemma ReplaceAllAbsent(s: seq<char>, pat: seq<char>, rep: seq<char>)
    requires |pat| > 0 && pat[0] !in s
    ensures ReplaceAll(s, pat, rep) == s
  {
    ReplaceAllSkips(s, [], pat, rep);
    assert s + [] == s;
  }

  /** Splitting on a separator character (Swift `components(separatedBy:)`,
      JavaScript `split`): there is always at least one component, and the
      empty string gives one empty component. */
  function Split(s: seq<char>, sep: char): (r: seq<seq<char>>)
    ensures |r| > 0
    ensures forall k :: 0 <= k < |r| ==> sep !in r[k]
    decreases |s|
  {
    if |s| == 0 then [[]]
    else
      var rest := Split(s[1..], sep);
      if s[0] == sep then [[]] + rest
      else [[s[0]] + rest[0]] + rest[1..]
  }

  /** Joining components with a separator (JavaScript `Array.prototype.join`). */
  function Join(parts: seq<seq<char>>, sep: char): seq<char>
    decreases |parts|
  {
    if |parts| == 0 then []
    else if |parts| == 1 then parts[0]
    else parts[0] + [sep] + Join(parts[1..], sep)
  }

  lemma {:induction false} SplitPrefix(a: seq<char>, t: seq<char>, sep: char)
    requires sep !in a
    ensures Split(a + t, sep) == [a + Split(t, sep)[0]] + Split(t, sep)[1..]
    decreases |a|
  {
    if |a| > 0 {
      assert (a + t)[1..] == a[1..] + t;
      SplitPrefix(a[1..], t, sep);
      assert [a[0]] + (a[1..] + Split(t, sep)[0]) == a + Split(t, sep)[0];
    } else {
      var r := Split(t, sep);
      assert a + t == t;
      assert a + r[0] == r[0];
      assert r == [r[0]] + r[1..];
    }
  }

  /** Splitting undoes joining when no component contains the separator. */
  lemma {:induction false} SplitJoin(parts: seq<seq<char>>, sep: char)
    requires |parts| > 0
    requires forall k :: 0 <= k < |parts| ==> sep !in parts[k]
    ensures Split(Join(parts, sep), sep) == parts
    decreases |parts|
  {
    if |parts| == 1 {
      SplitPrefix(parts[0], [], sep);
      assert parts[0] + [] == parts[0];
    } else {
      var tail := Join(parts[1..], sep);
      SplitJoin(parts[1..], sep);
      assert parts[0] + [sep] + tail == parts[0] + ([sep] + tail);
      SplitPrefix(parts[0], [sep] + tail, sep);
      assert ([sep] + tail)[1..] == tail;
      assert Split([sep] + tail, sep) == [[]] + parts[1..];
      assert parts[0] + [] == parts[0];
      assert parts == [parts[0]] + parts[1..];
    }
  }

  /** Joining undoes splitting. */
  lemma {:induction false} JoinSplit(s: seq<char>, sep: char)
    ensures Join(Split(s, sep), sep) == s
    decreases |s|
  {
    if |s| > 0 {
      JoinSplit(s[1..], sep);
      var rest := Split(s[1..], sep);
      if s[0] != sep {
        if |rest| > 1 {
          assert ([[s[0]] + rest[0]] + rest[1..])[1..] == rest[1..];
          assert Join(rest, sep) == rest[0] + [sep] + Join(rest[1..], sep);
        }
      }
    }
  }

  // ---------------------------------------------------------------------
  // Decimal integers
  // ---------------------------------------------------------------------

  predicate IsDigit(c: char) {
    '0' <= c <= '9'
  }

  predicate AllDigits(s: seq<char>) {
    forall i :: 0 <= i < |s| ==> IsDigit(s[i])
  }

  function DigitValue(c: char): nat
    requires IsDigit(c)
  {
    (c as int) - ('0' as int)
  }

  function DigitChar(d: nat): (c: char)
    requires d < 10
    ensures IsDigit(c) && DigitValue(c) == d
  {
    (('0' as int) + d) as char
  }

  /** The value of a non-empty run of decimal digits, most significant first. */
  function DigitsValue(s: seq<char>): nat
    requires AllDigits(s)
    decreases |s|
  {
    if |s| == 0 then 0 else DigitsValue(s[..|s| - 1]) * 10 + DigitValue(s[|s| - 1])
  }

  /** The decimal spelling of a natural number, without leading zeros. */
  function NatToString(n: nat): (r: seq<char>)
    ensures |r| > 0 && AllDigits(r) && DigitsValue(r) == n
    ensures r[0] != '0' || n == 0
    decreases n
  {
    if n < 10 then [DigitChar(n)]
    else
      var r := NatToString(n / 10) + [DigitChar(n % 10)];
      assert r[..|r| - 1] == NatToString(n / 10);
      r
  }

  /** How Swift string interpolation and JavaScript's number-to-string conversion
      spell an integer. */
  function IntToString(x: int): (r: seq<char>)
    ensures |r| > 0 && forall k :: 0 <= k < |r| ==> r[k] == '-' || IsDigit(r[k])
    ensures ',' !in r && '&' !in r
  {
    if x < 0 then "-" + NatToString(-x) else NatToString(x)
  }

  // Swift `Int` is 64 bits wide: `Int(String)` answers nil on overflow.
  const Int64Min: int := -0x8000_0000_0000_0000
  const Int64Max: int := 0x7FFF_FFFF_FFFF_FFFF

  predicate IsInt64(x: int) {
    Int64Min <= x <= Int64Max
  }

  /** Swift's `Int(_ description: String)`: an optional `+` or `-` followed by at
      least one ASCII digit and nothing else; nil when malformed or out of range. */
  function ParseInt(s: seq<char>): (r: Option<int>)
    ensures r.Some? ==> IsInt64(r.value)
    ensures r.Some? ==> |s| > 0
  {
    if |s| > 0 && (s[0] == '-' || s[0] == '+') then
      var mag := s[1..];
      if |mag| > 0 && AllDigits(mag) then
        var v := if s[0] == '-' then -(DigitsValue(mag) as int) else DigitsValue(mag);
        if IsInt64(v) then Some(v) else None
      else None
    else if |s| > 0 && AllDigits(s) && IsInt64(DigitsValue(s)) then Some(DigitsValue(s))
    else None
  }

  /** Swift parses back what it prints. */
  lemma ParseIntToString(x: int)
    requires IsInt64(x)
    ensures ParseInt(IntToString(x)) == Some(x)
  {
    if x < 0 {
      var s := IntToString(x);
      assert s[1..] == NatToString(-x);
    }
  }

  // JavaScript numbers are doubles: integers are exact up to 2^53.
  const MaxSafeInteger: int := 0x20_0000_0000_0000

  /** JavaScript's `Number(str)` on integer spellings: the empty string is 0, and
      an optional `+` or `-` followed by decimal digits is that integer. Every
      other spelling (NaN, `0x`/`0o`/`0b` radix prefixes, fractions, exponents,
      surrounding blanks, magnitudes beyond 2^53) is outside the model and
      answers None. */
  function ParseJsNumber(s: seq<char>): (r: Option<int>)
    ensures |s| == 0 ==> r == Some(0)
    ensures r.Some? && |s| > 0 ==> (s[0] == '-' || s[0] == '+' || IsDigit(s[0]))
    ensures |s| > 1 && s[0] == '+' && IsDigit(s[1]) ==> r == ParseJsNumber(s[1..])
    ensures |s| > 1 && s[0] == '-' && IsDigit(s[1]) ==>
              r == (if ParseJsNumber(s[1..]).Some? then Some(-ParseJsNumber(s[1..]).value) else None)
  {
    if |s| == 0 then Some(0)
    else if (s[0] == '-' || s[0] == '+') && |s| > 1 && AllDigits(s[1..]) && DigitsValue(s[1..]) <= MaxSafeInteger then
      Some(if s[0] == '-' then -(DigitsValue(s[1..]) as int) else DigitsValue(s[1..]))
    else if AllDigits(s) && DigitsValue(s) <= MaxSafeInteger then Some(DigitsValue(s))
    else None
  }

  /** JavaScript parses back what it prints, for safe integers. */
  lemma JsNumberToString(x: int)
    requires -MaxSafeInteger <= x <= MaxSafeInteger
    ensures ParseJsNumber(IntToString(x)) == Some(x)
  {
    if x < 0 {
      var s := IntToString(x);
      assert s[1..] == NatToString(-x);
    }
  }
}

=== FILE: wrappers.dfy ===
/** The optional value used throughout the model for Swift optionals, JavaScript
    `null`/`undefined` results and "not found" answers, and the result of an
    operation that can throw. */
module Wrappers {

  datatype Option<+T> = None | Some(value: T) {

    /** The wrapped value, or `default` when there is none (Swift's `??`). */
    function GetOr(default: T): T {
      match this
      case Some(v) => v
      case None => default
    }
  }

  /** The outcome of a throwing call: a value, or the error it threw. */
  datatype Result<+R, +E> = Success(value: R) | Failure(error: E) {

    /** The value, or `default` on failure (Swift's `(try? f()) ?? default`). */
    function ValueOr(default: R): R {
      match this
      case Success(v) => v
      case Failure(_) => default
    }
  }
}
